=== FILE: README.md ===
# gifts-monitor-bot — a Dafny model of its change detector and chat front end

The bot watches peek.tg, a catalogue of Telegram collectible gifts. A user keeps
*presets*: a gift name plus optional model, background and pattern filters. The
bot periodically re-reads how many gifts match each active preset. It writes each
accepted reading to a history log. When a reading differs from the previous one
and a second read confirms it, the bot notifies the preset's owner.

This project models that core as pure functions over immutable values. The
browser, SQLite, cron and Telegram are replaced by values passed in:

- a page snapshot says what every selector query would answer;
- an `Attempt` oracle (`nat -> Attempt`) gives the outcome of each page load;
- `Env` records carry the clock, the delivery outcome of each message and the
  outcome of each message edit.

Storage is a `Db` value holding the two tables. Sessions, monitor statistics
and the access list are records that each step threads through.

Modules, one per source file plus shared helpers:

| module | file | models |
|---|---|---|
| `Common` | common.dfy | `Option`, `Result`, JavaScript truthiness of optional strings, sequence filtering |
| `Js` | js.dfy | `trim`, `split`/`join`, `parseInt`, number-to-text and `slice`, with ECMAScript semantics |
| `Ordering` | ordering.dfy | a stable sort by a key, newest first (`ORDER BY … DESC`) |
| `Database` | database.dfy | the `presets` and `monitoring_history` tables, AUTOINCREMENT ids, the foreign key |
| `PresetModel` | preset_model.dfy | `PresetModel` (src/database/models/preset.model.ts) |
| `HistoryModel` | history_model.dfy | `MonitoringHistoryModel` (src/database/models/monitoring-history.model.ts) |
| `PeekParser` | parser.dfy | `PeekTgParser` (src/parser/peek-tg-parser.ts) |
| `ParserService` | parser_service.dfy | `ParserService` (src/services/parser-service.ts) |
| `FormUrlEncoded` | form_urlencoded.dfy | the `application/x-www-form-urlencoded` serializer (section 5.2 of the WHATWG URL Standard) that `URLSearchParams` uses |
| `Monitoring` | monitoring.dfy | `MonitoringService` (src/services/monitoring-service.ts) |
| `Validators` | validators.dfy | `InputValidator` (src/bot/validators.ts) |
| `Sessions` | sessions.dfy | `SessionManager` (src/bot/session-manager.ts) |
| `Keyboards` | keyboards.dfy | the keyboards of src/bot/keyboards.ts |
| `CommandHandlers` | command_handlers.dfy | `CommandHandlers` (src/bot/handlers/command-handlers.ts) |
| `Formatter` | formatter.dfy | `MessageFormatter` (src/bot/message-formatter.ts) |
| `AccessControl` | access_control.dfy | src/bot/middleware/access-control.ts and src/config/access-control.ts |

Messages are modelled as sequences of tagged lines with a `Render` function that
gives their HTML text. Properties are stated on the line sequences. A substring
property of the raw text would be false in general, because a gift name may
contain another line's wording.

## Model

| member | source | states |
|---|---|---|
| Common.Normalize | src/services/parser-service.ts:53-60 | a truthy optional string is kept and a falsy one (absent or empty) becomes absent |
| Common.Filter | src/services/monitoring-service.ts:211 | the kept elements are exactly the input elements that satisfy the test, and their number is the count of such elements |
| Common.ThreadAnswers | src/services/monitoring-service.ts:223-236 | when each step of an in-order loop keeps an invariant and, under it, answers independently of the state, the k-th answer collected is that independent answer for the k-th element, and the invariant still holds at the end |
| Common.Take | src/bot/message-formatter.ts:168 | the result is the prefix of length min(n, length) |
| Js.TrimStart | src/bot/validators.ts:9 | the result is a suffix of the input, does not start with white space, and only white space was removed |
| Js.TrimEnd | src/bot/validators.ts:9 | the result is a prefix of the input, does not end with white space, and only white space was removed |
| Js.Trim | src/bot/validators.ts:9 | the result is no longer than the input and starts and ends with non-white characters |
| Js.LeadingWhite | src/bot/validators.ts:9 | the length of the leading run of white space: those characters are white and the next one is not |
| Js.TrimRemovesOnlyWhite | src/bot/validators.ts:9 | the trimmed text is the window of the input that starts after its leading white space, and everything after that window is white space |
| Js.TrimEmptyIffBlank | src/bot/validators.ts:9 | trimming gives the empty string exactly when every character is white space |
| Js.TrimIdempotent | src/bot/validators.ts:263 | trimming twice is trimming once |
| Js.Split | src/config/access-control.ts:8-9 | splitting gives at least one piece, and no piece contains the separator |
| Js.SplitJoin | src/config/access-control.ts:8-9 | joining the pieces of a split with the separator gives back the text |
| Js.JoinSplit | src/config/access-control.ts:8-9 | splitting a join of separator-free pieces gives back the pieces |
| Js.DigitPrefixLen | src/config/access-control.ts:10 | the length of the longest all-digit prefix: those characters are digits and the next one is not |
| Js.NatToString | src/bot/keyboards.ts:123 | the decimal text of a natural number is a nonempty digit string whose value is that number, with no leading zero unless it is "0" |
| Js.IntToStringParses | src/config/access-control.ts:10 | `parseInt(String(n), 10)` gives back `n` for every integer |
| Js.IntToStringParsesNoRadix | src/bot/validators.ts:123 | `parseInt(String(n))` gives back `n` for every integer |
| Js.IntToStringTrimmed | src/config/access-control.ts:10 | the text of an integer has nothing to trim and contains no comma |
| Js.DecimalIsRadix10 | src/bot/validators.ts:123 | on a digit string, `parseInt` without a radix reads the same digits and value as base 10 |
| Js.Utf16Length | src/bot/validators.ts:191 | the UTF-16 length is the character count plus one for every character at or above U+10000, which needs a surrogate pair; it lies between the count and twice it, and is 0 only for the empty string |
| Js.Slice | src/bot/keyboards.ts:103 | `slice(start, end)`: after counting negative indices from the end and clamping both, the result has length end − start (0 when they cross) and element k is the input's element start + k |
| Js.SliceFrom | src/bot/validators.ts:268 | `slice(start)` is the suffix from the clamped start, the same as slicing to the length |
| Js.SliceWithin | src/bot/keyboards.ts:103 | with bounds inside the sequence `slice` is the plain subsequence, and a negative start takes that many elements from the end |
| Ordering.Insert | src/database/models/monitoring-history.model.ts:39-49 | inserting into a newest-first sequence keeps it newest first and adds exactly the one element |
| Ordering.SortDesc | src/database/models/monitoring-history.model.ts:39-49 | the result is ordered newest first and is a permutation of the input |
| Ordering.HeadIsMax | src/database/models/monitoring-history.model.ts:51-60 | the first element of a newest-first sequence has the largest key |
| Ordering.PrefixIsTop | src/database/models/monitoring-history.model.ts:39-49 | a prefix of a newest-first sequence holds keys at least as large as everything after it |
| Database.EmptyValid | src/database/migrations.ts:46 | freshly migrated tables satisfy the key and foreign-key constraints |
| Database.FindPreset | src/database/models/preset.model.ts:36-50 | the lookup finds a preset with the id, and fails exactly when no row has it |
| Database.FindRecord | src/database/models/monitoring-history.model.ts:28-37 | the lookup finds a record with the id, and fails exactly when no row has it |
| Database.FindPresetUnique | src/database/models/preset.model.ts:36-50 | in valid tables, looking up a stored preset's id finds that very preset |
| Database.FindRecordUnique | src/database/models/monitoring-history.model.ts:28-37 | in valid tables, looking up a stored record's id finds that very record |
| Database.KeepHistoryValid | src/database/models/monitoring-history.model.ts:141-154 | deleting any selection of history records keeps the tables valid |
| PresetModel.GetById | src/database/models/preset.model.ts:36-50 | succeeds exactly when the id exists, returns the row with that id, and otherwise fails with "Пресет с ID n не найден" |
| PresetModel.Create | src/database/models/preset.model.ts:11-34 | appends one new row with a fresh id and keeps the tables valid; falsy filters are stored as NULL, truthy ones as given; `is_active` defaults to true; reading the id back gives the row |
| PresetModel.UpdateRows | src/database/models/preset.model.ts:85-108 | rewrites only the row with the id and leaves every other row as it was |
| PresetModel.Update | src/database/models/preset.model.ts:85-121 | fails exactly for a missing id; changes exactly the given fields and keeps owner, creation time and every other preset; with no fields given it writes nothing |
| PresetModel.ToggleActive | src/database/models/preset.model.ts:155-158 | succeeds exactly when the id exists, and the stored flag becomes the negation of the old one |
| PresetModel.ToggleTwiceRestores | src/database/models/preset.model.ts:155-158 | toggling twice gives back the original preset, up to its `updated_at` stamp |
| PresetModel.GetByUserId | src/database/models/preset.model.ts:52-61 | exactly the user's presets, each once, newest first |
| PresetModel.GetActiveByUserId | src/database/models/preset.model.ts:63-72 | exactly the user's active presets, each once, newest first |
| PresetModel.ActiveAmongOwned | src/bot/handlers/command-handlers.ts:80-81 | the active presets among `getByUserId` are, as a multiset, what `getActiveByUserId` returns |
| PresetModel.GetAllActive | src/database/models/preset.model.ts:74-83 | exactly the active presets, each once, newest first |
| PresetModel.FindByCriteria | src/database/models/preset.model.ts:128-153 | the presets with the gift name, each constrained by model, background and pattern only when that criterion is truthy, newest first |
| PresetModel.CountRowsIsCountWhere | src/database/models/preset.model.ts:160-164 | the row count of the `COUNT(*)` query equals the number of the user's presets |
| PresetModel.CountByUserId | src/database/models/preset.model.ts:160-164 | the count equals the length of the user's preset list |
| PresetModel.RemoveValid | src/database/migrations.ts:46 | removing a preset together with its history keeps the tables valid |
| PresetModel.Delete | src/database/models/preset.model.ts:123-126 | removes the preset and, by the cascading foreign key, exactly its history; all else stays; a missing id changes nothing |
| HistoryModel.ApplyLimit | src/database/models/monitoring-history.model.ts:39-49 | the result is always a prefix of the rows; a positive limit keeps min(limit, rows) of them, and any other limit keeps them all |
| HistoryModel.GetById | src/database/models/monitoring-history.model.ts:28-37 | succeeds exactly when the id exists, returns that record, and otherwise fails with "Запись истории с ID n не найдена" |
| HistoryModel.Create | src/database/models/monitoring-history.model.ts:11-26 | for an existing preset, appends exactly one record with a fresh id, the given count, the time and the flag (false by default), which reading its id returns; for a missing preset, fails with the foreign-key error |
| HistoryModel.NewestFirst | src/database/models/monitoring-history.model.ts:39-49 | exactly the preset's records, each once, newest first |
| HistoryModel.ChangedNewestFirst | src/database/models/monitoring-history.model.ts:62-72 | exactly the records marked changed, each once, newest first |
| HistoryModel.LimitKeepsNewest | src/database/models/monitoring-history.model.ts:39-49 | a limited newest-first list is a sub-multiset whose records are no older than any record it leaves out |
| HistoryModel.GetByPresetId | src/database/models/monitoring-history.model.ts:39-49 | only the preset's records, newest first; all of them without a positive limit; with one, min(limit, total) records that are the newest |
| HistoryModel.GetLatestByPresetId | src/database/models/monitoring-history.model.ts:51-60 | absent exactly when the preset has no record, else one of its records whose time is the latest |
| HistoryModel.GetChangedRecords | src/database/models/monitoring-history.model.ts:62-72 | only changed records, newest first; without a positive limit exactly the changed records, as a multiset; with one, min(limit, number changed) records, none older than a left-out one |
| HistoryModel.MinCount | src/database/models/monitoring-history.model.ts:102-139 | a count that occurs and is no larger than any other |
| HistoryModel.MaxCount | src/database/models/monitoring-history.model.ts:102-139 | a count that occurs and is no smaller than any other |
| HistoryModel.LastCheck | src/database/models/monitoring-history.model.ts:102-139 | a time that occurs and is no earlier than any other |
| HistoryModel.GetStatisticsByPresetId | src/database/models/monitoring-history.model.ts:102-139 | counts the preset's records and its changed records, gives the minimum and maximum count and the latest time; with no record all are 0 and the time is absent |
| HistoryModel.DeleteOldRecords | src/database/models/monitoring-history.model.ts:141-149 | removes exactly the records older than the cutoff, reports how many, and with a negative day count removes nothing |
| HistoryModel.DeleteByPresetId | src/database/models/monitoring-history.model.ts:151-154 | removes exactly the preset's records and keeps the presets |
| HistoryModel.CreateThenLatest | src/database/models/monitoring-history.model.ts:11-26 | a record newer than all of its preset's records becomes that preset's latest |
| HistoryModel.DeleteByPresetIdIsolated | src/database/models/monitoring-history.model.ts:151-154 | after deleting one preset's history it has no latest record, and another preset's queries answer as before |
| PeekParser.ButtonSelectors | src/parser/peek-tg-parser.ts:162-219 | each dropdown is looked for through nine selectors |
| PeekParser.FirstMatch | src/parser/peek-tg-parser.ts:228-238 | the index of the first selector that finds an element; absent exactly when none does |
| PeekParser.SelectDropdownValue | src/parser/peek-tg-parser.ts:223-330 | no button found means nothing is done; otherwise the first matching button opens, the first matching search box is used, and an option is looked for only when a search box was found |
| PeekParser.FormFields | src/parser/peek-tg-parser.ts:157-221 | the gift dropdown comes first, each of model, background and pattern is driven exactly when it is truthy, and they keep that order |
| PeekParser.FillSearchForm | src/parser/peek-tg-parser.ts:157-221 | one dropdown selection per driven field, in order, each with that field's value |
| PeekParser.ClickSearchButton | src/parser/peek-tg-parser.ts:332-358 | clicks the first of the six selectors that matches, and fails with "Кнопка поиска не найдена" exactly when none does |
| PeekParser.RunLen | src/parser/peek-tg-parser.ts:432 | the longest leading run of digits and commas |
| PeekParser.RunStart | src/parser/peek-tg-parser.ts:432 | the position of the first digit or comma |
| PeekParser.CountRun | src/parser/peek-tg-parser.ts:432-433 | the first maximal run of `[\d,]`: absent exactly when there is no digit or comma, else nonempty and leftmost |
| PeekParser.RemoveCommas | src/parser/peek-tg-parser.ts:435 | the result has every character of the input except commas, and no comma |
| PeekParser.ParseCountText | src/parser/peek-tg-parser.ts:430-438 | absent exactly when there is no run, NaN exactly when the run is commas only, otherwise a non-negative number |
| PeekParser.CountTextRoundTrip | src/parser/peek-tg-parser.ts:430-438 | the decimal text of n, set in text that has no digit or comma beside it, reads back as n |
| PeekParser.SkipWhite | src/parser/peek-tg-parser.ts:450 | skips exactly the white space the `\s*` of the pattern consumes |
| PeekParser.CaptureAt | src/parser/peek-tg-parser.ts:450-453 | the captured count is a nonempty run of digits and commas |
| PeekParser.FindLabel | src/parser/peek-tg-parser.ts:448-450 | the first position at or after the start where the case-insensitive "Найдено:" pattern matches |
| PeekParser.FoundCapture | src/parser/peek-tg-parser.ts:447-457 | absent exactly when the pattern matches nowhere, else the capture of its leftmost match |
| PeekParser.CountSources | src/parser/peek-tg-parser.ts:423-512 | the eight count sources, in the order the extractor tries them |
| PeekParser.FirstSome | src/parser/peek-tg-parser.ts:423-512 | the first source that yields a value; absent exactly when none does |
| PeekParser.ExtractCount | src/parser/peek-tg-parser.ts:423-512 | the value of the first source that yields one, in the fixed order, else 0 |
| PeekParser.ExtractCountNonNegative | src/parser/peek-tg-parser.ts:423-512 | a finite extracted count is never negative |
| PeekParser.ItemId | src/parser/peek-tg-parser.ts:557-559 | the trimmed `data-id` when truthy, else the trimmed `id`, else `item-` and the clock |
| PeekParser.ItemName | src/parser/peek-tg-parser.ts:562-575 | the trimmed title text, or "Unknown Gift" when there is no title or it trims to empty |
| PeekParser.ExtractGiftItem | src/parser/peek-tg-parser.ts:554-584 | absent exactly for a card that throws; otherwise its id, name, image and rarity |
| PeekParser.ItemSource | src/parser/peek-tg-parser.ts:519-533 | the elements of the first item selector that finds any, or none |
| PeekParser.ExtractItems | src/parser/peek-tg-parser.ts:536-545 | one item per readable card, in order; cards that throw are skipped |
| PeekParser.ExtractGiftItems | src/parser/peek-tg-parser.ts:514-552 | at most ten items: those of the readable cards among the first ten of the chosen source |
| PeekParser.GiftSegment | src/parser/peek-tg-parser.ts:746-748 | a captured segment is nonempty and contains no slash |
| PeekParser.FindSegment | src/parser/peek-tg-parser.ts:746 | the first position at or after the start where `/gifts/` is followed by a non-slash |
| PeekParser.GiftSegmentRoundTrip | src/parser/peek-tg-parser.ts:746-748 | in an address whose only `/gifts/` is followed by a segment, the segment is what is captured |
| PeekParser.ExtractLastGiftLink | src/parser/peek-tg-parser.ts:667-761 | nothing without a grid, without cards or on a failure; else, for the last card, its `t.me/nft/` href, else `https://t.me/nft/` plus the gift segment of its address, else nothing |
| PeekParser.PerformSearch | src/parser/peek-tg-parser.ts:132-155 | fails when the form never loads or no search button exists; otherwise the extracted count, the extracted items (at most ten) and the criteria |
| PeekParser.UpdateStats | src/parser/peek-tg-parser.ts:586-591 | a success adds one to the successes and a failure one to the failures, and nothing else changes |
| PeekParser.ResetStats | src/parser/peek-tg-parser.ts:658-665 | every counter is back to zero and the browser is untouched |
| PeekParser.AttemptOutcome | src/parser/peek-tg-parser.ts:41-87 | without a browser, "Браузер не инициализирован…"; an unreachable page or a failed search is rethrown with code SEARCH_FAILED; otherwise the search result |
| PeekParser.Request | src/parser/peek-tg-parser.ts:41-87 | without a browser nothing is counted; otherwise one request is counted and exactly one of success or failure, so the counters stay balanced |
| PeekParser.SearchGifts | src/parser/peek-tg-parser.ts:41-87 | as AttemptOutcome for the result; counters untouched without a browser, else one request and one success or failure; failures carry SEARCH_FAILED |
| PeekParser.RetryFrom | src/parser/peek-tg-parser.ts:92-105 | attempts run until the first success or the last attempt; a pause separates attempts; total failure rethrows the last error with the attempt count stamped on it |
| PeekParser.SearchGiftsWithRetry | src/parser/peek-tg-parser.ts:89-108 | with no attempts allowed it fails "Все попытки поиска исчерпаны" without searching; otherwise at most that many searches, each failed before the last one, pauses only between attempts, the first success returned, else the last error stamped with the attempt count |
| PeekParser.RetryReturnsFirstSuccess | src/parser/peek-tg-parser.ts:89-108 | when attempt k is the first to succeed, exactly k+1 attempts are made and its result is returned |
| PeekParser.RetryFromFirstSuccess | src/parser/peek-tg-parser.ts:92-105 | when attempt k is the first to succeed, the loop stops after k+1 attempts with that result |
| PeekParser.RetryKeepsBalance | src/parser/peek-tg-parser.ts:586-591 | after retrying, requests still equal successes plus failures |
| PeekParser.GetLastGiftLink | src/parser/peek-tg-parser.ts:603-652 | without a browser it throws and counts nothing; otherwise one request counted; a successful search gives the extracted link and a success; a failure is rethrown with LINK_EXTRACTION_FAILED |
| ParserService.Initialize | src/services/parser-service.ts:16-29 | a no-op once initialized; otherwise it succeeds exactly when the browser launches, and then the service and its parser are both ready |
| ParserService.InitializeIdempotent | src/services/parser-service.ts:16-19 | a second `initialize` changes nothing |
| ParserService.Close | src/services/parser-service.ts:31-37 | afterwards the service is not initialized and its counters are unchanged |
| ParserService.CriteriaOf | src/services/parser-service.ts:53-60 | the gift name is kept, and each filter is present exactly when the preset's value is truthy, with that value |
| ParserService.SearchGifts | src/services/parser-service.ts:62-73 | before `initialize` it throws "ParserService не инициализирован"; afterwards it is the retried parser search |
| ParserService.GetLastGiftLink | src/services/parser-service.ts:39-51 | before `initialize` it throws; afterwards it is the parser's link lookup for the preset's criteria |
| ParserService.IsResultReliable | src/services/parser-service.ts:250-276 | a read is reliable exactly when none of the four doubts holds; a reliable finite count lies in 0..1,000,000 and a positive one has items; zero with no items is reliable |
| ParserService.Confirm | src/services/parser-service.ts:278-292 | confirmed exactly when the second read succeeds and lands within one of the first; a second read that throws is unconfirmed |
| ParserService.Baseline | src/services/parser-service.ts:129-130 | 0 when the preset has no history, else the count of one of its latest records |
| ParserService.Record | src/services/parser-service.ts:166-173 | writes exactly one record of the preset's first-read count and change flag, and fails with the foreign-key error for a deleted preset |
| ParserService.CheckPresetChanges | src/services/parser-service.ts:121-179 | the old count is the baseline; a reported change means the new count differs from it; at most one record is appended and it matches what is reported; with nothing written the report is "no change" at the old count |
| ParserService.CheckPresetChangesPaths | src/services/parser-service.ts:133-173 | each path: a failed read throws; an unreliable read reports no change and writes nothing; an equal count is written with no second read; a change is written only once confirmed; an unconfirmed one writes nothing |
| ParserService.WritesIffAccepted | src/services/parser-service.ts:137-166 | a history record is written exactly when the read is reliable and either equals the baseline or is confirmed |
| ParserService.CheckNeedsInitialize | src/services/parser-service.ts:62-65 | before `initialize` a check throws the guard error and changes nothing |
| ParserService.BaselineFollowsCheck | src/services/parser-service.ts:129-166 | after an accepted check the next baseline is the count it reported |
| ParserService.LatestAfterAppend | src/services/parser-service.ts:129-130 | a record appended later than the preset's others becomes its baseline |
| ParserService.OkPositions | src/services/parser-service.ts:204-224 | the positions of the successful outcomes, each once, in increasing order |
| ParserService.Kept | src/services/parser-service.ts:204-224 | one entry per successful outcome, in input order; failed ones are left out |
| ParserService.CheckEach | src/services/parser-service.ts:204-224 | one outcome per preset; each preset is checked against the tables left by the previous ones; a failure does not stop the rest |
| ParserService.CheckAllPresetChanges | src/services/parser-service.ts:181-234 | throws before `initialize`; otherwise the entries of the active presets whose check succeeded, in order |
| ParserService.SearchEach | src/services/parser-service.ts:97-110 | one search outcome per preset, in order |
| ParserService.SearchAllActivePresets | src/services/parser-service.ts:86-119 | throws before `initialize`; otherwise the active presets whose search succeeded, with their results, in order |
| ParserService.KeptExtremes | src/services/parser-service.ts:204-224 | when every check fails nothing is kept, and when every check succeeds all presets are kept in order |
| FormUrlEncoded.Utf8 | src/services/monitoring-service.ts:322-338 | 1, 2, 3 or 4 bytes by the code point's range; the lead byte announces the length, every later byte is 10xxxxxx, and the payload bits give back the code point |
| FormUrlEncoded.Utf8OfAppend | src/services/monitoring-service.ts:322-338 | encoding a concatenation encodes each part |
| FormUrlEncoded.EncodeByte | src/services/monitoring-service.ts:322-338 | an encoded byte is ASCII text without `&`, `=`, space or `#` |
| FormUrlEncoded.PercentEncode | src/services/monitoring-service.ts:322-338 | encoded bytes are ASCII text without `&`, `=`, space or `#` |
| FormUrlEncoded.EncodeComponent | src/services/monitoring-service.ts:322-338 | an encoded name or value contains no `&` or `=` |
| FormUrlEncoded.Pair | src/services/monitoring-service.ts:322-338 | an encoded pair contains no `&` |
| FormUrlEncoded.Serialize | src/services/monitoring-service.ts:322-338 | no pairs serialize to the empty string |
| FormUrlEncoded.DecodeEncodeByte | src/services/monitoring-service.ts:322-338 | percent-decoding undoes the encoding of one byte |
| FormUrlEncoded.DecodeEncode | src/services/monitoring-service.ts:322-338 | percent-decoding undoes the encoding of any byte string, so `+` reads back as space |
| FormUrlEncoded.ComponentRoundTrip | src/services/monitoring-service.ts:322-338 | decoding an encoded component gives the UTF-8 bytes of the original text |
| FormUrlEncoded.PairSplits | src/services/monitoring-service.ts:322-338 | a serialized pair splits on `=` into exactly its encoded name and encoded value |
| FormUrlEncoded.SerializeSplits | src/services/monitoring-service.ts:322-338 | the serialized query splits on `&` into exactly the encoded pairs, in order |
| Monitoring.Fresh | src/services/monitoring-service.ts:35-53 | a new service has all counts at zero, no job, no registry and is not initialized |
| Monitoring.Initialize | src/services/monitoring-service.ts:55-68 | a no-op once initialized; otherwise it succeeds exactly when the parser service initializes, keeping the statistics |
| Monitoring.Start | src/services/monitoring-service.ts:70-97 | throws when not initialized; a no-op when disabled or a job exists; otherwise succeeds exactly when scheduling does, and then has a job and `isRunning` |
| Monitoring.Stop | src/services/monitoring-service.ts:99-110 | no job and `isRunning` false afterwards, and every statistics-message registration is cleared, whatever ran before; the counts are kept |
| Monitoring.Cleanup | src/services/monitoring-service.ts:381-388 | stops, and closes the parser service exactly when it was initialized |
| Monitoring.StartThenStop | src/services/monitoring-service.ts:70-110 | starting then stopping leaves no job, `isRunning` false and no registration |
| Monitoring.SetStatsMessageId | src/services/monitoring-service.ts:345-347 | records or overwrites the user's message id and keeps every other registration |
| Monitoring.RemoveStatsMessageId | src/services/monitoring-service.ts:350-352 | deletes exactly the user's registration |
| Monitoring.SetThenRemove | src/services/monitoring-service.ts:345-352 | removing a just-added registration restores the registry |
| Monitoring.UpdateStatsMessages | src/services/monitoring-service.ts:355-374 | a registration survives exactly when editing its message succeeds, with its message id unchanged |
| Monitoring.UpdateStatsMessagesIdempotent | src/services/monitoring-service.ts:355-374 | pruning again with the same edit outcomes changes nothing |
| Monitoring.SearchParams | src/services/monitoring-service.ts:322-338 | `gift` first, then `model`, `background` and `pattern` each exactly when truthy, in that order |
| Monitoring.SearchUrlQuery | src/services/monitoring-service.ts:322-338 | the query splits on `&` into one piece per parameter, in order; each piece splits on `=` into the encoded name and value, and each of those decodes back to the UTF-8 of the parameter's name and value |
| Monitoring.GenerateSearchUrl | src/services/monitoring-service.ts:322-338 | the link starts with the search page `https://peek.tg/gifts` and `?`; the query after it is described by `SearchUrlQuery` |
| Monitoring.PresetParts | src/services/monitoring-service.ts:294-305 | heading and gift name first; each filter line exactly when that filter is truthy |
| Monitoring.LinkParts | src/services/monitoring-service.ts:310-317 | the gift-link line exactly when a link is given; the search link last |
| Monitoring.ChangeParts | src/services/monitoring-service.ts:291-308 | "increased" exactly when the new count is larger, else "decreased", with the absolute difference |
| Monitoring.NoticeParts | src/services/monitoring-service.ts:285-320 | heading and gift name first, search link last |
| Monitoring.FormatChangeNotification | src/services/monitoring-service.ts:285-320 | the text opens with the heading and the preset's name and closes with the link to the search for the preset |
| Monitoring.RenderAppend | src/services/monitoring-service.ts:285-320 | rendering a concatenation renders each part in turn |
| Monitoring.NoticeShowsFilters | src/services/monitoring-service.ts:297-305 | in the whole notice, each filter line appears exactly when that filter is truthy |
| Monitoring.NoticeShowsGiftLinkIffFound | src/services/monitoring-service.ts:311-313 | the gift-link line appears in the whole notice exactly when a link is given |
| Monitoring.NoticeShowsChange | src/services/monitoring-service.ts:291-308 | the notice holds exactly one movement line, with the direction and counts, and exactly one line with the absolute difference |
| Monitoring.ChangeLinesAt | src/services/monitoring-service.ts:285-320 | the movement line comes right after the preset lines and the difference line right after it; no other line is either |
| Monitoring.EqualCountsReadAsDecrease | src/services/monitoring-service.ts:291-292 | equal counts are announced as a decrease by 0 |
| Monitoring.FoundLink | src/services/monitoring-service.ts:250-266 | a failed link lookup is swallowed as "no link"; the answer is the link the loaded page shows for the preset when the service is initialized with an open browser and the search succeeds, and none otherwise; the service stays as ready as it was |
| Monitoring.LookupLinks | src/services/monitoring-service.ts:223-256 | one link lookup per changed entry, in order; the k-th answer is the link the k-th loaded page shows for that entry's preset (none when the service cannot search or the search fails); the service stays initialized, with its browser as open as before |
| Monitoring.LookupLinksAnswers | src/services/monitoring-service.ts:223-256 | the k-th lookup answers as a lookup of the k-th entry on the starting service would: earlier lookups change only the request counters |
| Monitoring.SendNotifications | src/services/monitoring-service.ts:204-283 | one notice per changed entry, in order, to the preset's owner, with its counts and looked-up link; a failed send does not stop the later ones |
| Monitoring.FailedLinkIsSwallowed | src/services/monitoring-service.ts:250-272 | a failed link lookup still sends the notice, without a gift link |
| Monitoring.ChangedEntries | src/services/monitoring-service.ts:211 | every entry it keeps reports a change and has a finite new count; as many entries as the changed outcomes |
| Monitoring.ChangedEntriesExact | src/services/monitoring-service.ts:211 | an entry is kept exactly when it is a checked entry that reports a change; each such entry as often as it occurs among the checked ones, in their order |
| Monitoring.PerformMonitoringCycle | src/services/monitoring-service.ts:112-159 | uninitialized: nothing happens; otherwise exactly one more check with the cycle time; a failed load counts as failed; otherwise it counts as successful, changes rise by the number of changed presets, the cycle sends as many notices as there are changed presets and prunes the registry; an empty active list changes nothing else |
| Monitoring.CycleNotifiesChangedOwners | src/services/monitoring-service.ts:204-283 | in a cycle that checks presets, the k-th notice goes to the owner of the k-th changed preset and carries that preset, its old and new counts and the link its lookup page shows; it is delivered exactly when the k-th send succeeds |
| Monitoring.FailingChecksAreIsolated | src/services/monitoring-service.ts:177-199 | the changes counted equal the presets minus those whose check failed or found no change |
| Monitoring.ChangedCount | src/services/monitoring-service.ts:177-199 | the changed entries among the kept ones equal the outcomes minus the failed or steady ones |
| Validators.ParseGiven | src/bot/validators.ts:123 | `parseInt` of a number reads the number back, and of `undefined` gives NaN |
| Validators.FirstFailure | src/bot/validators.ts:8-40 | valid exactly when no check fails; otherwise the error of the first failing check |
| Validators.ValidateGiftName | src/bot/validators.ts:8-40 | valid exactly when the trimmed name has 2 to 100 code units and the raw name has no forbidden character; a blank name gets the "empty" error |
| Validators.GiftNameFirstFailure | src/bot/validators.ts:8-40 | the gift-name error is that of the first failing check, in the order empty, short, long, forbidden character |
| Validators.ValidateFilter | src/bot/validators.ts:43-112 | valid exactly when the input is blank, or at most 50 trimmed code units with no forbidden character; the error names the facet and the reason |
| Validators.BlankFilterIsValid | src/bot/validators.ts:44-46 | blank model, background or pattern input is valid |
| Validators.ValidateId | src/bot/validators.ts:115-132 | a falsy id is "missing"; otherwise valid exactly when it parses to a positive number, else "wrong" |
| Validators.ValidatePresetId | src/bot/validators.ts:115-132 | "ID пресета не указан" for a falsy id, including 0; otherwise valid exactly when it parses to a positive number |
| Validators.ValidateUserId | src/bot/validators.ts:202-219 | "missing" for a falsy id; otherwise valid exactly when it parses to a positive number |
| Validators.PositiveIdsAreValid | src/bot/validators.ts:115-132 | every positive id, as a number or as its text, is a valid preset id, and 0 is a missing one |
| Validators.ValidatePageNumber | src/bot/validators.ts:135-149 | a falsy page, including 0, is valid; otherwise valid exactly when it parses to a non-negative number |
| Validators.ValidateCommand | src/bot/validators.ts:152-161 | valid exactly for a nonempty command in the allowed list |
| Validators.ValidateCallbackData | src/bot/validators.ts:164-180 | valid exactly for an object with a truthy action; a non-object and an object without one get their two errors |
| Validators.ValidateMessageText | src/bot/validators.ts:183-199 | valid exactly when the text is not blank and its raw length is at most the maximum, with the matching error otherwise |
| Validators.ValidatePresetData | src/bot/validators.ts:222-259 | a failure always carries an error message |
| Validators.PresetDataFirstFailure | src/bot/validators.ts:222-259 | the verdict is the first failure among gift name, model, background and pattern, skipping absent fields |
| Validators.PresetDataValidIff | src/bot/validators.ts:222-259 | valid exactly when every present field passes its own validator |
| Validators.SanitizeInput | src/bot/validators.ts:262-264 | the output has no forbidden character and keeps every allowed character of the trimmed input, in order and with its repetitions; clean trimmed input is unchanged |
| Validators.KeepAllowed | src/bot/validators.ts:263 | removing the ten characters the character class of the `.replace` matches (less-than, greater-than, both braces, both brackets, backslash, vertical bar, backtick, tilde) keeps exactly the other characters, in order and with their repetitions |
| Validators.SpamIff | src/bot/validators.ts:267-271 | for a threshold of at least 1, spam exactly when there are at least that many messages and the last ones all equal the current one |
| Validators.CheckForSpam | src/bot/validators.ts:267-271 | a threshold of 0 or less always flags spam; spam with a positive threshold needs at least that many messages, the last one equal to the current |
| Validators.NonPositiveThresholdFlagsAll | src/bot/validators.ts:267-271 | a threshold of 0 or less flags every message as spam |
| Sessions.EmptyValid | src/bot/session-manager.ts:4 | the empty store is well formed |
| Sessions.Put | src/bot/session-manager.ts:8-13 | storing a session keeps the store well formed and files it under its user |
| Sessions.GetSession | src/bot/session-manager.ts:6-16 | returns the existing session unchanged; otherwise creates an idle one with empty data, and the store grows by exactly one |
| Sessions.UpdateState | src/bot/session-manager.ts:18-22 | sets the state and activity time, keeps the data, and touches no other user |
| Sessions.UpdateData | src/bot/session-manager.ts:24-28 | the patch's keys take its values, every other key is kept, and the state is kept |
| Sessions.ClearData | src/bot/session-manager.ts:30-34 | empties the data and keeps the state |
| Sessions.ResetSession | src/bot/session-manager.ts:36-43 | the user's session becomes idle with empty data; other users are untouched |
| Sessions.GetData | src/bot/session-manager.ts:45-48 | present exactly when the key is stored, with its value |
| Sessions.SetData | src/bot/session-manager.ts:50-54 | stores the value under the key and keeps every other key and the state |
| Sessions.SetThenGet | src/bot/session-manager.ts:45-54 | reading a key just set gives its value, and other keys read as before |
| Sessions.IsInState | src/bot/session-manager.ts:56-59 | true exactly when the user's state is the one asked about; like `getSession`, it stores a fresh idle session for an unknown user and otherwise leaves the store as it was |
| Sessions.CleanupInactiveSessions | src/bot/session-manager.ts:61-70 | removes exactly the sessions idle longer than the limit and keeps the rest unchanged |
| Sessions.KeepOrder | src/bot/session-manager.ts:61-70 | the kept users, each once, in insertion order |
| Sessions.AllSessions | src/bot/session-manager.ts:76-78 | exactly the stored sessions |
| Sessions.CountMatchesAll | src/bot/session-manager.ts:72-78 | the active-session count equals the number of sessions listed |
| Sessions.ActiveSessionsCount | src/bot/session-manager.ts:72-74 | the number of stored sessions, 0 exactly when the store is empty |
| Keyboards.PresetActions | src/bot/keyboards.ts:67-92 | three rows (toggle; check and edit; delete); "pause" exactly when active, else "resume"; every button carries the preset id |
| Keyboards.PageCount | src/bot/keyboards.ts:100 | no pages exactly when there is no preset, and the pages hold every preset |
| Keyboards.PageCountIsCeiling | src/bot/keyboards.ts:100 | the number of pages: the least one whose pages hold every preset |
| Keyboards.PageSlice | src/bot/keyboards.ts:101-103 | the presets from `page·size`, at most `size` of them, and none past the end |
| Keyboards.Navigation | src/bot/keyboards.ts:113-137 | "previous" exactly when not on the first page, "next" exactly when not on the last, and the page label always |
| Keyboards.PresetsListKeyboard | src/bot/keyboards.ts:95-145 | page 0 and a page size of 5 unless given; one row per preset on the page, the navigation row exactly when there is more than one page, and the back-to-menu row last |
| Keyboards.EveryPresetHasAPage | src/bot/keyboards.ts:95-145 | the preset at index i appears on page i div size, in row i mod size, and that page is counted |
| Keyboards.ParseCallbackData | src/bot/keyboards.ts:205-211 | the decoded payload when the text is a keyboard payload, else the text itself as the action |
| Keyboards.JsonTextParses | src/bot/keyboards.ts:67-211 | the `JSON.stringify` text of every payload with a plain action reads back as that payload |
| Keyboards.NoopIsBare | src/bot/keyboards.ts:124 | the bare "noop" text reads as the action "noop" with no id and no page |
| Keyboards.PresetActionsParse | src/bot/keyboards.ts:67-92 | the four preset-action buttons read back as their action with the preset id |
| CommandHandlers.MenuTextsAreMainMenuButtons | src/bot/handlers/command-handlers.ts:110-138 | the texts dispatched first are exactly the buttons of the main menu |
| CommandHandlers.HandleStart | src/bot/handlers/command-handlers.ts:41-53 | resets the user's session to idle, touches no other user and sends the welcome |
| CommandHandlers.HandleMenu | src/bot/handlers/command-handlers.ts:66-74 | resets the user's session to idle and shows the menu |
| CommandHandlers.HandleStats | src/bot/handlers/command-handlers.ts:76-102 | one reply whose total is the length of `getByUserId` and whose active count is the length of `getActiveByUserId` |
| CommandHandlers.HandleMyPresets | src/bot/handlers/command-handlers.ts:301-325 | one list reply holding `getByUserId` as it is, newest first: exactly the user's presets |
| CommandHandlers.CheckReplies | src/bot/handlers/command-handlers.ts:340-369 | a "checking" message, one result or error per preset in order, then the completion message |
| CommandHandlers.HandleCheckNow | src/bot/handlers/command-handlers.ts:327-374 | with no active preset, one message and no search; otherwise one search per active preset and the replies in order |
| CommandHandlers.CheckNowBeforeInitialize | src/bot/handlers/command-handlers.ts:345-363 | before the parser is ready every preset gets the error message and the check still completes |
| CommandHandlers.Advance | src/bot/handlers/command-handlers.ts:178-199 | a wizard step stores one value and moves to the next state, touching no other user |
| CommandHandlers.SearchEachRefuses | src/services/parser-service.ts:62-65 | before `initialize` every search of a batch throws, and there is one outcome per preset |
| CommandHandlers.HandleAddPreset | src/bot/handlers/command-handlers.ts:163-176 | state "adding gift" with empty data, then the gift-name question |
| CommandHandlers.HandleGiftNameInput | src/bot/handlers/command-handlers.ts:178-199 | an invalid name is answered with its error and changes nothing; a valid one is stored trimmed and moves to the model step |
| CommandHandlers.FilterValue | src/bot/handlers/command-handlers.ts:201-214 | "skip" stores null; otherwise the trimmed text exactly when the filter validator accepts it, else its error |
| CommandHandlers.HandleFilterInput | src/bot/handlers/command-handlers.ts:201-253 | an invalid answer is answered with its error and changes nothing; otherwise the value is stored and the wizard moves on |
| CommandHandlers.FieldOf | src/bot/handlers/command-handlers.ts:279-282 | a session field is read as text only when it holds a string |
| CommandHandlers.CreatePreset | src/bot/handlers/command-handlers.ts:274-298 | with a stored gift name, creates one active preset from the session fields, resets the session and confirms; without one, fails and keeps the session |
| CommandHandlers.HandlePatternInput | src/bot/handlers/command-handlers.ts:255-272 | an invalid answer changes nothing; otherwise the pattern is stored and the preset is created |
| CommandHandlers.HandleTextMessage | src/bot/handlers/command-handlers.ts:104-161 | menu texts are dispatched before the state is consulted; other text goes by the session state |
| CommandHandlers.MenuTextIgnoresState | src/bot/handlers/command-handlers.ts:110-138 | a menu text gets the same answer whatever dialogue state the user is in |
| CommandHandlers.OtherTextIsUnknown | src/bot/handlers/command-handlers.ts:141-159 | outside the wizard and editing states, other text gets the unknown-command reply and changes no state |
| CommandHandlers.GiftNameStep | src/bot/handlers/command-handlers.ts:142-144 | in the gift step a text is handled as the gift name |
| CommandHandlers.ModelStep | src/bot/handlers/command-handlers.ts:145-147 | in the model step a text is handled as the model |
| CommandHandlers.BackgroundStep | src/bot/handlers/command-handlers.ts:148-150 | in the background step a text is handled as the background |
| CommandHandlers.PatternStep | src/bot/handlers/command-handlers.ts:151-153 | in the pattern step a text is handled as the pattern, and finishes the wizard |
| CommandHandlers.AddPresetStep | src/bot/handlers/command-handlers.ts:110-113 | the add-preset button starts the wizard from any state |
| CommandHandlers.WizardCollects | src/bot/handlers/command-handlers.ts:163-253 | four acceptable answers leave the user in the pattern step with the trimmed name, model and background stored |
| CommandHandlers.WizardFinishes | src/bot/handlers/command-handlers.ts:255-298 | an acceptable pattern creates the preset from the collected answers and returns the user to idle |
| Formatter.When | src/bot/message-formatter.ts:106-118 | a line exactly when the value is truthy |
| Formatter.Header | src/bot/message-formatter.ts:87 | the given title when truthy, else "Мои пресеты" |
| Formatter.PresetsList | src/bot/message-formatter.ts:72-98 | an empty list is the heading and the empty-state text; otherwise the heading, "page p+1 of ⌈n/size⌉" and one numbered item per preset on the page |
| Formatter.ListNumbersIndexPresets | src/bot/message-formatter.ts:82-95 | item n shows preset n−1, and every preset on the page is shown with its number |
| Formatter.ListMatchesKeyboard | src/bot/message-formatter.ts:72-98 | the items of a list message and the rows of the list keyboard show the same presets in the same order |
| Formatter.CheckChange | src/bot/message-formatter.ts:122-132 | a rise exactly when the count is above the previous one, a fall exactly when below; the amount is the signed difference |
| Formatter.CheckFilters | src/bot/message-formatter.ts:106-118 | each filter line exactly when that filter is truthy |
| Formatter.CheckResult | src/bot/message-formatter.ts:101-137 | heading and gift first, check time last, the count shown; a change line exactly when a previous count is given |
| Formatter.CheckResultShowsFilters | src/bot/message-formatter.ts:106-118 | in the whole result, each filter line appears exactly when that filter is truthy |
| Formatter.History | src/bot/message-formatter.ts:161-179 | an empty history says so; otherwise the first ten records in order, and the "and N−10 more" line exactly when there are more than ten |
| Formatter.EfficiencyPercent | src/bot/message-formatter.ts:268-270 | 0 with no checks; otherwise 100·successful/total rounded to the nearest integer, halves up |
| Formatter.EfficiencyInRange | src/bot/message-formatter.ts:268-270 | with no more successes than checks the efficiency lies in 0..100, and is 100 when all succeeded |
| Formatter.MonitoringStats | src/bot/message-formatter.ts:255-271 | eight lines in order: heading, run status, total, successes, failures, changes, last check (absent-aware), efficiency |
| Formatter.MonitorStatsAddUp | src/bot/message-formatter.ts:255-271 | for the monitor's own statistics the shown successes and failures add up to the shown total, and the status shows whether a job is scheduled |
| Formatter.MonitorEfficiencyIsPercentage | src/bot/message-formatter.ts:255-271 | the monitor's own statistics always give an efficiency in 0..100 |
| Formatter.ChangeNotification | src/bot/message-formatter.ts:215-226 | "increased" exactly when the new count is larger, with a non-negative amount, then both counts |
| Formatter.NotificationMovementAgrees | src/bot/message-formatter.ts:215-226 | the old count moved by the announced amount in the announced direction gives the new count |
| Formatter.Confirmation | src/bot/message-formatter.ts:192-201 | the details line exactly when details are given |
| Formatter.PresetCreated | src/bot/message-formatter.ts:229-236 | each filter line exactly when that filter is truthy, and the activation notice last |
| AccessControl.DisabledAllowsEveryone | src/bot/middleware/access-control.ts:16-22 | with control off every user is allowed |
| AccessControl.IsUserAllowed | src/bot/middleware/access-control.ts:16-22 | everybody when control is off, else exactly the listed users |
| AccessControl.CheckAccess | src/bot/middleware/access-control.ts:27-58 | the handler runs exactly when a sender id is present and allowed; nothing happens without a sender; a refused user gets only the denial message |
| AccessControl.CheckCallbackAccess | src/bot/middleware/access-control.ts:63-99 | the handler runs exactly when a sender id is present and allowed; a refusal first answers the query and sends the message only when that answer succeeded |
| AccessControl.IndexOf | src/bot/middleware/access-control.ts:122 | −1 exactly when absent, else the first position of the user |
| AccessControl.AddAllowedUser | src/bot/middleware/access-control.ts:111-116 | the user is listed afterwards; appended only when absent |
| AccessControl.AddIdempotent | src/bot/middleware/access-control.ts:111-116 | adding twice is adding once, and the added user is allowed |
| AccessControl.RemoveAllowedUser | src/bot/middleware/access-control.ts:121-127 | only the first occurrence is taken out, one fewer in the multiset, and an absent user changes nothing |
| AccessControl.RemoveUndoesAdd | src/bot/middleware/access-control.ts:111-127 | removing a newly added user restores the configuration |
| AccessControl.RemoveRevokesSingleEntry | src/bot/middleware/access-control.ts:121-127 | with control on, removal revokes access exactly when the user was listed once |
| AccessControl.SetEnabled | src/bot/middleware/access-control.ts:139-142 | only the switch changes, to the value given |
| AccessControl.SetEnabledDecides | src/bot/middleware/access-control.ts:132-142 | switched off everyone is allowed; switched on exactly the listed users |
| AccessControl.ParsedIds | src/config/access-control.ts:8-11 | the ids, as numbers, are exactly the non-NaN readings of the trimmed pieces in base 10, in order and with duplicates |
| AccessControl.Numbers | src/config/access-control.ts:11 | as numbers, exactly the finite entries, in order and with repetitions; NaN dropped |
| AccessControl.Reads | src/config/access-control.ts:10 | what each trimmed piece parses to |
| AccessControl.EmptyTextHasNoIds | src/config/access-control.ts:7-11 | an empty variable gives no id |
| AccessControl.CreateConfig | src/config/access-control.ts:6-17 | the list is the ids read from the comma-separated pieces of `ALLOWED_USER_IDS` (an unset variable reads as empty); on exactly when `ACCESS_CONTROL_ENABLED` is not "false" and an id was read; unset or empty `ALLOWED_USER_IDS` gives the default |
| AccessControl.ConfigReadsWrittenIds | src/config/access-control.ts:6-17 | a comma-joined list of ids reads back as that list, in order and with duplicates |
| AccessControl.ParsedIntegers | src/config/access-control.ts:8-11 | the texts of integers parse back to those integers |

## Left out

- Browser driving: launching, navigation, waits, clicks, request routing, the viewport and removing modal windows. The page is a snapshot record and each page load an `Attempt` value.
- Selector-query exceptions: a query that throws is treated like one that finds nothing, as every caller in the parser does.
- Timing: `delay`, `Date.now`, `lastRequestTime` and `averageResponseTime`. The last is a float that divides by a success count that can be 0.
- The SQL `AVG` column `averageCount` of `getStatisticsByPresetId`, a float.
- Cron scheduling and overlapping cycles. A cycle is one atomic step, and scheduling failure is an input to `Monitoring.Start`.
- Telegram I/O: sends and edits are outcome oracles. src/bot/telegram-bot.ts and src/bot/handlers/callback-handlers.ts are not part of this model.
- SQLite plumbing: connections, migrations except the cascading foreign key (src/database/migrations.ts:46), and `CURRENT_TIMESTAMP` resolution. Times are whole numbers passed in.
- Date and locale formatting (`toLocaleString`): dates reach the formatter as text rendered by the caller.
- `Keyboards.ParseCallbackData` (through `Keyboards.ParsePayload`): `JSON.parse` is modelled only on the payload shape the keyboards write: `{"action":"…"}` with an optional integer `presetId` and then an optional integer `page`, without white space or escapes. Other JSON text (a scalar such as "5", other keys, another key order, white space, escapes, fractions) is read as a bare action, whereas `JSON.parse` would return the parsed value, which for a scalar has no `action` at all.
- `JsNumber`: a number is an unbounded integer or NaN. Floating-point precision above 2^53 and Infinity are not modelled, so `Js.IntToStringParses` and `AccessControl.ConfigReadsWrittenIds` are exact only for integers JavaScript represents exactly.
- `getAllowedUsers` returns a copy of the list to guard against aliasing; Dafny values cannot alias, so there is nothing to state.
- `isEnabled` is the `enabled` field itself and has no member of its own.
- `updateConfig` of the monitoring service, `getChangedRecordsByPresetId`, `getRecordsByDateRange`, and `countActiveByUserId`: outside the modelled core.
- `handleSettings`, `handleHelp` and `handlePresetEdit`: they only send fixed texts; their replies are recorded but their wording is not modelled.
- The formatter's other builders (welcome, help, `formatPreset`, `formatStats`, `formatError`, `formatSuccess`, `formatPresetUpdated`, `formatPresetDeleted`) and the keyboards other than the main menu, skip keyboard, preset actions and presets list.
- `Js.IntToString`: JavaScript writes numbers of 10^21 and above in exponent form; the model writes every integer in plain decimal.
- `Validators.ParseGiven`: numbers given to the validators are integers; fractional numbers are not modelled.
- `Keyboards.PageCount`: a page size of at least 1 is required, because `Math.ceil(n / 0)` is not a number. Every caller uses 5.
- `Formatter.PresetsList`: the same page-size requirement as `Keyboards.PageCount`.
- `Formatter.CheckResult`: the previous count is an optional integer; a NaN previous count is not modelled.
- `Formatter.EfficiencyPercent`: states exact rounding, halves up. The source computes `Math.round(successful / total * 100)` in floating point, which can land just below a half. For 23 successes out of 40 checks it shows 57 where the exact value 57.5 rounds to 58.
- `Validators.SanitizeInput`: it is not idempotent, so no idempotence is stated. Removing a character can expose white space at the end, as in "a <".
- `CommandHandlers.HandleMyPresets`: the inline keyboard of this reply (the first five presets) is not modelled.
- The display value of a preset's last count is always absent in the handlers, and the model builds it that way.

=== FILE: access_control.dfy ===
/** The bot's access control: a list of allowed Telegram user ids with an
    on/off switch, the gate the middleware puts in front of every message
    and callback handler, and the configuration read from the two
    environment variables `ALLOWED_USER_IDS` and `ACCESS_CONTROL_ENABLED`
    (passed in as optional strings, None when unset). */
module AccessControl {
  import opened Common
  import opened Js

  /** `AccessControlConfig`. */
  datatype Config = Config(allowed: seq<int>, enabled: bool)

  /** `defaultAccessControlConfig`: nobody listed, control off. */
  const Default := Config([], false)

  /** `isUserAllowed`: everybody when control is off, else the listed users. */
  predicate IsUserAllowed(c: Config, u: int) {
    !c.enabled || u in c.allowed
  }

  /** With control off every user is let through, whatever the list says. */
  lemma DisabledAllowsEveryone(c: Config, u: int)
    requires !c.enabled
    ensures IsUserAllowed(c, u)
  {
  }

  // ------------------------------------------------------------- the gate

  /** What the middleware does with one update. */
  datatype Effect =
    | RunHandler
    | SendDenied(chat: int)
    | AnswerDenied(queryId: string)

  const DeniedText :=
    "🚫 <b>Доступ запрещен</b>\n\nУ вас нет прав для использования этого бота.\nОбратитесь к администратору для получения доступа."
  const DeniedAlert := "Доступ запрещен"

  /** `msg.from?.id` is read for its truthiness: an absent id and the id 0
      both stop the update. */
  predicate HasSender(from: Option<int>) {
    from.Some? && from.value != 0
  }

  /** `checkAccess`: nothing without a sender id; the denial message (whose
      failure is swallowed) for a user not allowed; otherwise the handler. */
  function CheckAccess(c: Config, from: Option<int>, chat: int): (r: seq<Effect>)
    ensures RunHandler in r <==> HasSender(from) && IsUserAllowed(c, from.value)
    ensures r == [] <==> !HasSender(from)
    ensures HasSender(from) && !IsUserAllowed(c, from.value) ==> r == [SendDenied(chat)]
  {
    if !HasSender(from) then []
    else if !IsUserAllowed(c, from.value) then [SendDenied(chat)]
    else [RunHandler]
  }

  /** `checkCallbackAccess`: like `CheckAccess`, but a denial first answers
      the query with an alert and then writes to the query's chat (0 when
      the query has none). Both sit in one `try`, so when answering throws
      (`answered` false) the message is not sent. */
  function CheckCallbackAccess(c: Config, from: Option<int>, queryId: string, chat: Option<int>, answered: bool): (r: seq<Effect>)
    ensures RunHandler in r <==> HasSender(from) && IsUserAllowed(c, from.value)
    ensures r == [] <==> !HasSender(from)
    ensures HasSender(from) && !IsUserAllowed(c, from.value) ==>
      r[0] == AnswerDenied(queryId)
      && (forall t :: SendDenied(t) in r <==> answered && t == (if chat.Some? then chat.value else 0))
  {
    if !HasSender(from) then []
    else if !IsUserAllowed(c, from.value) then
      [AnswerDenied(queryId)] + (if answered then [SendDenied(if chat.Some? then chat.value else 0)] else [])
    else [RunHandler]
  }

  // ------------------------------------------------------ editing the list

  /** `Array.prototype.indexOf`: the first position of `x`, or -1. */
  function IndexOf(s: seq<int>, x: int): (i: int)
    ensures i == -1 <==> x !in s
    ensures i != -1 ==> 0 <= i < |s| && s[i] == x && x !in s[..i]
  {
    if |s| == 0 then -1
    else if s[0] == x then 0
    else
      var j := IndexOf(s[1..], x);
      assert j != -1 ==> s[..j + 1] == [s[0]] + s[1..][..j];
      if j == -1 then -1 else j + 1
  }

  /** `addAllowedUser`: appends the user only when not yet listed. */
  function AddAllowedUser(c: Config, u: int): (r: Config)
    ensures r.enabled == c.enabled && u in r.allowed
    ensures u in c.allowed ==> r == c
    ensures u !in c.allowed ==> r.allowed == c.allowed + [u]
  {
    if u in c.allowed then c else c.(allowed := c.allowed + [u])
  }

  /** Adding twice is adding once, and an added user is allowed. */
  lemma AddIdempotent(c: Config, u: int)
    ensures AddAllowedUser(AddAllowedUser(c, u), u) == AddAllowedUser(c, u)
    ensures IsUserAllowed(AddAllowedUser(c, u), u)
  {
  }

  /** `removeAllowedUser`: takes out the first occurrence only, and does
      nothing for a user not listed. */
  function RemoveAllowedUser(c: Config, u: int): (r: Config)
    ensures r.enabled == c.enabled
    ensures u !in c.allowed ==> r == c
    ensures multiset(r.allowed) == multiset(c.allowed) - multiset{u}
    ensures u in c.allowed ==>
      var i := IndexOf(c.allowed, u);
      r.allowed == c.allowed[..i] + c.allowed[i + 1..]
  {
    var i := IndexOf(c.allowed, u);
    if i > -1 then
      RemoveAtMultiset(c.allowed, i);
      c.(allowed := c.allowed[..i] + c.allowed[i + 1..])
    else
      NotInMultiset(c.allowed, u);
      c
  }

  /** Cutting out position `i` takes one copy of that element away. */
  lemma RemoveAtMultiset(s: seq<int>, i: int)
    requires 0 <= i < |s|
    ensures multiset(s[..i] + s[i + 1..]) == multiset(s) - multiset{s[i]}
  {
    assert s == s[..i] + [s[i]] + s[i + 1..];
    assert multiset(s) == multiset(s[..i]) + multiset{s[i]} + multiset(s[i + 1..]);
  }

  /** Taking away an element that is not there changes nothing. */
  lemma NotInMultiset(s: seq<int>, u: int)
    requires u !in s
    ensures multiset(s) - multiset{u} == multiset(s)
  {
    assert multiset(s)[u] == 0;
  }

  /** Removing undoes adding a user who was not listed. */
  lemma RemoveUndoesAdd(c: Config, u: int)
    requires u !in c.allowed
    ensures RemoveAllowedUser(AddAllowedUser(c, u), u) == c
  {
    var added := AddAllowedUser(c, u);
    assert IndexOf(added.allowed, u) == |c.allowed|;
    assert added.allowed[..|c.allowed|] == c.allowed;
  }

  /** With control on, a user listed once loses access when removed, and a
      user listed twice keeps it. */
  lemma {:induction false} RemoveRevokesSingleEntry(c: Config, u: int)
    requires c.enabled
    ensures IsUserAllowed(RemoveAllowedUser(c, u), u) <==> multiset(c.allowed)[u] >= 2
  {
    var r := RemoveAllowedUser(c, u);
    assert multiset(r.allowed)[u] == if multiset(c.allowed)[u] >= 1 then multiset(c.allowed)[u] - 1 else 0;
    assert u in r.allowed <==> u in multiset(r.allowed);
  }

  /** `setEnabled`: only the switch changes. */
  function SetEnabled(c: Config, enabled: bool): (r: Config)
    ensures r.allowed == c.allowed
    ensures r.enabled == enabled
  {
    c.(enabled := enabled)
  }

  /** Switching control off lets everybody in; switching it on restricts
      access to the list. */
  lemma SetEnabledDecides(c: Config, u: int)
    ensures IsUserAllowed(SetEnabled(c, false), u)
    ensures IsUserAllowed(SetEnabled(c, true), u) <==> u in c.allowed
  {
  }

  // ---------------------------------------------------------- configuration

  /** One piece of `ALLOWED_USER_IDS`, trimmed and read by `parseInt(…, 10)`. */
  function ReadId(piece: string): JsNumber {
    ParseInt10(Trim(piece))
  }

  /** The ids of the comma-separated pieces: pieces that read as NaN are
      dropped, the rest keep their order (duplicates included). */
  function ParsedIds(pieces: seq<string>): (r: seq<int>)
    ensures |r| <= |pieces|
    ensures forall x :: x in r <==> Finite(x) in Reads(pieces)
    ensures AsNumbers(r) == Filter(Reads(pieces), IsFinite)
  {
    Numbers(Reads(pieces))
  }

  predicate IsFinite(n: JsNumber) {
    n.Finite?
  }

  /** Integers seen as JavaScript numbers. */
  function AsNumbers(ids: seq<int>): (r: seq<JsNumber>)
    ensures |r| == |ids| && forall i :: 0 <= i < |ids| ==> r[i] == Finite(ids[i])
  {
    seq(|ids|, i requires 0 <= i < |ids| => Finite(ids[i]))
  }

  /** The finite numbers of a sequence, in order (`.filter(id => !isNaN(id))`):
      exactly the finite entries, with their order and their repetitions. */
  function Numbers(ns: seq<JsNumber>): (r: seq<int>)
    ensures |r| <= |ns|
    ensures forall x :: x in r <==> Finite(x) in ns
    ensures AsNumbers(r) == Filter(ns, IsFinite)
  {
    if |ns| == 0 then []
    else
      var rest := Numbers(ns[1..]);
      assert forall n :: n in ns <==> n == ns[0] || n in ns[1..];
      NumbersStep(ns, rest);
      if ns[0].Finite? then [ns[0].value] + rest else rest
  }

  /** One step of `Numbers`: a finite head is kept in front of the rest. */
  lemma NumbersStep(ns: seq<JsNumber>, rest: seq<int>)
    requires |ns| > 0 && AsNumbers(rest) == Filter(ns[1..], IsFinite)
    ensures AsNumbers(if ns[0].Finite? then [ns[0].value] + rest else rest) == Filter(ns, IsFinite)
  {
    assert ns == [ns[0]] + ns[1..];
    NumbersCons(ns[0], ns[1..], rest);
  }

  lemma NumbersCons(x: JsNumber, t: seq<JsNumber>, rest: seq<int>)
    requires AsNumbers(rest) == Filter(t, IsFinite)
    ensures AsNumbers(if x.Finite? then [x.value] + rest else rest) == Filter([x] + t, IsFinite)
  {
    FilterCons(x, t, IsFinite);
    if x.Finite? {
      AsNumbersCons(x.value, rest);
    }
  }

  lemma AsNumbersCons(v: int, rest: seq<int>)
    ensures AsNumbers([v] + rest) == [Finite(v)] + AsNumbers(rest)
  {
    var out := [v] + rest;
    forall i | 0 <= i < |out|
      ensures AsNumbers(out)[i] == ([Finite(v)] + AsNumbers(rest))[i]
    {
      if i > 0 {
        assert out[i] == rest[i - 1];
      }
    }
  }

  /** What each piece reads as. */
  function Reads(pieces: seq<string>): (r: seq<JsNumber>)
    ensures |r| == |pieces| && forall k :: 0 <= k < |pieces| ==> r[k] == ReadId(pieces[k])
  {
    seq(|pieces|, k requires 0 <= k < |pieces| => ReadId(pieces[k]))
  }

  /** The empty string is one empty piece, which reads as NaN. */
  lemma EmptyTextHasNoIds()
    ensures ParsedIds(Split("", ',')) == []
  {
    assert Split("", ',') == [""];
    assert ReadId("") == NaN;
  }

  /** `createAccessControlConfig`: an unset variable reads as the empty
      string; control is on unless `ACCESS_CONTROL_ENABLED` is exactly
      "false", and only when at least one id was read. */
  function CreateConfig(allowedEnv: Option<string>, enabledEnv: Option<string>): (r: Config)
    ensures r.allowed == ParsedIds(Split(if allowedEnv.Some? then allowedEnv.value else "", ','))
    ensures r.enabled <==> enabledEnv != Some("false") && |r.allowed| > 0
    ensures allowedEnv.None? || allowedEnv == Some("") ==> r == Default
  {
    var text := if allowedEnv.Some? then allowedEnv.value else "";
    var ids := ParsedIds(Split(text, ','));
    if text == "" then EmptyTextHasNoIds(); Config(ids, false)
    else Config(ids, enabledEnv != Some("false") && |ids| > 0)
  }

  /** The text a list of ids is written as in `ALLOWED_USER_IDS`. */
  function IdsText(ids: seq<int>): string {
    if |ids| == 0 then "" else Join(seq(|ids|, i requires 0 <= i < |ids| => IntToString(ids[i])), ',')
  }

  /** Reading back a written list of ids gives exactly that list, in order
      and with its duplicates. */
  lemma ConfigReadsWrittenIds(ids: seq<int>, enabledEnv: Option<string>)
    ensures CreateConfig(Some(IdsText(ids)), enabledEnv).allowed == ids
    ensures CreateConfig(Some(IdsText(ids)), enabledEnv).enabled <==> enabledEnv != Some("false") && |ids| > 0
  {
    if |ids| > 0 {
      var pieces := seq(|ids|, i requires 0 <= i < |ids| => IntToString(ids[i]));
      forall k | 0 <= k < |pieces| ensures ',' !in pieces[k] {
        IntToStringTrimmed(ids[k]);
      }
      JoinSplit(pieces, ',');
      ParsedIntegers(ids, pieces);
    }
  }

  /** Integer texts read back as the integers. */
  lemma ParsedIntegers(ids: seq<int>, pieces: seq<string>)
    requires |pieces| == |ids| && forall i :: 0 <= i < |ids| ==> pieces[i] == IntToString(ids[i])
    ensures ParsedIds(pieces) == ids
  {
    var finite := seq(|ids|, i requires 0 <= i < |ids| => Finite(ids[i]));
    forall i | 0 <= i < |ids| ensures Reads(pieces)[i] == finite[i] {
      IntToStringTrimmed(ids[i]);
      IntToStringParses(ids[i]);
    }
    assert Reads(pieces) == finite;
    AllFinite(ids, finite);
  }

  /** Nothing is dropped from a sequence of finite numbers. */
  lemma {:induction false} AllFinite(ids: seq<int>, ns: seq<JsNumber>)
    requires |ns| == |ids| && forall i :: 0 <= i < |ids| ==> ns[i] == Finite(ids[i])
    ensures Numbers(ns) == ids
    decreases |ids|
  {
    if |ids| > 0 {
      AllFinite(ids[1..], ns[1..]);
      assert ids == [ids[0]] + ids[1..];
    }
  }
}

=== FILE: command_handlers.dfy ===
/** `CommandHandlers`: how the chat bot answers a user's text. Six fixed menu
    texts are recognised first, whatever dialogue the user is in; any other
    text is read according to the user's session state, which drives the
    four-step add-preset wizard (gift name, model, background, pattern).
    Messages sent back are recorded as `Reply` values in the order sent. */
module CommandHandlers {
  import opened Common
  import opened Js
  import Database
  import PresetModel
  import opened PeekParser
  import ParserService
  import Validators
  import S = Sessions
  import K = Keyboards

  /** The six texts the handler dispatches on before anything else. */
  predicate IsMenuText(text: string) {
    text == K.AddPresetText || text == K.MyPresetsText || text == K.CheckNowText
    || text == K.StatsText || text == K.SettingsText || text == K.HelpText
  }

  /** These are exactly the buttons of the main-menu keyboard, so pressing
      any of them is answered the same way in every dialogue state. */
  lemma MenuTextsAreMainMenuButtons(text: string)
    ensures IsMenuText(text) <==>
      exists i, j :: 0 <= i < |K.MainMenu| && 0 <= j < |K.MainMenu[i]| && K.MainMenu[i][j] == text
  {
    if IsMenuText(text) {
      if text == K.AddPresetText { assert K.MainMenu[0][0] == text; }
      else if text == K.MyPresetsText { assert K.MainMenu[0][1] == text; }
      else if text == K.CheckNowText { assert K.MainMenu[1][0] == text; }
      else if text == K.StatsText { assert K.MainMenu[1][1] == text; }
      else if text == K.SettingsText { assert K.MainMenu[2][0] == text; }
      else { assert K.MainMenu[2][1] == text; }
    }
  }

  /** A message sent to the user, by what it says. */
  datatype Reply =
    | Welcome
    | HelpInfo
    | MainMenu
    | StatsInfo(totalPresets: nat, activePresets: nat)
    | SettingsInfo
    | PresetsList(presets: seq<Database.Preset>)
    | AskGiftName
    | AskModel
    | AskBackground
    | AskPattern
    | Rejected(error: string)
    | PresetCreated(preset: Database.Preset)
    | CreateFailed
    | NoActivePresets
    | CheckStarted(total: nat)
    | CheckResult(preset: Database.Preset, count: JsNumber)
    | CheckFailed(giftName: string)
    | CheckFinished
    | EditingPending
    | UnknownCommand

  /** What the handlers share: the session store, the database and the
      parser service. */
  datatype Bot = Bot(sessions: S.Store, db: Database.Db, service: ParserService.Service)

  ghost predicate Ready(b: Bot) {
    S.Valid(b.sessions) && Database.Valid(b.db)
  }

  /** The environment of one message: the session clock (milliseconds), the
      database clock (seconds), and the page loads of the searches made. */
  datatype Env = Env(now: int, dbNow: int, worlds: nat -> (nat -> Attempt), clock: int)

  datatype Handled = Handled(bot: Bot, replies: seq<Reply>)

  /** The session state of a user as `getSession` would report it. */
  function StateOf(st: S.Store, u: int): S.UserState {
    if u in st.sessions then st.sessions[u].state else S.Idle
  }

  // --------------------------------------------------------- fixed commands

  /** `/start`: resets the session and greets. */
  function HandleStart(b: Bot, u: int, now: int): (r: Handled)
    requires Ready(b)
    ensures Ready(r.bot) && r.bot.db == b.db && r.bot.service == b.service
    ensures u in r.bot.sessions.sessions && r.bot.sessions.sessions[u] == S.FreshSession(u, now)
    ensures S.OthersUnchanged(b.sessions, r.bot.sessions, u)
    ensures r.replies == [Welcome]
  {
    Handled(b.(sessions := S.ResetSession(b.sessions, u, now)), [Welcome])
  }

  /** `/menu`: resets the session and shows the main menu. */
  function HandleMenu(b: Bot, u: int, now: int): (r: Handled)
    requires Ready(b)
    ensures Ready(r.bot) && r.bot.db == b.db && r.bot.service == b.service
    ensures u in r.bot.sessions.sessions && r.bot.sessions.sessions[u] == S.FreshSession(u, now)
    ensures S.OthersUnchanged(b.sessions, r.bot.sessions, u)
    ensures r.replies == [MainMenu]
  {
    Handled(b.(sessions := S.ResetSession(b.sessions, u, now)), [MainMenu])
  }

  /** `/stats`: how many presets the user has, and how many are active. */
  function HandleStats(b: Bot, u: int): (r: Handled)
    ensures r.bot == b && |r.replies| == 1 && r.replies[0].StatsInfo?
    ensures r.replies[0].activePresets <= r.replies[0].totalPresets
    ensures r.replies[0].totalPresets == |PresetModel.GetByUserId(b.db, u)|
    ensures r.replies[0].activePresets == |PresetModel.GetActiveByUserId(b.db, u)|
  {
    var presets := PresetModel.GetByUserId(b.db, u);
    PresetModel.ActiveAmongOwned(b.db, u);
    Handled(b, [StatsInfo(|presets|, |Filter(presets, PresetModel.IsActive())|)])
  }

  function HandleMyPresets(b: Bot, u: int): (r: Handled)
    ensures r.bot == b && |r.replies| == 1 && r.replies[0].PresetsList?
    ensures r.replies[0].presets == PresetModel.GetByUserId(b.db, u)
    ensures forall p :: p in r.replies[0].presets <==> p in b.db.presets && p.userId == u
  {
    Handled(b, [PresetsList(PresetModel.GetByUserId(b.db, u))])
  }

  // ------------------------------------------------------------ check now

  /** The message reporting one preset's search. */
  function ReportFor(p: Database.Preset, r: Result<SearchResult, Failure>): Reply {
    if r.Ok? then CheckResult(p, r.value.count) else CheckFailed(p.giftName)
  }

  /** The messages of a check over `active` whose searches gave `results`. */
  function CheckReplies(active: seq<Database.Preset>, results: seq<Result<SearchResult, Failure>>): (r: seq<Reply>)
    requires |results| == |active|
    ensures |r| == |active| + 2
    ensures r[0] == CheckStarted(|active|) && r[|r| - 1] == CheckFinished
    ensures forall k :: 0 <= k < |active| ==>
      (results[k].Ok? ==> r[k + 1] == CheckResult(active[k], results[k].value.count))
      && (results[k].Err? ==> r[k + 1] == CheckFailed(active[k].giftName))
  {
    [CheckStarted(|active|)] + seq(|active|, k requires 0 <= k < |active| => ReportFor(active[k], results[k])) + [CheckFinished]
  }

  /** `handleCheckNow`: with no active presets, one message and no search;
      otherwise a start message, one message per active preset in order
      (its count, or an error when its search throws), and a final one. */
  function HandleCheckNow(b: Bot, u: int, env: Env): (r: Handled)
    ensures r.bot.sessions == b.sessions && r.bot.db == b.db
    ensures PresetModel.GetActiveByUserId(b.db, u) == [] ==> r == Handled(b, [NoActivePresets])
    ensures var active := PresetModel.GetActiveByUserId(b.db, u);
      active != [] ==>
        var searched := ParserService.SearchEach(b.service, active, env.worlds, 0, env.clock);
        r == Handled(b.(service := searched.0), CheckReplies(active, searched.1))
  {
    var active := PresetModel.GetActiveByUserId(b.db, u);
    if active == [] then Handled(b, [NoActivePresets])
    else
      var searched := ParserService.SearchEach(b.service, active, env.worlds, 0, env.clock);
      Handled(b.(service := searched.0), CheckReplies(active, searched.1))
  }

  /** Before the service is initialized every search refuses, so each active
      preset is reported as an error. */
  lemma CheckNowBeforeInitialize(b: Bot, u: int, env: Env)
    requires !b.service.initialized
    requires PresetModel.GetActiveByUserId(b.db, u) != []
    ensures var active := PresetModel.GetActiveByUserId(b.db, u);
      var r := HandleCheckNow(b, u, env);
      |r.replies| == |active| + 2
      && forall k :: 0 <= k < |active| ==> r.replies[k + 1] == CheckFailed(active[k].giftName)
  {
    var active := PresetModel.GetActiveByUserId(b.db, u);
    var searched := ParserService.SearchEach(b.service, active, env.worlds, 0, env.clock);
    SearchEachRefuses(b.service, active, env.worlds, 0, env.clock);
    var replies := CheckReplies(active, searched.1);
    assert HandleCheckNow(b, u, env).replies == replies;
    forall k | 0 <= k < |active| ensures replies[k + 1] == CheckFailed(active[k].giftName) {
      assert searched.1[k].Err?;
    }
  }

  lemma {:induction false} SearchEachRefuses(s: ParserService.Service, presets: seq<Database.Preset>, worlds: nat -> (nat -> Attempt), from: nat, clock: int)
    requires !s.initialized
    ensures |ParserService.SearchEach(s, presets, worlds, from, clock).1| == |presets|
    ensures forall k :: 0 <= k < |presets| ==> ParserService.SearchEach(s, presets, worlds, from, clock).1[k].Err?
    decreases |presets|
  {
    if |presets| > 0 {
      var first := ParserService.SearchGifts(s, ParserService.CriteriaOf(presets[0]), worlds(from), clock);
      SearchEachRefuses(first.service, presets[1..], worlds, from + 1, clock);
      var rest := ParserService.SearchEach(first.service, presets[1..], worlds, from + 1, clock);
      var all := ParserService.SearchEach(s, presets, worlds, from, clock).1;
      assert all == [first.result] + rest.1;
      forall k | 0 <= k < |presets|
        ensures all[k].Err?
      {
        if k > 0 {
          assert all[k] == rest.1[k - 1];
        }
      }
    }
  }

  // ------------------------------------------------------------- the wizard

  /** The data of a user's session as `getSession` would report it. */
  function DataOf(st: S.Store, u: int): map<string, S.Value> {
    if u in st.sessions then st.sessions[u].data else map[]
  }

  /** One accepted wizard answer: store it under `key`, then move to `next`. */
  function Advance(st: S.Store, u: int, key: string, value: S.Value, next: S.UserState, now: int): (r: S.Store)
    requires S.Valid(st)
    ensures S.Valid(r) && u in r.sessions
    ensures r.sessions[u].state == next
    ensures r.sessions[u].data == DataOf(st, u)[key := value]
    ensures S.OthersUnchanged(st, r, u)
  {
    S.UpdateState(S.SetData(st, u, key, value, now), u, next, now)
  }

  /** "🎁 Добавить пресет": starts the wizard with empty data. */
  function HandleAddPreset(b: Bot, u: int, now: int): (r: Handled)
    requires Ready(b)
    ensures Ready(r.bot) && r.bot.db == b.db && r.bot.service == b.service
    ensures u in r.bot.sessions.sessions
    ensures r.bot.sessions.sessions[u].state == S.AddingPresetGift
    ensures r.bot.sessions.sessions[u].data == map[]
    ensures S.OthersUnchanged(b.sessions, r.bot.sessions, u)
    ensures r.replies == [AskGiftName]
  {
    var st := S.ClearData(S.UpdateState(b.sessions, u, S.AddingPresetGift, now), u, now);
    Handled(b.(sessions := st), [AskGiftName])
  }

  /** The gift-name step: an invalid name is reported and changes nothing; a
      valid one is stored trimmed and the wizard asks for the model. */
  function HandleGiftNameInput(b: Bot, u: int, text: string, now: int): (r: Handled)
    requires Ready(b)
    ensures Ready(r.bot) && r.bot.db == b.db && r.bot.service == b.service
    ensures Validators.ValidateGiftName(text).Invalid? ==>
      r == Handled(b, [Rejected(Validators.ValidateGiftName(text).error)])
    ensures Validators.ValidateGiftName(text).Valid? ==>
      && r.replies == [AskModel]
      && u in r.bot.sessions.sessions
      && r.bot.sessions.sessions[u].state == S.AddingPresetModel
      && r.bot.sessions.sessions[u].data == DataOf(b.sessions, u)["gift_name" := S.Str(Trim(text))]
      && S.OthersUnchanged(b.sessions, r.bot.sessions, u)
  {
    var v := Validators.ValidateGiftName(text);
    if v.Invalid? then Handled(b, [Rejected(v.error)])
    else
      var st := Advance(b.sessions, u, "gift_name", S.Str(Trim(text)), S.AddingPresetModel, now);
      Handled(b.(sessions := st), [AskModel])
  }

  /** What an optional-filter step stores: `null` for the skip button, the
      trimmed text otherwise; None when the text is refused. */
  function FilterValue(f: Validators.Facet, text: string): (r: Result<S.Value, string>)
    ensures text == K.SkipText ==> r == Ok(S.Null)
    ensures text != K.SkipText ==> (r.Ok? <==> Validators.AcceptableFilter(text))
    ensures text != K.SkipText && r.Ok? ==> r.value == S.Str(Trim(text))
    ensures r.Err? ==> r.error == Validators.ValidateFilter(f, text).error
  {
    if text == K.SkipText then Ok(S.Null)
    else
      var v := Validators.ValidateFilter(f, text);
      if v.Invalid? then Err(v.error) else Ok(S.Str(Trim(text)))
  }

  /** The model and background steps: store the value under `key`, move to
      `next` and ask the next question; a refused text changes nothing. */
  function HandleFilterInput(b: Bot, u: int, text: string, f: Validators.Facet, key: string,
                             next: S.UserState, ask: Reply, now: int): (r: Handled)
    requires Ready(b)
    ensures Ready(r.bot) && r.bot.db == b.db && r.bot.service == b.service
    ensures FilterValue(f, text).Err? ==> r == Handled(b, [Rejected(FilterValue(f, text).error)])
    ensures FilterValue(f, text).Ok? ==>
      && r.replies == [ask]
      && u in r.bot.sessions.sessions
      && r.bot.sessions.sessions[u].state == next
      && r.bot.sessions.sessions[u].data == DataOf(b.sessions, u)[key := FilterValue(f, text).value]
      && S.OthersUnchanged(b.sessions, r.bot.sessions, u)
  {
    match FilterValue(f, text)
    case Err(e) => Handled(b, [Rejected(e)])
    case Ok(value) =>
      var st := Advance(b.sessions, u, key, value, next, now);
      Handled(b.(sessions := st), [ask])
  }

  /** A stored optional filter as `createPreset` passes it on: a string, or
      nothing for `null` and for an unset key. */
  function FieldOf(data: map<string, S.Value>, key: string): (r: Option<string>)
    ensures r.Some? <==> key in data && data[key].Str?
  {
    if key in data && data[key].Str? then Some(data[key].s) else None
  }

  /** `createPreset`: builds the preset from the session and resets the
      session. Without a stored gift name the NOT NULL constraint makes the
      insert throw: the failure is reported and the session is kept. */
  function CreatePreset(b: Bot, u: int, now: int, dbNow: int): (r: Handled)
    requires Ready(b) && u in b.sessions.sessions
    ensures Ready(r.bot) && r.bot.service == b.service
    ensures var data := b.sessions.sessions[u].data;
      "gift_name" in data && data["gift_name"].Str? ==>
        && |r.replies| == 1 && r.replies[0].PresetCreated?
        && var p := r.replies[0].preset;
        && r.bot.db.presets == b.db.presets + [p] && r.bot.db.history == b.db.history
        && p.userId == u && p.giftName == data["gift_name"].s && p.isActive
        && p.model == Normalize(FieldOf(data, "model"))
        && p.background == Normalize(FieldOf(data, "background"))
        && p.pattern == Normalize(FieldOf(data, "pattern"))
        && u in r.bot.sessions.sessions && r.bot.sessions.sessions[u] == S.FreshSession(u, now)
        && S.OthersUnchanged(b.sessions, r.bot.sessions, u)
    ensures var data := b.sessions.sessions[u].data;
      !("gift_name" in data && data["gift_name"].Str?) ==> r == Handled(b, [CreateFailed])
  {
    var data := b.sessions.sessions[u].data;
    if "gift_name" in data && data["gift_name"].Str? then
      var w := PresetModel.Create(b.db, PresetModel.CreateData(
        u, data["gift_name"].s, FieldOf(data, "model"), FieldOf(data, "background"),
        FieldOf(data, "pattern"), Some(true)), dbNow);
      Handled(Bot(S.ResetSession(b.sessions, u, now), w.db, b.service), [PresetCreated(w.preset)])
    else Handled(b, [CreateFailed])
  }

  /** The pattern step: a refused text changes nothing; otherwise the value
      is stored and the preset created. */
  function HandlePatternInput(b: Bot, u: int, text: string, now: int, dbNow: int): (r: Handled)
    requires Ready(b)
    ensures Ready(r.bot) && r.bot.service == b.service
    ensures FilterValue(Validators.PatternFacet, text).Err? ==>
      r == Handled(b, [Rejected(FilterValue(Validators.PatternFacet, text).error)])
    ensures FilterValue(Validators.PatternFacet, text).Ok? ==>
      var st := S.SetData(b.sessions, u, "pattern", FilterValue(Validators.PatternFacet, text).value, now);
      r == CreatePreset(b.(sessions := st), u, now, dbNow)
  {
    match FilterValue(Validators.PatternFacet, text)
    case Err(e) => Handled(b, [Rejected(e)])
    case Ok(value) =>
      CreatePreset(b.(sessions := S.SetData(b.sessions, u, "pattern", value, now)), u, now, dbNow)
  }

  // ------------------------------------------------------------- dispatch

  /** The answer to a main-menu text. */
  function HandleMenuText(b: Bot, u: int, text: string, env: Env): (r: Handled)
    requires Ready(b) && IsMenuText(text)
    ensures Ready(r.bot)
  {
    if text == K.AddPresetText then HandleAddPreset(b, u, env.now)
    else if text == K.MyPresetsText then HandleMyPresets(b, u)
    else if text == K.CheckNowText then HandleCheckNow(b, u, env)
    else if text == K.StatsText then HandleStats(b, u)
    else if text == K.SettingsText then Handled(b, [SettingsInfo])
    else Handled(b, [HelpInfo])
  }

  /** The answer to any other text, by session state. */
  function HandleByState(b: Bot, u: int, text: string, env: Env): (r: Handled)
    requires Ready(b) && u in b.sessions.sessions
    ensures Ready(r.bot)
  {
    match b.sessions.sessions[u].state
    case AddingPresetGift => HandleGiftNameInput(b, u, text, env.now)
    case AddingPresetModel =>
      HandleFilterInput(b, u, text, Validators.ModelFacet, "model", S.AddingPresetBackground, AskBackground, env.now)
    case AddingPresetBackground =>
      HandleFilterInput(b, u, text, Validators.BackgroundFacet, "background", S.AddingPresetPattern, AskPattern, env.now)
    case AddingPresetPattern => HandlePatternInput(b, u, text, env.now, env.dbNow)
    case EditingPreset => Handled(b, [EditingPending])
    case _ => Handled(b, [UnknownCommand])
  }

  /** `handleTextMessage`: the session is looked up (and created) first, the
      six menu texts are answered whatever the state, and only then does the
      state decide. */
  function HandleTextMessage(b: Bot, u: int, text: string, env: Env): (r: Handled)
    requires Ready(b)
    ensures Ready(r.bot)
    ensures IsMenuText(text) ==>
      r == HandleMenuText(b.(sessions := S.GetSession(b.sessions, u, env.now).0), u, text, env)
    ensures !IsMenuText(text) ==>
      r == HandleByState(b.(sessions := S.GetSession(b.sessions, u, env.now).0), u, text, env)
  {
    var b1 := b.(sessions := S.GetSession(b.sessions, u, env.now).0);
    if IsMenuText(text) then HandleMenuText(b1, u, text, env)
    else HandleByState(b1, u, text, env)
  }

  /** A menu text gets the same answer in every dialogue state: two bots
      that differ only in the user's state send the same replies. */
  lemma MenuTextIgnoresState(b: Bot, u: int, text: string, env: Env, s1: S.UserState, s2: S.UserState)
    requires Ready(b) && IsMenuText(text) && u in b.sessions.sessions
    ensures var b1 := b.(sessions := b.sessions.(sessions := b.sessions.sessions[u := b.sessions.sessions[u].(state := s1)]));
      var b2 := b.(sessions := b.sessions.(sessions := b.sessions.sessions[u := b.sessions.sessions[u].(state := s2)]));
      Ready(b1) && Ready(b2) && HandleTextMessage(b1, u, text, env).replies == HandleTextMessage(b2, u, text, env).replies
  {
    var b1 := b.(sessions := b.sessions.(sessions := b.sessions.sessions[u := b.sessions.sessions[u].(state := s1)]));
    var b2 := b.(sessions := b.sessions.(sessions := b.sessions.sessions[u := b.sessions.sessions[u].(state := s2)]));
    assert Ready(b1) && Ready(b2);
  }

  /** Outside the wizard and the editing state, any other text gets the
      unknown-command reply and changes no session. */
  lemma OtherTextIsUnknown(b: Bot, u: int, text: string, env: Env)
    requires Ready(b) && !IsMenuText(text)
    requires StateOf(b.sessions, u) in {S.Idle, S.ViewingPresets, S.Settings}
    ensures HandleTextMessage(b, u, text, env).replies == [UnknownCommand]
    ensures HandleTextMessage(b, u, text, env).bot == b.(sessions := S.GetSession(b.sessions, u, env.now).0)
  {
  }

  /** In the gift-name state a non-menu text is the wizard's first answer:
      refused, it changes nothing; accepted, it is stored trimmed and the
      wizard moves on to the model. */
  lemma GiftNameStep(b: Bot, u: int, text: string, env: Env)
    requires Ready(b) && !IsMenuText(text) && StateOf(b.sessions, u) == S.AddingPresetGift
    ensures var r := HandleTextMessage(b, u, text, env);
      && r.bot.db == b.db && r.bot.service == b.service
      && (Validators.ValidateGiftName(text).Invalid? ==>
            r == Handled(b, [Rejected(Validators.ValidateGiftName(text).error)]))
      && (Validators.ValidateGiftName(text).Valid? ==>
            && r.replies == [AskModel]
            && u in r.bot.sessions.sessions
            && r.bot.sessions.sessions[u].state == S.AddingPresetModel
            && r.bot.sessions.sessions[u].data == DataOf(b.sessions, u)["gift_name" := S.Str(Trim(text))])
  {
    assert S.GetSession(b.sessions, u, env.now).0 == b.sessions;
  }

  /** In the model state: the skip button stores `null`, an acceptable text
      is stored trimmed, and either way the wizard asks for the background;
      a refused text changes nothing. */
  lemma ModelStep(b: Bot, u: int, text: string, env: Env)
    requires Ready(b) && !IsMenuText(text) && StateOf(b.sessions, u) == S.AddingPresetModel
    ensures var r := HandleTextMessage(b, u, text, env);
      var v := FilterValue(Validators.ModelFacet, text);
      && r.bot.db == b.db && r.bot.service == b.service
      && (v.Err? ==> r == Handled(b, [Rejected(v.error)]))
      && (v.Ok? ==>
            && r.replies == [AskBackground]
            && u in r.bot.sessions.sessions
            && r.bot.sessions.sessions[u].state == S.AddingPresetBackground
            && r.bot.sessions.sessions[u].data == DataOf(b.sessions, u)["model" := v.value])
  {
    assert S.GetSession(b.sessions, u, env.now).0 == b.sessions;
  }

  /** In the background state: as for the model, then on to the pattern. */
  lemma BackgroundStep(b: Bot, u: int, text: string, env: Env)
    requires Ready(b) && !IsMenuText(text) && StateOf(b.sessions, u) == S.AddingPresetBackground
    ensures var r := HandleTextMessage(b, u, text, env);
      var v := FilterValue(Validators.BackgroundFacet, text);
      && r.bot.db == b.db && r.bot.service == b.service
      && (v.Err? ==> r == Handled(b, [Rejected(v.error)]))
      && (v.Ok? ==>
            && r.replies == [AskPattern]
            && u in r.bot.sessions.sessions
            && r.bot.sessions.sessions[u].state == S.AddingPresetPattern
            && r.bot.sessions.sessions[u].data == DataOf(b.sessions, u)["background" := v.value])
  {
    assert S.GetSession(b.sessions, u, env.now).0 == b.sessions;
  }

  /** In the pattern state an accepted answer is stored and the preset is
      created from the session's fields. */
  lemma PatternStep(b: Bot, u: int, text: string, env: Env)
    requires Ready(b) && !IsMenuText(text) && StateOf(b.sessions, u) == S.AddingPresetPattern
    ensures var r := HandleTextMessage(b, u, text, env);
      var v := FilterValue(Validators.PatternFacet, text);
      && (v.Err? ==> r == Handled(b, [Rejected(v.error)]))
      && (v.Ok? ==> r == CreatePreset(b.(sessions := S.SetData(b.sessions, u, "pattern", v.value, env.now)), u, env.now, env.dbNow))
  {
    assert S.GetSession(b.sessions, u, env.now).0 == b.sessions;
  }

  /** The add-preset menu text starts the wizard in any state, with empty data. */
  lemma AddPresetStep(b: Bot, u: int, env: Env)
    requires Ready(b)
    ensures var r := HandleTextMessage(b, u, K.AddPresetText, env);
      && r.bot.db == b.db && r.bot.service == b.service && r.replies == [AskGiftName]
      && StateOf(r.bot.sessions, u) == S.AddingPresetGift && DataOf(r.bot.sessions, u) == map[]
  {
  }

  /** The first four messages of a wizard pass with acceptable answers leave
      the user in the pattern state holding the trimmed answers. */
  lemma WizardCollects(b: Bot, u: int, name: string, model: string, background: string, env: Env)
    requires Ready(b)
    requires !IsMenuText(name) && !IsMenuText(model) && !IsMenuText(background)
    requires Validators.AcceptableGiftName(name)
    requires FilterValue(Validators.ModelFacet, model).Ok?
    requires FilterValue(Validators.BackgroundFacet, background).Ok?
    ensures var r0 := HandleTextMessage(b, u, K.AddPresetText, env);
      var r1 := HandleTextMessage(r0.bot, u, name, env);
      var r2 := HandleTextMessage(r1.bot, u, model, env);
      var r3 := HandleTextMessage(r2.bot, u, background, env);
      && Ready(r3.bot) && r3.bot.db == b.db && r3.bot.service == b.service
      && StateOf(r3.bot.sessions, u) == S.AddingPresetPattern
      && DataOf(r3.bot.sessions, u) == map[
           "gift_name" := S.Str(Trim(name)),
           "model" := FilterValue(Validators.ModelFacet, model).value,
           "background" := FilterValue(Validators.BackgroundFacet, background).value]
  {
    var r0 := HandleTextMessage(b, u, K.AddPresetText, env);
    AddPresetStep(b, u, env);
    var r1 := HandleTextMessage(r0.bot, u, name, env);
    GiftNameStep(r0.bot, u, name, env);
    var r2 := HandleTextMessage(r1.bot, u, model, env);
    ModelStep(r1.bot, u, model, env);
    BackgroundStep(r2.bot, u, background, env);
  }

  /** The last wizard answer: an acceptable pattern, with a gift name
      stored, creates one active preset from the stored answers and resets
      the session to idle. */
  lemma WizardFinishes(b: Bot, u: int, pattern: string, env: Env)
    requires Ready(b) && !IsMenuText(pattern) && StateOf(b.sessions, u) == S.AddingPresetPattern
    requires "gift_name" in DataOf(b.sessions, u) && DataOf(b.sessions, u)["gift_name"].Str?
    requires FilterValue(Validators.PatternFacet, pattern).Ok?
    ensures var r := HandleTextMessage(b, u, pattern, env);
      var data := DataOf(b.sessions, u);
      && |r.replies| == 1 && r.replies[0].PresetCreated?
      && var p := r.replies[0].preset;
      && r.bot.db.presets == b.db.presets + [p] && r.bot.db.history == b.db.history
      && p.userId == u && p.giftName == data["gift_name"].s && p.isActive
      && p.model == Normalize(FieldOf(data, "model"))
      && p.background == Normalize(FieldOf(data, "background"))
      && p.pattern == Normalize(if pattern == K.SkipText then None else Some(Trim(pattern)))
      && u in r.bot.sessions.sessions && r.bot.sessions.sessions[u] == S.FreshSession(u, env.now)
  {
    PatternStep(b, u, pattern, env);
    StoredPatternCreates(b, u, pattern, env);
  }

  /** Storing an acceptable pattern next to a stored gift name and then
      creating the preset yields the preset of the stored answers. */
  lemma StoredPatternCreates(b: Bot, u: int, pattern: string, env: Env)
    requires Ready(b) && u in b.sessions.sessions
    requires "gift_name" in DataOf(b.sessions, u) && DataOf(b.sessions, u)["gift_name"].Str?
    requires FilterValue(Validators.PatternFacet, pattern).Ok?
    ensures var pv := FilterValue(Validators.PatternFacet, pattern).value;
      var r := CreatePreset(b.(sessions := S.SetData(b.sessions, u, "pattern", pv, env.now)), u, env.now, env.dbNow);
      var data := DataOf(b.sessions, u);
      && |r.replies| == 1 && r.replies[0].PresetCreated?
      && var p := r.replies[0].preset;
      && r.bot.db.presets == b.db.presets + [p] && r.bot.db.history == b.db.history
      && p.userId == u && p.giftName == data["gift_name"].s && p.isActive
      && p.model == Normalize(FieldOf(data, "model"))
      && p.background == Normalize(FieldOf(data, "background"))
      && p.pattern == Normalize(if pattern == K.SkipText then None else Some(Trim(pattern)))
      && u in r.bot.sessions.sessions && r.bot.sessions.sessions[u] == S.FreshSession(u, env.now)
  {
    var pv := FilterValue(Validators.PatternFacet, pattern).value;
    var before := DataOf(b.sessions, u);
    var b4 := b.(sessions := S.SetData(b.sessions, u, "pattern", pv, env.now));
    var data := b4.sessions.sessions[u].data;
    assert data == before["pattern" := pv];
    assert FieldOf(data, "model") == FieldOf(before, "model");
    assert FieldOf(data, "background") == FieldOf(before, "background");
    assert FieldOf(data, "pattern") == (if pattern == K.SkipText then None else Some(Trim(pattern)));
  }
}

=== FILE: common.dfy ===
/** Failure-compatible wrappers shared by every module of the model:
    `Option` stands for a TypeScript `undefined`/`null` alternative, `Result`
    for a call that either returns a value or throws an `Error` whose message
    is kept as the error payload. */
module Common {

  datatype Option<+T> = None | Some(value: T) {

    /** The wrapped value, or `default` when there is none (TypeScript `x ?? d`). */
    function GetOr(default: T): T {
      match this
      case Some(v) => v
      case None => default
    }
  }

  datatype Result<+T, +E> = Ok(value: T) | Err(error: E) {

    predicate IsFailure() {
      Err?
    }

    function PropagateFailure<U>(): Result<U, E>
      requires Err?
    {
      Err(error)
    }

    function Extract(): T
      requires Ok?
    {
      value
    }
  }

  /** A string-valued optional field is "truthy" in the source when it is
      present and not the empty string. */
  predicate Truthy(s: Option<string>) {
    s.Some? && s.value != ""
  }

  /** `s || null` / `s || undefined`: falsy optional strings collapse to None. */
  function Normalize(s: Option<string>): (r: Option<string>)
    ensures Truthy(s) ==> r == s
    ensures !Truthy(s) ==> r == None
  {
    if Truthy(s) then s else None
  }

  /** Number of elements of `s` satisfying `p`. */
  function CountWhere<T>(s: seq<T>, p: T -> bool): (n: nat)
    ensures n <= |s|
  {
    if |s| == 0 then 0 else CountWhere(s[..|s| - 1], p) + (if p(s[|s| - 1]) then 1 else 0)
  }

  /** The elements of `s` satisfying `p`, in their original order (`Array.prototype.filter`). */
  function Filter<T>(s: seq<T>, p: T -> bool): (r: seq<T>)
    ensures |r| == CountWhere(s, p)
    ensures forall x :: x in r ==> x in s && p(x)
    ensures forall x :: x in s && p(x) ==> x in r
  {
    if |s| == 0 then []
    else
      var rest := Filter(s[..|s| - 1], p);
      assert forall x :: x in s[..|s| - 1] ==> x in s;
      assert forall x :: x in s ==> x in s[..|s| - 1] || x == s[|s| - 1];
      if p(s[|s| - 1]) then rest + [s[|s| - 1]] else rest
  }

  /** Filtering distributes over concatenation. */
  lemma {:induction false} FilterAppend<T>(a: seq<T>, b: seq<T>, p: T -> bool)
    ensures Filter(a + b, p) == Filter(a, p) + Filter(b, p)
    decreases |b|
  {
    if |b| == 0 {
      assert a + b == a;
    } else {
      var b' := b[..|b| - 1];
      assert (a + b)[..|a + b| - 1] == a + b';
      FilterAppend(a, b', p);
    }
  }

  predicate StrictlyIncreasing<T>(s: seq<T>, key: T -> int) {
    forall i, j :: 0 <= i < j < |s| ==> key(s[i]) < key(s[j])
  }

  /** Filtering keeps a strictly increasing key strictly increasing (so keys stay unique). */
  lemma {:induction false} FilterKeepsIncreasing<T>(s: seq<T>, p: T -> bool, key: T -> int)
    requires StrictlyIncreasing(s, key)
    ensures StrictlyIncreasing(Filter(s, p), key)
    decreases |s|
  {
    if |s| > 0 {
      var init := s[..|s| - 1];
      var last := s[|s| - 1];
      FilterKeepsIncreasing(init, p, key);
      var r0 := Filter(init, p);
      var r := Filter(s, p);
      if p(last) {
        forall i, j | 0 <= i < j < |r|
          ensures key(r[i]) < key(r[j])
        {
          if j == |r| - 1 {
            assert r[i] == r0[i] && r0[i] in init;
            var k :| 0 <= k < |init| && init[k] == r0[i];
            assert s[k] == init[k];
          } else {
            assert r[i] == r0[i] && r[j] == r0[j];
          }
        }
      }
    }
  }

  /** Filtering by a predicate every element satisfies changes nothing. */
  lemma {:induction false} FilterAll<T>(s: seq<T>, p: T -> bool)
    requires forall x :: x in s ==> p(x)
    ensures Filter(s, p) == s
    decreases |s|
  {
    if |s| > 0 {
      FilterAll(s[..|s| - 1], p);
      assert s == s[..|s| - 1] + [s[|s| - 1]];
    }
  }

  /** Filtering by a stronger predicate after a weaker one is filtering by the stronger one. */
  lemma {:induction false} FilterFilter<T>(s: seq<T>, weak: T -> bool, strong: T -> bool)
    requires forall x :: strong(x) ==> weak(x)
    ensures Filter(Filter(s, weak), strong) == Filter(s, strong)
    decreases |s|
  {
    if |s| > 0 {
      var init := s[..|s| - 1];
      var last := s[|s| - 1];
      FilterFilter(init, weak, strong);
      if weak(last) {
        FilterAppend(Filter(init, weak), [last], strong);
        assert Filter([last], strong) == if strong(last) then [last] else [] by {
          assert [last][..0] == [];
        }
      }
    }
  }

  /** Filtering a sequence with a given first element. */
  lemma FilterCons<T>(x: T, s: seq<T>, p: T -> bool)
    ensures Filter([x] + s, p) == (if p(x) then [x] else []) + Filter(s, p)
  {
    var one := [x];
    assert one[..|one| - 1] == [];
    assert Filter(one, p) == if p(x) then [x] else [];
    FilterAppend(one, s, p);
  }

  /** Filtering keeps every copy of a passing element and drops every copy
      of a failing one. */
  lemma {:induction false} FilterCounts<T>(s: seq<T>, p: T -> bool)
    ensures forall x :: multiset(Filter(s, p))[x] == if p(x) then multiset(s)[x] else 0
    decreases |s|
  {
    if |s| > 0 {
      var init := s[..|s| - 1];
      FilterCounts(init, p);
      assert s == init + [s[|s| - 1]];
    }
  }

  /** `r` can be obtained from `s` by deleting elements (matched greedily
      from the back, which finds a matching whenever there is one). */
  predicate SubsequenceOf<T(==)>(r: seq<T>, s: seq<T>)
    decreases |s|
  {
    if |r| == 0 then true
    else if |s| == 0 then false
    else if r[|r| - 1] == s[|s| - 1] then SubsequenceOf(r[..|r| - 1], s[..|s| - 1])
    else SubsequenceOf(r, s[..|s| - 1])
  }

  /** Filtering deletes elements and keeps the order of the rest. */
  lemma {:induction false} FilterIsSubsequence<T>(s: seq<T>, p: T -> bool)
    ensures SubsequenceOf(Filter(s, p), s)
    decreases |s|
  {
    if |s| > 0 {
      var init := s[..|s| - 1];
      FilterIsSubsequence(init, p);
      var r := Filter(s, p);
      if p(s[|s| - 1]) {
        assert r[..|r| - 1] == Filter(init, p);
      } else if |r| > 0 {
        assert r[|r| - 1] in r;
      }
    }
  }

  /** The first `n` elements (or all of them when there are fewer): `slice(0, n)`. */
  function Take<T>(s: seq<T>, n: nat): (r: seq<T>)
    ensures |r| == if n < |s| then n else |s|
    ensures r == s[..|r|]
  {
    if n < |s| then s[..n] else s
  }

  /** Runs `step` over `xs` in order, threading a state from each step to
      the next and collecting the answers; the k-th step is told `from + k`
      (a `for ... of` loop with an `await` per element). */
  function Thread<S, X, Y>(s: S, xs: seq<X>, step: (S, X, nat) -> (S, Y), from: nat): (r: (S, seq<Y>))
    ensures |r.1| == |xs|
    decreases |xs|
  {
    if |xs| == 0 then (s, [])
    else
      var first := step(s, xs[0], from);
      var rest := Thread(first.0, xs[1..], step, from + 1);
      (rest.0, [first.1] + rest.1)
  }

  /** When every step keeps `inv` and, under it, answers independently of
      the state, the threaded answers are those independent answers, and
      the final state still satisfies `inv`. */
  lemma {:induction false} ThreadAnswers<S, X, Y>(s: S, xs: seq<X>, step: (S, X, nat) -> (S, Y), from: nat,
                                                 inv: S -> bool, answer: (X, nat) -> Y)
    requires inv(s)
    requires forall t, x, n :: inv(t) ==> inv(step(t, x, n).0) && step(t, x, n).1 == answer(x, n)
    ensures inv(Thread(s, xs, step, from).0)
    ensures forall k :: 0 <= k < |xs| ==> Thread(s, xs, step, from).1[k] == answer(xs[k], from + k)
    decreases |xs|
  {
    if |xs| > 0 {
      var first := step(s, xs[0], from);
      ThreadAnswers(first.0, xs[1..], step, from + 1, inv, answer);
      var rest := Thread(first.0, xs[1..], step, from + 1);
      forall k | 1 <= k < |xs|
        ensures Thread(s, xs, step, from).1[k] == answer(xs[k], from + k)
      {
        assert xs[1..][k - 1] == xs[k];
      }
    }
  }
}

=== FILE: database.dfy ===
/** The two SQLite tables of the bot as in-memory values: `presets` and
    `monitoring_history`, with their integrity constraints (AUTOINCREMENT
    primary keys and the history-to-preset foreign key). */
module Database {
  import opened Common

  /** A row of `presets`; optional filters are NULL (None) when not set. */
  datatype Preset = Preset(
    id: int,
    userId: int,
    giftName: string,
    model: Option<string>,
    background: Option<string>,
    pattern: Option<string>,
    isActive: bool,
    createdAt: int,
    updatedAt: int)

  /** A row of `monitoring_history`. Timestamps are whole seconds. */
  datatype HistoryRecord = HistoryRecord(
    id: int,
    presetId: int,
    count: int,
    checkedAt: int,
    hasChanged: bool)

  /** Both tables, in rowid order, and the next AUTOINCREMENT value of each. */
  datatype Db = Db(
    presets: seq<Preset>,
    history: seq<HistoryRecord>,
    nextPresetId: int,
    nextHistoryId: int)

  /** A freshly migrated database. */
  const Empty: Db := Db([], [], 1, 1)

  function PresetKey(): Preset -> int {
    (p: Preset) => p.id
  }

  function RecordKey(): HistoryRecord -> int {
    (h: HistoryRecord) => h.id
  }

  predicate HasPreset(db: Db, id: int) {
    exists p :: p in db.presets && p.id == id
  }

  /** Primary keys are positive, increase with rowid order and stay below
      the AUTOINCREMENT counter; every history row refers to an existing
      preset (`FOREIGN KEY ... ON DELETE CASCADE`). */
  predicate Valid(db: Db) {
    && db.nextPresetId >= 1
    && db.nextHistoryId >= 1
    && (forall i :: 0 <= i < |db.presets| ==> 1 <= db.presets[i].id < db.nextPresetId)
    && StrictlyIncreasing(db.presets, PresetKey())
    && (forall i :: 0 <= i < |db.history| ==> 1 <= db.history[i].id < db.nextHistoryId)
    && StrictlyIncreasing(db.history, RecordKey())
    && (forall r :: r in db.history ==> HasPreset(db, r.presetId))
  }

  lemma EmptyValid()
    ensures Valid(Empty)
  {
  }

  /** The preset whose primary key is `id`, if any. */
  function FindPreset(presets: seq<Preset>, id: int): (r: Option<Preset>)
    ensures r.Some? ==> r.value in presets && r.value.id == id
    ensures r.None? <==> (forall p :: p in presets ==> p.id != id)
  {
    if |presets| == 0 then None
    else if presets[0].id == id then Some(presets[0])
    else
      assert forall p :: p in presets ==> p == presets[0] || p in presets[1..];
      FindPreset(presets[1..], id)
  }

  /** The history row whose primary key is `id`, if any. */
  function FindRecord(history: seq<HistoryRecord>, id: int): (r: Option<HistoryRecord>)
    ensures r.Some? ==> r.value in history && r.value.id == id
    ensures r.None? <==> (forall h :: h in history ==> h.id != id)
  {
    if |history| == 0 then None
    else if history[0].id == id then Some(history[0])
    else
      assert forall h :: h in history ==> h == history[0] || h in history[1..];
      FindRecord(history[1..], id)
  }

  /** With unique keys, the row found is the only one with that key. */
  lemma FindPresetUnique(db: Db, p: Preset)
    requires Valid(db) && p in db.presets
    ensures FindPreset(db.presets, p.id) == Some(p)
  {
    var r := FindPreset(db.presets, p.id);
    var i :| 0 <= i < |db.presets| && db.presets[i] == p;
    var j :| 0 <= j < |db.presets| && db.presets[j] == r.value;
  }

  lemma FindRecordUnique(db: Db, h: HistoryRecord)
    requires Valid(db) && h in db.history
    ensures FindRecord(db.history, h.id) == Some(h)
  {
    var r := FindRecord(db.history, h.id);
    var i :| 0 <= i < |db.history| && db.history[i] == h;
    var j :| 0 <= j < |db.history| && db.history[j] == r.value;
  }

  /** A new preset under the next key keeps the tables consistent, and no
      existing preset has that key. */
  lemma AppendPresetValid(db: Db, p: Preset)
    requires Valid(db) && p.id == db.nextPresetId
    ensures Valid(db.(presets := db.presets + [p], nextPresetId := db.nextPresetId + 1))
    ensures !HasPreset(db, p.id)
  {
    var db' := db.(presets := db.presets + [p], nextPresetId := db.nextPresetId + 1);
    var s := db'.presets;
    forall i, j | 0 <= i < j < |s| ensures PresetKey()(s[i]) < PresetKey()(s[j]) {
      assert s[i] == db.presets[i];
      if j < |db.presets| {
        assert s[j] == db.presets[j];
      }
    }
    forall h | h in db'.history ensures HasPreset(db', h.presetId) {
      var q :| q in db.presets && q.id == h.presetId;
      assert q in s;
    }
  }

  /** A new history row under the next key, for an existing preset, keeps
      the tables consistent, and no existing row has that key. */
  lemma AppendRecordValid(db: Db, h: HistoryRecord)
    requires Valid(db) && h.id == db.nextHistoryId && HasPreset(db, h.presetId)
    ensures Valid(db.(history := db.history + [h], nextHistoryId := db.nextHistoryId + 1))
    ensures forall g :: g in db.history ==> g.id != h.id
  {
    var s := db.history + [h];
    forall i, j | 0 <= i < j < |s| ensures RecordKey()(s[i]) < RecordKey()(s[j]) {
      assert s[i] == db.history[i];
      if j < |db.history| {
        assert s[j] == db.history[j];
      }
    }
  }

  /** Rewriting preset rows in place, keys unchanged, keeps the tables consistent. */
  lemma SameKeysValid(db: Db, ps: seq<Preset>)
    requires Valid(db) && |ps| == |db.presets|
    requires forall i :: 0 <= i < |ps| ==> ps[i].id == db.presets[i].id
    ensures Valid(db.(presets := ps))
  {
    var db' := db.(presets := ps);
    assert forall i, j :: 0 <= i < j < |ps| ==> PresetKey()(ps[i]) < PresetKey()(ps[j]) by {
      forall i, j | 0 <= i < j < |ps| ensures PresetKey()(ps[i]) < PresetKey()(ps[j]) {
        assert PresetKey()(db.presets[i]) < PresetKey()(db.presets[j]);
      }
    }
    forall h | h in db.history ensures HasPreset(db', h.presetId) {
      var q :| q in db.presets && q.id == h.presetId;
      var i :| 0 <= i < |db.presets| && db.presets[i] == q;
      assert ps[i] in ps;
    }
  }

  /** Deleting history rows (by any condition) keeps the tables consistent. */
  lemma KeepHistoryValid(db: Db, keep: HistoryRecord -> bool)
    requires Valid(db)
    ensures Valid(db.(history := Filter(db.history, keep)))
  {
    var r := db.(history := Filter(db.history, keep));
    FilterKeepsIncreasing(db.history, keep, RecordKey());
    forall i | 0 <= i < |r.history|
      ensures 1 <= r.history[i].id < r.nextHistoryId
    {
      assert r.history[i] in db.history;
    }
    forall h | h in r.history
      ensures HasPreset(r, h.presetId)
    {
      assert h in db.history;
    }
  }
}

=== FILE: form_urlencoded.dfy ===
/** The `application/x-www-form-urlencoded` serializer of section 5.2 of the
    WHATWG URL Standard, as `URLSearchParams.toString()` applies it: each
    name and value is UTF-8 encoded, every byte outside ASCII alphanumerics
    and `*-._` is written `%XX` (upper-case hex) except the space, which
    becomes `+`; pairs are written `name=value` and joined with `&`. The
    byte-level parser of section 5.1 is modelled as the serializer's
    partner. */
module FormUrlEncoded {
  import opened Js

  /** A byte value. */
  type Byte = b: int | 0 <= b < 256

  // ---------------------------------------------------------------- UTF-8

  /** The UTF-8 encoding of one scalar value (1 to 4 bytes): the length
      follows the value's range, the lead byte announces the length,
      continuation bytes are `10xxxxxx`, and the payload bits read back give
      the value. */
  function Utf8(c: char): (r: seq<Byte>)
    ensures 1 <= |r| <= 4
    ensures (c as int < 0x80) <==> |r| == 1
    ensures |r| == 2 <==> 0x80 <= c as int < 0x800
    ensures |r| == 3 <==> 0x800 <= c as int < 0x1_0000
    ensures |r| == 4 <==> 0x1_0000 <= c as int
    ensures LeadAnnounces(r) && ContinuationsMarked(r)
    ensures Utf8Value(r) == c as int
  {
    var cp := c as int;
    if cp < 0x80 then [cp]
    else if cp < 0x800 then TwoBytes(cp)
    else if cp < 0x1_0000 then ThreeBytes(cp)
    else FourBytes(cp)
  }

  function TwoBytes(cp: int): (r: seq<Byte>)
    requires 0x80 <= cp < 0x800
    ensures |r| == 2 && LeadAnnounces(r) && ContinuationsMarked(r) && Utf8Value(r) == cp
  {
    var q := cp / 0x40;
    assert cp == q * 0x40 + cp % 0x40;
    [0xC0 + q, 0x80 + cp % 0x40]
  }

  function ThreeBytes(cp: int): (r: seq<Byte>)
    requires 0x800 <= cp < 0x1_0000
    ensures |r| == 3 && LeadAnnounces(r) && ContinuationsMarked(r) && Utf8Value(r) == cp
  {
    var q := cp / 0x40;
    var qq := q / 0x40;
    assert cp == q * 0x40 + cp % 0x40;
    assert q == qq * 0x40 + q % 0x40;
    assert qq < 0x10;
    [0xE0 + qq, 0x80 + q % 0x40, 0x80 + cp % 0x40]
  }

  function FourBytes(cp: int): (r: seq<Byte>)
    requires 0x1_0000 <= cp < 0x11_0000
    ensures |r| == 4 && LeadAnnounces(r) && ContinuationsMarked(r) && Utf8Value(r) == cp
  {
    var q := cp / 0x40;
    var qq := q / 0x40;
    var qqq := qq / 0x40;
    assert cp == q * 0x40 + cp % 0x40;
    assert q == qq * 0x40 + q % 0x40;
    assert qq == qqq * 0x40 + qq % 0x40;
    assert qqq < 0x8;
    [0xF0 + qqq, 0x80 + qq % 0x40, 0x80 + q % 0x40, 0x80 + cp % 0x40]
  }

  /** The lead byte's high bits give the sequence length: `0xxxxxxx`,
      `110xxxxx`, `1110xxxx` or `11110xxx`. */
  predicate LeadAnnounces(r: seq<Byte>) {
    && 1 <= |r| <= 4
    && (|r| == 1 ==> r[0] < 0x80)
    && (|r| == 2 ==> 0xC0 <= r[0] < 0xE0)
    && (|r| == 3 ==> 0xE0 <= r[0] < 0xF0)
    && (|r| == 4 ==> 0xF0 <= r[0] < 0xF8)
  }

  /** Every byte after the lead byte is `10xxxxxx`. */
  predicate ContinuationsMarked(r: seq<Byte>) {
    forall k :: 1 <= k < |r| ==> 0x80 <= r[k] < 0xC0
  }

  /** The value a well-formed sequence encodes: the lead byte's payload
      bits followed by six bits from each continuation byte. */
  function Utf8Value(r: seq<Byte>): int
    requires LeadAnnounces(r)
  {
    if |r| == 1 then r[0] as int
    else if |r| == 2 then (r[0] as int - 0xC0) * 0x40 + (r[1] as int - 0x80)
    else if |r| == 3 then ((r[0] as int - 0xE0) * 0x40 + (r[1] as int - 0x80)) * 0x40 + (r[2] as int - 0x80)
    else (((r[0] as int - 0xF0) * 0x40 + (r[1] as int - 0x80)) * 0x40 + (r[2] as int - 0x80)) * 0x40 + (r[3] as int - 0x80)
  }

  /** The UTF-8 encoding of a string. */
  function Utf8Of(s: string): (r: seq<Byte>)
    ensures |r| >= |s|
  {
    if |s| == 0 then [] else Utf8(s[0]) + Utf8Of(s[1..])
  }

  lemma {:induction false} Utf8OfAppend(a: string, b: string)
    ensures Utf8Of(a + b) == Utf8Of(a) + Utf8Of(b)
    decreases |a|
  {
    if |a| == 0 {
      assert a + b == b;
    } else {
      var head := Utf8(a[0]);
      assert (a + b)[0] == a[0] && (a + b)[1..] == a[1..] + b;
      assert Utf8Of(a + b) == head + Utf8Of(a[1..] + b);
      Utf8OfAppend(a[1..], b);
      assert Utf8Of(a) == head + Utf8Of(a[1..]);
      assert head + (Utf8Of(a[1..]) + Utf8Of(b)) == (head + Utf8Of(a[1..])) + Utf8Of(b);
    }
  }

  // ------------------------------------------------------- percent-encoding

  /** Bytes the serializer writes as themselves: ASCII alphanumerics and `*-._`. */
  predicate Unreserved(b: Byte) {
    || (0x30 <= b <= 0x39) || (0x41 <= b <= 0x5A) || (0x61 <= b <= 0x7A)
    || b == 0x2A || b == 0x2D || b == 0x2E || b == 0x5F
  }

  function HexDigit(d: int): (c: char)
    requires 0 <= d < 16
    ensures IsHex(c) && HexValue(c) == d
  {
    if d < 10 then (0x30 + d) as char else (0x41 + d - 10) as char
  }

  predicate IsHex(c: char) {
    ('0' <= c <= '9') || ('A' <= c <= 'F') || ('a' <= c <= 'f')
  }

  function HexValue(c: char): (d: int)
    requires IsHex(c)
    ensures 0 <= d < 16
  {
    if '0' <= c <= '9' then c as int - 0x30
    else if 'A' <= c <= 'F' then c as int - 0x41 + 10
    else c as int - 0x61 + 10
  }

  /** The text one byte is serialized to. */
  function EncodeByte(b: Byte): (r: string)
    ensures 1 <= |r| <= 3
    ensures forall c :: c in r ==> c as int < 0x80 && c != '&' && c != '=' && c != ' ' && c != '#'
  {
    if b == 0x20 then "+"
    else if Unreserved(b) then [b as char]
    else ['%', HexDigit(b / 16), HexDigit(b % 16)]
  }

  /** Serializes a byte sequence. */
  function PercentEncode(bytes: seq<Byte>): (r: string)
    ensures |r| >= |bytes|
    ensures forall c :: c in r ==> c as int < 0x80 && c != '&' && c != '=' && c != ' ' && c != '#'
  {
    if |bytes| == 0 then "" else EncodeByte(bytes[0]) + PercentEncode(bytes[1..])
  }

  /** The serialized form of one name or value. */
  function EncodeComponent(s: string): (r: string)
    ensures forall c :: c in r ==> c as int < 0x80 && c != '&' && c != '='
  {
    PercentEncode(Utf8Of(s))
  }

  /** The serializer's output: `name=value` pairs joined with `&`. */
  function Serialize(pairs: seq<(string, string)>): (r: string)
    ensures |pairs| == 0 ==> r == ""
  {
    if |pairs| == 0 then ""
    else Join(seq(|pairs|, k requires 0 <= k < |pairs| => Pair(pairs[k])), '&')
  }

  function Pair(p: (string, string)): (r: string)
    ensures '&' !in r
  {
    EncodeComponent(p.0) + "=" + EncodeComponent(p.1)
  }

  // ---------------------------------------------------------------- parsing

  /** The parser's byte pass: `+` reads as a space and `%XX` as the byte
      XX; any other byte stands for itself. */
  function Decode(bytes: seq<Byte>): seq<Byte> {
    if |bytes| == 0 then []
    else if bytes[0] == 0x2B then [0x20] + Decode(bytes[1..])
    else if bytes[0] == 0x25 && |bytes| >= 3 && IsHex(bytes[1] as char) && IsHex(bytes[2] as char) then
      [HexValue(bytes[1] as char) * 16 + HexValue(bytes[2] as char)] + Decode(bytes[3..])
    else [bytes[0]] + Decode(bytes[1..])
  }

  /** Decoding the UTF-8 of a serialized byte gives the byte back, whatever follows. */
  lemma DecodeEncodeByte(b: Byte, rest: seq<Byte>)
    ensures Decode(Utf8Of(EncodeByte(b)) + rest) == [b] + Decode(rest)
  {
    var e := EncodeByte(b);
    var u := Utf8Of(e);
    if b == 0x20 {
      assert u == [0x2B];
    } else if Unreserved(b) {
      assert e[1..] == [];
      assert u == Utf8(e[0]) + Utf8Of([]);
      assert u == [b];
      assert (u + rest)[1..] == rest;
    } else {
      assert e[1..][1..] == [e[2]] && e[2..][1..] == [];
      assert Utf8Of(e[2..]) == Utf8(e[2]) + Utf8Of([]);
      assert Utf8Of(e[1..]) == Utf8(e[1]) + Utf8Of(e[2..]);
      assert u == [0x25, e[1] as int, e[2] as int];
      assert (u + rest)[3..] == rest;
    }
  }

  /** The serializer and the parser are inverse at byte level: the UTF-8 of
      the serialized text decodes to the original bytes. */
  lemma {:induction false} DecodeEncode(bytes: seq<Byte>)
    ensures Decode(Utf8Of(PercentEncode(bytes))) == bytes
    decreases |bytes|
  {
    if |bytes| > 0 {
      Utf8OfAppend(EncodeByte(bytes[0]), PercentEncode(bytes[1..]));
      DecodeEncodeByte(bytes[0], Utf8Of(PercentEncode(bytes[1..])));
      DecodeEncode(bytes[1..]);
    }
  }

  /** A serialized name or value decodes to the UTF-8 of the original text. */
  lemma ComponentRoundTrip(s: string)
    ensures Decode(Utf8Of(EncodeComponent(s))) == Utf8Of(s)
  {
    DecodeEncode(Utf8Of(s));
  }

  /** A serialized pair splits on `=` into its encoded name and value,
      because neither contains `=`. */
  lemma PairSplits(p: (string, string))
    ensures Split(Pair(p), '=') == [EncodeComponent(p.0), EncodeComponent(p.1)]
  {
    var parts := [EncodeComponent(p.0), EncodeComponent(p.1)];
    assert Join(parts, '=') == Pair(p) by {
      assert parts[1..] == [EncodeComponent(p.1)];
    }
    JoinSplit(parts, '=');
  }

  /** The query splits on `&` into exactly one piece per pair, in order,
      because no serialized name or value contains `&`. */
  lemma SerializeSplits(pairs: seq<(string, string)>)
    requires |pairs| >= 1
    ensures Split(Serialize(pairs), '&') == seq(|pairs|, k requires 0 <= k < |pairs| => Pair(pairs[k]))
  {
    var parts := seq(|pairs|, k requires 0 <= k < |pairs| => Pair(pairs[k]));
    JoinSplit(parts, '&');
  }
}

=== FILE: formatter.dfy ===
/** The chat messages of `MessageFormatter` (HTML parse mode). Each message
    is built as a sequence of lines, and `Render` turns lines into text;
    the facts about a message are stated on its lines, since a substring
    fact about the text could be spoiled by a user-chosen name that
    happens to contain another line's wording. Dates are rendered by the
    caller (`formatDate` is a locale formatter) and arrive as text. */
module Formatter {
  import opened Common
  import opened Js
  import Database
  import Keyboards
  import Monitoring

  const DefaultTitle := "Мои пресеты"
  const DefaultPageSize := 5
  const HistoryShown := 10

  /** `PresetDisplayData`: a preset and the count of its last check, if known. */
  datatype DisplayPreset = DisplayPreset(preset: Database.Preset, lastCount: Option<int>)

  /** `convertToPresetDisplayData`: the handlers never know a last count. */
  function Display(p: Database.Preset): DisplayPreset {
    DisplayPreset(p, None)
  }

  /** How a check result compares with the previous count. */
  datatype Change = Rise(amount: int) | Fall(amount: int) | NoChange

  datatype Line =
    // formatPresetsList
    | ListHeading(title: string)
    | NoPresets
    | PageInfo(page: int, pages: int)
    | ListItem(number: int, active: bool, giftName: string, lastCount: Option<int>)
    // formatCheckResult, formatPresetCreated, formatChangeNotification
    | GiftTitle(name: string)
    | CheckHeading
    | CheckModel(model: string)
    | CheckBackground(background: string)
    | CheckPattern(pattern: string)
    | Found(count: JsNumber)
    | Trend(change: Change)
    | CheckedAt(date: string)
    // formatHistory
    | HistoryHeading
    | EmptyHistory
    | HistoryRow(number: int, changed: bool, recorded: int, date: string)
    | More(rest: int)
    // formatMonitoringStats
    | StatsHeading
    | RunStatus(running: bool)
    | TotalChecks(total: int)
    | Successful(successful: int)
    | Failed(failed: int)
    | Changes(changes: int)
    | LastCheck(when: Option<string>)
    | Efficiency(percent: int)
    // formatChangeNotification
    | NoticeHeading
    | Movement(up: bool, amount: int)
    | Counts(oldCount: int, newCount: int)
    | Stamp(date: string)
    // formatConfirmation
    | ConfirmHeading
    | Question(action: string)
    | Details(details: string)
    // formatPresetCreated
    | CreatedHeading
    | ModelNote(model: string)
    | BackgroundNote(background: string)
    | PatternNote(pattern: string)
    | Activated

  function Bold(s: string): string {
    "<b>" + s + "</b>"
  }

  function RenderLine(line: Line): string {
    match line
    case ListHeading(t) => "📋 " + Bold(t) + "\n"
    case NoPresets =>
      "\n❌ У вас пока нет пресетов.\n\nСоздайте первый пресет, выбрав \"Добавить пресет\" в главном меню!"
    case PageInfo(p, n) => "Страница " + IntToString(p) + " из " + IntToString(n) + "\n\n"
    case ListItem(k, active, name, lastCount) =>
      IntToString(k) + ". " + (if active then "🟢" else "🔴") + " " + Bold(name)
      + (if lastCount.Some? then " (" + IntToString(lastCount.value) + ")" else "") + "\n"
    case GiftTitle(name) => "🎁 " + Bold(name) + "\n"
    case CheckHeading => "🔍 " + Bold("Результат проверки") + "\n\n"
    case CheckModel(v) => "🎨 " + Bold("Модель:") + " " + v + "\n"
    case CheckBackground(v) => "🖼️ " + Bold("Фон:") + " " + v + "\n"
    case CheckPattern(v) => "🎭 " + Bold("Узор:") + " " + v + "\n"
    case Found(c) => "🔢 Найдено подарков: " + Bold(NumberToString(c)) + "\n"
    case Trend(Rise(d)) => "📈 Изменение: +" + IntToString(d) + "\n"
    case Trend(Fall(d)) => "📉 Изменение: " + IntToString(d) + "\n"
    case Trend(NoChange) => "➡️ Изменение: без изменений\n"
    case CheckedAt(date) => "\n⏰ Проверено: " + date
    case HistoryHeading => "📊 " + Bold("История мониторинга") + "\n\n"
    case EmptyHistory => "❌ История пуста"
    case HistoryRow(k, changed, count, date) =>
      IntToString(k) + ". " + (if changed then "📈" else "➡️") + " " + Bold(IntToString(count))
      + " подарков (" + date + ")\n"
    case More(n) => "\n... и еще " + IntToString(n) + " записей"
    case StatsHeading => "📊 " + Bold("Статистика мониторинга") + "\n\n"
    case RunStatus(running) => "🔄 " + Bold("Статус:") + " " + (if running then "🟢 Активен" else "🔴 Остановлен") + "\n"
    case TotalChecks(n) => "📈 " + Bold("Всего проверок:") + " " + IntToString(n) + "\n"
    case Successful(n) => "✅ " + Bold("Успешных:") + " " + IntToString(n) + "\n"
    case Failed(n) => "❌ " + Bold("Неудачных:") + " " + IntToString(n) + "\n"
    case Changes(n) => "🎯 " + Bold("Обнаружено изменений:") + " " + IntToString(n) + "\n"
    case LastCheck(date) => "⏰ " + Bold("Последняя проверка:") + " " + (if date.Some? then date.value else "Никогда") + "\n\n"
    case Efficiency(p) => "📊 " + Bold("Эффективность:") + " " + IntToString(p) + "%"
    case NoticeHeading => "🔔 " + Bold("Изменение обнаружено!") + "\n\n"
    case Movement(up, d) => "🔢 Количество подарков " + (if up then "увеличилось на " else "уменьшилось на ") + IntToString(d) + "\n"
    case Counts(o, n) => "📊 Было: " + IntToString(o) + " → Стало: " + IntToString(n) + "\n\n"
    case Stamp(date) => "⏰ " + date
    case ConfirmHeading => "⚠️ " + Bold("Подтверждение") + "\n\n"
    case Question(action) => "Вы действительно хотите " + action + "?"
    case Details(d) => "\n\n" + d
    case CreatedHeading => "✅ " + Bold("Пресет создан!") + "\n\n"
    case ModelNote(v) => "🎭 Модель: " + v + "\n"
    case BackgroundNote(v) => "🖼️ Фон: " + v + "\n"
    case PatternNote(v) => "🎨 Узор: " + v + "\n"
    case Activated => "\n🟢 Мониторинг активирован"
  }

  /** The message text: the lines' texts one after another. */
  function Render(lines: seq<Line>): string {
    if |lines| == 0 then "" else RenderLine(lines[0]) + Render(lines[1..])
  }

  /** The line for an optional value: one line when the value is truthy, none otherwise. */
  function When(v: Option<string>, line: string -> Line): (r: seq<Line>)
    ensures |r| <= 1
    ensures forall x :: x in r <==> Truthy(v) && x == line(v.value)
  {
    if Truthy(v) then [line(v.value)] else []
  }

  // ------------------------------------------------------------ presets list

  /** `title || 'Мои пресеты'`: an absent or empty title falls back. */
  function Header(title: Option<string>): (h: string)
    ensures Truthy(title) ==> h == title.value
    ensures !Truthy(title) ==> h == DefaultTitle
  {
    if Truthy(title) then title.value else DefaultTitle
  }

  function ItemLine(number: int, d: DisplayPreset): Line {
    ListItem(number, d.preset.isActive, d.preset.giftName, d.lastCount)
  }

  /** `formatPresetsList`: the empty-state text for no presets; otherwise
      the heading, the page counter and the page's presets, numbered from
      the page's first index plus one. */
  function PresetsList(presets: seq<DisplayPreset>, page: int := 0, size: int := DefaultPageSize, title: Option<string> := None): (r: seq<Line>)
    requires size >= 1
    ensures |r| >= 2 && r[0] == ListHeading(Header(title))
    ensures |presets| == 0 ==> r == [ListHeading(Header(title)), NoPresets]
    ensures |presets| > 0 ==>
      && r[1] == PageInfo(page + 1, Keyboards.PageCount(|presets|, size))
      && NoPresets !in r
      && |r| == 2 + |Keyboards.PageSlice(presets, page, size)|
      && forall i :: 2 <= i < |r| ==> r[i].ListItem? && r[i].number == page * size + i - 1
  {
    var heading := ListHeading(Header(title));
    if |presets| == 0 then [heading, NoPresets]
    else
      var shown := Keyboards.PageSlice(presets, page, size);
      var items := seq(|shown|, i requires 0 <= i < |shown| => ItemLine(page * size + i + 1, shown[i]));
      [heading, PageInfo(page + 1, Keyboards.PageCount(|presets|, size))] + items
  }

  /** The items of a non-empty list are the page's presets, numbered on
      from the page's first index. */
  lemma ListItems(presets: seq<DisplayPreset>, page: int, size: int, title: Option<string>)
    requires size >= 1 && |presets| > 0
    ensures var r := PresetsList(presets, page, size, title);
      var shown := Keyboards.PageSlice(presets, page, size);
      |r| == |shown| + 2 && forall i :: 0 <= i < |shown| ==> r[i + 2] == ItemLine(page * size + i + 1, shown[i])
  {
  }

  /** Item number `n` on a page always describes preset `n - 1` of the whole
      list, and every preset of the page's range is listed. */
  lemma ListNumbersIndexPresets(presets: seq<DisplayPreset>, page: int, size: int, title: Option<string>)
    requires size >= 1 && page >= 0 && |presets| > 0
    ensures var r := PresetsList(presets, page, size, title);
      && (forall i :: 2 <= i < |r| ==>
           1 <= r[i].number <= |presets| && r[i] == ItemLine(r[i].number, presets[r[i].number - 1]))
      && (forall j :: page * size <= j < page * size + size && j < |presets| ==>
           ItemLine(j + 1, presets[j]) in r)
  {
    var r := PresetsList(presets, page, size, title);
    var shown := Keyboards.PageSlice(presets, page, size);
    Keyboards.PageSliceAt(presets, page, size);
    ListItems(presets, page, size, title);
    ItemsIndex(presets, page * size, size, shown, r);
  }

  /** Items numbered on from `start` over the window of `presets` that
      starts there: each number names its preset, and the whole window is
      listed. */
  lemma ItemsIndex(presets: seq<DisplayPreset>, start: int, size: int, shown: seq<DisplayPreset>, r: seq<Line>)
    requires start >= 0 && size >= 1
    requires |shown| == (if start >= |presets| then 0 else if start + size < |presets| then size else |presets| - start)
    requires forall i :: 0 <= i < |shown| ==> start + i < |presets| && shown[i] == presets[start + i]
    requires |r| == |shown| + 2 && forall i :: 0 <= i < |shown| ==> r[i + 2] == ItemLine(start + i + 1, shown[i])
    ensures forall i :: 2 <= i < |r| ==>
      r[i].ListItem? && 1 <= r[i].number <= |presets| && r[i] == ItemLine(r[i].number, presets[r[i].number - 1])
    ensures forall j :: start <= j < start + size && j < |presets| ==> ItemLine(j + 1, presets[j]) in r
  {
    forall i | 2 <= i < |r|
      ensures r[i].ListItem? && 1 <= r[i].number <= |presets| && r[i] == ItemLine(r[i].number, presets[r[i].number - 1])
    {
      var k := i - 2;
      assert r[i] == ItemLine(start + k + 1, shown[k]);
    }
    forall j | start <= j < start + size && j < |presets|
      ensures ItemLine(j + 1, presets[j]) in r
    {
      var k := j - start;
      assert shown[k] == presets[j];
      assert r[k + 2] == ItemLine(j + 1, presets[j]);
    }
  }

  /** The list message and the list keyboard of the same page agree: item
      `i` of the message and row `i` of the keyboard show the same preset. */
  lemma ListMatchesKeyboard(presets: seq<Database.Preset>, page: int, size: int, title: Option<string>)
    requires size >= 1 && |presets| > 0
    ensures var display := seq(|presets|, i requires 0 <= i < |presets| => Display(presets[i]));
      var r := PresetsList(display, page, size, title);
      var k := Keyboards.PresetsListKeyboard(presets, page, size);
      var shown := Keyboards.PageSlice(presets, page, size);
      && |r| - 2 == |shown|
      && forall i :: 0 <= i < |shown| ==>
           r[i + 2].giftName == shown[i].giftName && r[i + 2].active == shown[i].isActive
           && k[i] == [Keyboards.ViewButton(shown[i])]
  {
    var display := seq(|presets|, i requires 0 <= i < |presets| => Display(presets[i]));
    DisplaySlice(presets, display, page, size);
    ListItems(display, page, size, title);
  }

  /** The page of the display list holds the displays of the page of presets. */
  lemma DisplaySlice(presets: seq<Database.Preset>, display: seq<DisplayPreset>, page: int, size: int)
    requires size >= 1 && |display| == |presets|
    requires forall i :: 0 <= i < |presets| ==> display[i] == Display(presets[i])
    ensures var ds := Keyboards.PageSlice(display, page, size);
      var shown := Keyboards.PageSlice(presets, page, size);
      |ds| == |shown| && forall i :: 0 <= i < |shown| ==> ds[i] == Display(shown[i])
  {
    var start := page * size;
    var a := SliceIndex(|presets|, start);
    var ds := Keyboards.PageSlice(display, page, size);
    var shown := Keyboards.PageSlice(presets, page, size);
    assert ds == Slice(display, start, start + size);
    assert shown == Slice(presets, start, start + size);
    forall i | 0 <= i < |shown| ensures ds[i] == Display(shown[i]) {
      assert ds[i] == display[a + i];
      assert shown[i] == presets[a + i];
    }
  }

  // ------------------------------------------------------------ check result

  /** The change line's verdict: `count - previous` above, below or at zero.
      A NaN count compares false both ways and so reads as no change. */
  function CheckChange(count: JsNumber, previous: int): (c: Change)
    ensures c.Rise? <==> count.Finite? && count.value > previous
    ensures c.Fall? <==> count.Finite? && count.value < previous
    ensures c.Rise? ==> c.amount > 0
    ensures c.Fall? ==> c.amount < 0
    ensures !c.NoChange? ==> previous + c.amount == count.value
  {
    match count
    case NaN => NoChange
    case Finite(v) =>
      if v - previous > 0 then Rise(v - previous)
      else if v - previous < 0 then Fall(v - previous)
      else NoChange
  }

  /** The filter lines of a check result: one per truthy filter, in the
      order model, background, pattern. */
  function CheckFilters(p: Database.Preset): (r: seq<Line>)
    ensures forall x :: x in r ==> x.CheckModel? || x.CheckBackground? || x.CheckPattern?
    ensures forall v :: CheckModel(v) in r <==> Truthy(p.model) && v == p.model.value
    ensures forall v :: CheckBackground(v) in r <==> Truthy(p.background) && v == p.background.value
    ensures forall v :: CheckPattern(v) in r <==> Truthy(p.pattern) && v == p.pattern.value
  {
    (if Truthy(p.model) then [CheckModel(p.model.value)] else [])
    + (if Truthy(p.background) then [CheckBackground(p.background.value)] else [])
    + (if Truthy(p.pattern) then [CheckPattern(p.pattern.value)] else [])
  }

  /** `formatCheckResult`: heading, preset, its truthy filters, the count,
      the change line exactly when a previous count is given, the time. */
  function CheckResult(p: Database.Preset, count: JsNumber, previous: Option<int>, now: string): (r: seq<Line>)
    ensures |r| >= 4 && r[0] == CheckHeading && r[1] == GiftTitle(p.giftName) && r[|r| - 1] == CheckedAt(now)
    ensures Found(count) in r
    ensures forall c :: Trend(c) in r <==> previous.Some? && c == CheckChange(count, previous.value)
  {
    var trend := if previous.Some? then [Trend(CheckChange(count, previous.value))] else [];
    var r := [CheckHeading, GiftTitle(p.giftName)] + CheckFilters(p) + [Found(count)] + trend + [CheckedAt(now)];
    assert r == [CheckHeading, GiftTitle(p.giftName)] + CheckFilters(p) + ([Found(count)] + trend + [CheckedAt(now)]);
    assert forall x :: x in CheckFilters(p) ==> x.CheckModel? || x.CheckBackground? || x.CheckPattern?;
    r
  }

  /** The filter lines of a check result are exactly the preset's truthy filters. */
  lemma CheckResultShowsFilters(p: Database.Preset, count: JsNumber, previous: Option<int>, now: string)
    ensures var r := CheckResult(p, count, previous, now);
      && (forall v :: CheckModel(v) in r <==> Truthy(p.model) && v == p.model.value)
      && (forall v :: CheckBackground(v) in r <==> Truthy(p.background) && v == p.background.value)
      && (forall v :: CheckPattern(v) in r <==> Truthy(p.pattern) && v == p.pattern.value)
  {
    var trend := if previous.Some? then [Trend(CheckChange(count, previous.value))] else [];
    var head := [CheckHeading, GiftTitle(p.giftName)];
    var tail := [Found(count)] + trend + [CheckedAt(now)];
    var r := CheckResult(p, count, previous, now);
    var filters := CheckFilters(p);
    assert r == head + filters + tail;
    forall v ensures CheckModel(v) in r <==> CheckModel(v) in filters {
      OnlyInMiddle(head, filters, tail, CheckModel(v));
    }
    forall v ensures CheckBackground(v) in r <==> CheckBackground(v) in filters {
      OnlyInMiddle(head, filters, tail, CheckBackground(v));
    }
    forall v ensures CheckPattern(v) in r <==> CheckPattern(v) in filters {
      OnlyInMiddle(head, filters, tail, CheckPattern(v));
    }
  }

  /** An element found in neither end of a concatenation is in it exactly
      when it is in the middle. */
  lemma OnlyInMiddle<T>(a: seq<T>, m: seq<T>, b: seq<T>, x: T)
    requires x !in a && x !in b
    ensures x in a + m + b <==> x in m
  {
  }

  // ----------------------------------------------------------------- history

  function HistoryLine(k: nat, h: Database.HistoryRecord, date: int -> string): Line {
    HistoryRow(k + 1, h.hasChanged, h.count, date(h.checkedAt))
  }

  /** `formatHistory`: "История пуста" for no records; otherwise the first
      ten records numbered from 1, and a closing line with the number of
      records left out when there are more than ten. */
  function History(history: seq<Database.HistoryRecord>, date: int -> string): (r: seq<Line>)
    ensures |r| >= 2 && r[0] == HistoryHeading
    ensures EmptyHistory in r <==> |history| == 0
    ensures |history| == 0 ==> r == [HistoryHeading, EmptyHistory]
    ensures |history| > 0 ==>
      |r| == 1 + Min(|history|, HistoryShown) + (if |history| > HistoryShown then 1 else 0)
    ensures forall k :: 0 <= k < Min(|history|, HistoryShown) ==> r[k + 1] == HistoryLine(k, history[k], date)
    ensures forall n :: More(n) in r <==> |history| > HistoryShown && n == |history| - HistoryShown
  {
    if |history| == 0 then [HistoryHeading, EmptyHistory]
    else
      var shown := Take(history, HistoryShown);
      var rows := seq(|shown|, k requires 0 <= k < |shown| => HistoryLine(k, shown[k], date));
      var more := if |history| > HistoryShown then [More(|history| - HistoryShown)] else [];
      var r := [HistoryHeading] + rows + more;
      assert forall x :: x in rows ==> x.HistoryRow?;
      r
  }

  function Min(a: int, b: int): int {
    if a < b then a else b
  }

  // ------------------------------------------------------------ monitor stats

  /** `Math.round(successful / total * 100)` for a positive total, else 0,
      taken as exact rational arithmetic with halves rounded up. */
  function EfficiencyPercent(successful: nat, total: nat): (e: int)
    ensures total == 0 ==> e == 0
    ensures total > 0 ==> 2 * e * total <= 200 * successful + total < 2 * (e + 1) * total
  {
    if total > 0 then (200 * successful + total) / (2 * total) else 0
  }

  /** A share of at most the whole is a percentage, and all of it is 100. */
  lemma EfficiencyInRange(successful: nat, total: nat)
    requires successful <= total
    ensures 0 <= EfficiencyPercent(successful, total) <= 100
    ensures total > 0 && successful == total ==> EfficiencyPercent(successful, total) == 100
  {
    if total > 0 {
      var e := EfficiencyPercent(successful, total);
      assert (2 * e) * total <= 201 * total;
      FactorAtMost(2 * e, 201, total);
      assert 0 * total < (2 * (e + 1)) * total;
      FactorBelow(0, 2 * (e + 1), total);
      if successful == total {
        assert 201 * total < (2 * (e + 1)) * total;
        FactorBelow(201, 2 * (e + 1), total);
      }
    }
  }

  /** Cancelling a positive factor keeps `<=`. */
  lemma FactorAtMost(a: int, b: int, t: int)
    requires t > 0 && a * t <= b * t
    ensures a <= b
  {
    assert (b - a) * t == b * t - a * t;
  }

  /** Cancelling a positive factor keeps `<`. */
  lemma FactorBelow(a: int, b: int, t: int)
    requires t > 0 && a * t < b * t
    ensures a < b
  {
    assert (b - a) * t == b * t - a * t;
  }

  /** `formatMonitoringStats`: a heading, then one line per statistic in
      the order status, checks, successes, failures, changes, last check,
      efficiency. */
  function MonitoringStats(s: Monitoring.MonitorStats, date: int -> string): (r: seq<Line>)
    ensures |r| == 8 && r[0] == StatsHeading && r[|r| - 1] == Efficiency(EfficiencyPercent(s.successfulChecks, s.totalChecks))
    ensures r[1] == RunStatus(s.isRunning) && r[2] == TotalChecks(s.totalChecks)
    ensures r[3] == Successful(s.successfulChecks) && r[4] == Failed(s.failedChecks)
    ensures r[5] == Changes(s.totalChanges)
    ensures r[6] == LastCheck(if s.lastCheck.Some? then Some(date(s.lastCheck.value)) else None)
  {
    [ StatsHeading, RunStatus(s.isRunning), TotalChecks(s.totalChecks), Successful(s.successfulChecks),
      Failed(s.failedChecks), Changes(s.totalChanges),
      LastCheck(if s.lastCheck.Some? then Some(date(s.lastCheck.value)) else None),
      Efficiency(EfficiencyPercent(s.successfulChecks, s.totalChecks)) ]
  }

  /** For the monitor's own tallies the shown efficiency is a percentage,
      0 before the first cycle. */
  lemma MonitorEfficiencyIsPercentage(m: Monitoring.Monitor)
    requires Monitoring.Tallied(m)
    ensures 0 <= EfficiencyPercent(m.stats.successfulChecks, m.stats.totalChecks) <= 100
    ensures m.stats.totalChecks == 0 ==> EfficiencyPercent(m.stats.successfulChecks, m.stats.totalChecks) == 0
  {
    EfficiencyInRange(m.stats.successfulChecks, m.stats.totalChecks);
  }

  /** For the monitor's own statistics the shown successes and failures
      add up to the shown total, and the status line shows whether a job
      is scheduled. */
  lemma MonitorStatsAddUp(m: Monitoring.Monitor, date: int -> string)
    requires Monitoring.Tallied(m)
    ensures var r := MonitoringStats(m.stats, date);
      && r[3].successful + r[4].failed == r[2].total
      && (r[1].running <==> m.hasJob)
  {
  }

  // ----------------------------------------------------- change notification

  /** `formatChangeNotification` of the formatter: "increased by d" exactly
      when the difference is positive, otherwise "decreased by |d|", which
      includes no difference at all. */
  function ChangeNotification(p: Database.Preset, oldCount: int, newCount: int, now: string): (r: seq<Line>)
    ensures |r| == 5 && r[0] == NoticeHeading && r[1] == GiftTitle(p.giftName)
    ensures r[2].Movement? && (r[2].up <==> newCount > oldCount) && r[2].amount >= 0
    ensures r[3] == Counts(oldCount, newCount) && r[4] == Stamp(now)
  {
    var d := newCount - oldCount;
    [NoticeHeading, GiftTitle(p.giftName), Movement(d > 0, if d > 0 then d else -d), Counts(oldCount, newCount), Stamp(now)]
  }

  /** The movement line and the counts line agree: applying the stated
      movement to the old count gives the new one. */
  lemma NotificationMovementAgrees(p: Database.Preset, oldCount: int, newCount: int, now: string)
    ensures var r := ChangeNotification(p, oldCount, newCount, now);
      (if r[2].up then oldCount + r[2].amount else oldCount - r[2].amount) == newCount
  {
  }

  // ----------------------------------------------------- confirmation, created

  /** `formatConfirmation`: the details paragraph only when details are given. */
  function Confirmation(action: string, details: Option<string>): (r: seq<Line>)
    ensures |r| >= 2 && r[0] == ConfirmHeading && r[1] == Question(action)
    ensures forall d :: Details(d) in r <==> Truthy(details) && d == details.value
  {
    [ConfirmHeading, Question(action)] + When(details, v => Details(v))
  }

  /** `formatPresetCreated`: the model, background and pattern lines appear
      exactly for the truthy fields; monitoring is announced as active. */
  function PresetCreated(p: Database.Preset): (r: seq<Line>)
    ensures |r| >= 3 && r[0] == CreatedHeading && r[1] == GiftTitle(p.giftName) && r[|r| - 1] == Activated
    ensures forall v :: ModelNote(v) in r <==> Truthy(p.model) && v == p.model.value
    ensures forall v :: BackgroundNote(v) in r <==> Truthy(p.background) && v == p.background.value
    ensures forall v :: PatternNote(v) in r <==> Truthy(p.pattern) && v == p.pattern.value
  {
    var head := [CreatedHeading, GiftTitle(p.giftName)];
    var notes := CreatedNotes(p);
    var r := head + notes + [Activated];
    assert forall v :: ModelNote(v) in r <==> ModelNote(v) in notes by {
      forall v { OnlyInMiddle(head, notes, [Activated], ModelNote(v)); }
    }
    assert forall v :: BackgroundNote(v) in r <==> BackgroundNote(v) in notes by {
      forall v { OnlyInMiddle(head, notes, [Activated], BackgroundNote(v)); }
    }
    assert forall v :: PatternNote(v) in r <==> PatternNote(v) in notes by {
      forall v { OnlyInMiddle(head, notes, [Activated], PatternNote(v)); }
    }
    r
  }

  /** The lines for the truthy fields of a new preset, model first. */
  function CreatedNotes(p: Database.Preset): (r: seq<Line>)
    ensures forall v :: ModelNote(v) in r <==> Truthy(p.model) && v == p.model.value
    ensures forall v :: BackgroundNote(v) in r <==> Truthy(p.background) && v == p.background.value
    ensures forall v :: PatternNote(v) in r <==> Truthy(p.pattern) && v == p.pattern.value
  {
    When(p.model, v => ModelNote(v)) + When(p.background, v => BackgroundNote(v)) + When(p.pattern, v => PatternNote(v))
  }
}

=== FILE: history_model.dfy ===
/** `HistoryModel`: the `monitoring_history` table as an append-only log of
    count readings, with its queries by preset, its aggregate statistics and
    its two deletions. */
module HistoryModel {
  import opened Common
  import opened Js
  import opened Ordering
  import opened Database

  const SecondsPerDay: int := 86400

  /** The error SQLite raises for an insert whose `preset_id` has no preset. */
  const ForeignKeyFailed: string := "SQLITE_CONSTRAINT: FOREIGN KEY constraint failed"

  datatype Logged = Logged(db: Db, record: HistoryRecord)

  /** The aggregate row of `getStatisticsByPresetId` (its `averageCount`
      column is not part of the model). */
  datatype Statistics = Statistics(
    totalChecks: nat,
    totalChanges: nat,
    minCount: int,
    maxCount: int,
    lastCheck: Option<int>)

  datatype Pruned = Pruned(db: Db, removed: nat)

  function CheckedAtKey(): HistoryRecord -> int {
    (h: HistoryRecord) => h.checkedAt
  }

  function OfPreset(presetId: int): HistoryRecord -> bool {
    (h: HistoryRecord) => h.presetId == presetId
  }

  function IsChanged(): HistoryRecord -> bool {
    (h: HistoryRecord) => h.hasChanged
  }

  function NotFound(id: int): string {
    "Запись истории с ID " + IntToString(id) + " не найдена"
  }

  /** A `limit` argument is applied when it is truthy (present and non-zero);
      SQLite reads a negative LIMIT as "no limit". The result is always a
      prefix of the rows: the first `limit` of them, or all of them. */
  function ApplyLimit(rows: seq<HistoryRecord>, limit: Option<int>): (r: seq<HistoryRecord>)
    ensures |r| <= |rows| && r == rows[..|r|]
    ensures limit.Some? && limit.value > 0 ==> |r| == (if limit.value < |rows| then limit.value else |rows|)
    ensures !(limit.Some? && limit.value > 0) ==> |r| == |rows|
  {
    if limit.Some? && limit.value > 0 then Take(rows, limit.value) else rows
  }

  /** `getById`: the record with that key, or the "not found" error. */
  function GetById(db: Db, id: int): (r: Result<HistoryRecord, string>)
    ensures r.Ok? <==> exists h :: h in db.history && h.id == id
    ensures r.Ok? ==> r.value in db.history && r.value.id == id
    ensures r.Err? ==> r.error == NotFound(id)
  {
    match FindRecord(db.history, id)
    case Some(h) => Ok(h)
    case None => Err(NotFound(id))
  }

  /** `create`: appends one reading stamped `now`; `has_changed` defaults to
      false. The foreign key rejects a reading for a preset that does not exist. */
  function Create(db: Db, presetId: int, count: int, now: int, hasChanged: bool := false): (r: Result<Logged, string>)
    requires Valid(db)
    ensures r.Ok? <==> HasPreset(db, presetId)
    ensures r.Err? ==> r.error == ForeignKeyFailed
    ensures r.Ok? ==> Valid(r.value.db)
    ensures r.Ok? ==> r.value.db.presets == db.presets && r.value.db.history == db.history + [r.value.record]
    ensures r.Ok? ==> var h := r.value.record;
      h.presetId == presetId && h.count == count && h.checkedAt == now && h.hasChanged == hasChanged
    ensures r.Ok? ==> forall h :: h in db.history ==> h.id != r.value.record.id
    ensures r.Ok? ==> GetById(r.value.db, r.value.record.id) == Ok(r.value.record)
  {
    if !HasPreset(db, presetId) then Err(ForeignKeyFailed)
    else
      var h := HistoryRecord(db.nextHistoryId, presetId, count, now, hasChanged);
      var db' := db.(history := db.history + [h], nextHistoryId := db.nextHistoryId + 1);
      AppendRecordValid(db, h);
      assert h in db'.history;
      FindRecordUnique(db', h);
      Ok(Logged(db', h))
  }

  /** All readings of one preset, newest first. */
  function NewestFirst(db: Db, presetId: int): (r: seq<HistoryRecord>)
    ensures SortedDesc(r, CheckedAtKey())
    ensures multiset(r) == multiset(Filter(db.history, OfPreset(presetId)))
    ensures forall h :: h in r <==> h in db.history && h.presetId == presetId
  {
    var r := SortDesc(Filter(db.history, OfPreset(presetId)), CheckedAtKey());
    assert forall h :: h in r <==> h in Filter(db.history, OfPreset(presetId)) by {
      forall h ensures h in r <==> h in Filter(db.history, OfPreset(presetId)) {
        assert h in r <==> h in multiset(r);
      }
    }
    r
  }

  /** The readings flagged as a change, newest first. */
  function ChangedNewestFirst(db: Db): (r: seq<HistoryRecord>)
    ensures SortedDesc(r, CheckedAtKey())
    ensures multiset(r) == multiset(Filter(db.history, IsChanged()))
    ensures forall h :: h in r <==> h in db.history && h.hasChanged
  {
    var r := SortDesc(Filter(db.history, IsChanged()), CheckedAtKey());
    assert forall h :: h in r <==> h in Filter(db.history, IsChanged()) by {
      forall h ensures h in r <==> h in Filter(db.history, IsChanged()) {
        assert h in r <==> h in multiset(r);
      }
    }
    r
  }

  /** A limit applied to rows sorted newest first keeps the newest rows. */
  lemma LimitKeepsNewest(all: seq<HistoryRecord>, limit: Option<int>)
    requires SortedDesc(all, CheckedAtKey())
    ensures var r := ApplyLimit(all, limit);
      && SortedDesc(r, CheckedAtKey())
      && multiset(r) <= multiset(all)
      && (forall h :: h in r ==> h in all)
      && forall x, y :: x in multiset(r) && y in multiset(all) - multiset(r) ==> x.checkedAt >= y.checkedAt
  {
    var r := ApplyLimit(all, limit);
    var k := |r|;
    assert r == all[..k];
    PrefixIsTop(all, k, CheckedAtKey());
    PrefixSorted(all, k, CheckedAtKey());
    assert multiset(all) - multiset(r) == multiset(all[k..]);
    forall x: HistoryRecord, y: HistoryRecord | x in multiset(r) && y in multiset(all) - multiset(r)
      ensures x.checkedAt >= y.checkedAt
    {
      assert x in all[..k] && y in all[k..];
      assert CheckedAtKey()(x) >= CheckedAtKey()(y);
    }
  }

  /** `getByPresetId`: that preset's readings, newest first; a truthy
      positive `limit` keeps only the `limit` newest. */
  function GetByPresetId(db: Db, presetId: int, limit: Option<int>): (r: seq<HistoryRecord>)
    ensures SortedDesc(r, CheckedAtKey())
    ensures forall h :: h in r ==> h in db.history && h.presetId == presetId
    ensures !(limit.Some? && limit.value > 0) ==> multiset(r) == multiset(Filter(db.history, OfPreset(presetId)))
    ensures limit.Some? && limit.value > 0 ==>
      |r| == (if limit.value < CountWhere(db.history, OfPreset(presetId)) then limit.value
              else CountWhere(db.history, OfPreset(presetId)))
    ensures var all := multiset(Filter(db.history, OfPreset(presetId)));
      && multiset(r) <= all
      && forall x, y :: x in multiset(r) && y in all - multiset(r) ==> x.checkedAt >= y.checkedAt
  {
    var all := NewestFirst(db, presetId);
    LimitKeepsNewest(all, limit);
    ApplyLimit(all, limit)
  }

  /** `getLatestByPresetId`: absent exactly when the preset has no reading;
      otherwise one of its readings with the greatest `checked_at`. */
  function GetLatestByPresetId(db: Db, presetId: int): (r: Option<HistoryRecord>)
    ensures r.None? <==> forall h :: h in db.history ==> h.presetId != presetId
    ensures r.Some? ==> r.value in db.history && r.value.presetId == presetId
    ensures r.Some? ==> forall h :: h in db.history && h.presetId == presetId ==> h.checkedAt <= r.value.checkedAt
  {
    var rows := NewestFirst(db, presetId);
    if |rows| == 0 then None
    else
      HeadIsMax(rows, CheckedAtKey());
      assert rows[0] in rows;
      Some(rows[0])
  }

  /** `getChangedRecords`: the readings flagged as a change, newest first,
      limited like `getByPresetId`. */
  function GetChangedRecords(db: Db, limit: Option<int>): (r: seq<HistoryRecord>)
    ensures SortedDesc(r, CheckedAtKey())
    ensures forall h :: h in r ==> h in db.history && h.hasChanged
    ensures !(limit.Some? && limit.value > 0) ==> multiset(r) == multiset(Filter(db.history, IsChanged()))
    ensures limit.Some? && limit.value > 0 ==>
      |r| == (if limit.value < CountWhere(db.history, IsChanged()) then limit.value
              else CountWhere(db.history, IsChanged()))
    ensures var all := multiset(Filter(db.history, IsChanged()));
      && multiset(r) <= all
      && forall x, y :: x in multiset(r) && y in all - multiset(r) ==> x.checkedAt >= y.checkedAt
  {
    var all := ChangedNewestFirst(db);
    LimitKeepsNewest(all, limit);
    ApplyLimit(all, limit)
  }

  function MinCount(rows: seq<HistoryRecord>): (m: int)
    requires |rows| > 0
    ensures exists h :: h in rows && h.count == m
    ensures forall h :: h in rows ==> m <= h.count
  {
    if |rows| == 1 then rows[0].count
    else
      var m := MinCount(rows[1..]);
      assert forall h :: h in rows ==> h == rows[0] || h in rows[1..];
      if rows[0].count < m then rows[0].count else m
  }

  function MaxCount(rows: seq<HistoryRecord>): (m: int)
    requires |rows| > 0
    ensures exists h :: h in rows && h.count == m
    ensures forall h :: h in rows ==> h.count <= m
  {
    if |rows| == 1 then rows[0].count
    else
      var m := MaxCount(rows[1..]);
      assert forall h :: h in rows ==> h == rows[0] || h in rows[1..];
      if rows[0].count > m then rows[0].count else m
  }

  function LastCheck(rows: seq<HistoryRecord>): (t: int)
    requires |rows| > 0
    ensures exists h :: h in rows && h.checkedAt == t
    ensures forall h :: h in rows ==> h.checkedAt <= t
  {
    if |rows| == 1 then rows[0].checkedAt
    else
      var t := LastCheck(rows[1..]);
      assert forall h :: h in rows ==> h == rows[0] || h in rows[1..];
      if rows[0].checkedAt > t then rows[0].checkedAt else t
  }

  /** `getStatisticsByPresetId`: COUNT, the number of changes, MIN and MAX of
      the counts and MAX of `checked_at`; with no rows the aggregates are NULL
      and read back as 0 (and `lastCheck` as null). */
  function GetStatisticsByPresetId(db: Db, presetId: int): (r: Statistics)
    ensures r.totalChecks == |GetByPresetId(db, presetId, None)|
    ensures r.totalChanges == |Filter(GetByPresetId(db, presetId, None), IsChanged())|
    ensures r.lastCheck.None? <==> r.totalChecks == 0
    ensures r.totalChecks == 0 ==> r.totalChanges == 0 && r.minCount == 0 && r.maxCount == 0
    ensures r.totalChecks > 0 ==>
      && (exists h :: h in db.history && h.presetId == presetId && h.count == r.minCount)
      && (exists h :: h in db.history && h.presetId == presetId && h.count == r.maxCount)
      && (forall h :: h in db.history && h.presetId == presetId ==> r.minCount <= h.count <= r.maxCount)
    ensures r.lastCheck.Some? ==> GetLatestByPresetId(db, presetId).value.checkedAt == r.lastCheck.value
  {
    var rows := NewestFirst(db, presetId);
    if |rows| == 0 then Statistics(0, 0, 0, 0, None)
    else
      var latest := GetLatestByPresetId(db, presetId).value;
      var t := LastCheck(rows);
      assert latest in rows;
      Statistics(|rows|, |Filter(rows, IsChanged())|, MinCount(rows), MaxCount(rows), Some(t))
  }

  /** `deleteOldRecords`: removes every reading stamped before `daysToKeep`
      days ago and reports how many went. A negative `daysToKeep` renders
      the modifier `--N days`, which SQLite rejects, so the cutoff is NULL
      and nothing is removed. */
  function DeleteOldRecords(db: Db, now: int, daysToKeep: int := 30): (r: Pruned)
    requires Valid(db)
    ensures Valid(r.db) && r.db.presets == db.presets
    ensures forall h :: h in r.db.history <==>
      h in db.history && !(daysToKeep >= 0 && h.checkedAt < now - daysToKeep * SecondsPerDay)
    ensures r.removed == |db.history| - |r.db.history|
    ensures daysToKeep < 0 ==> r.db == db && r.removed == 0
  {
    var keep := (h: HistoryRecord) => !(daysToKeep >= 0 && h.checkedAt < now - daysToKeep * SecondsPerDay);
    var db' := db.(history := Filter(db.history, keep));
    KeepHistoryValid(db, keep);
    if daysToKeep < 0 then
      FilterAll(db.history, keep);
      Pruned(db', 0)
    else Pruned(db', |db.history| - |db'.history|)
  }

  /** `deleteByPresetId`: removes all of that preset's readings and no others. */
  function DeleteByPresetId(db: Db, presetId: int): (r: Db)
    requires Valid(db)
    ensures Valid(r) && r.presets == db.presets
    ensures forall h :: h in r.history <==> h in db.history && h.presetId != presetId
  {
    KeepHistoryValid(db, (h: HistoryRecord) => h.presetId != presetId);
    db.(history := Filter(db.history, (h: HistoryRecord) => h.presetId != presetId))
  }

  // ----------------------------------------------------------- partner lemmas

  /** A reading written later than every earlier reading of its preset is
      what `getLatestByPresetId` returns next. */
  lemma CreateThenLatest(db: Db, presetId: int, count: int, now: int, hasChanged: bool)
    requires Valid(db) && HasPreset(db, presetId)
    requires forall h :: h in db.history && h.presetId == presetId ==> h.checkedAt < now
    ensures var r := Create(db, presetId, count, now, hasChanged);
      r.Ok? && GetLatestByPresetId(r.value.db, presetId) == Some(r.value.record)
  {
    var r := Create(db, presetId, count, now, hasChanged);
    assert r.value.record in r.value.db.history;
  }

  /** After `deleteByPresetId` the preset has no latest reading, and every
      other preset's history reads exactly as before. */
  lemma {:induction false} DeleteByPresetIdIsolated(db: Db, presetId: int, other: int, limit: Option<int>)
    requires Valid(db) && other != presetId
    ensures GetLatestByPresetId(DeleteByPresetId(db, presetId), presetId).None?
    ensures GetByPresetId(DeleteByPresetId(db, presetId), other, limit) == GetByPresetId(db, other, limit)
  {
    var keep := (h: HistoryRecord) => h.presetId != presetId;
    FilterFilter(db.history, keep, OfPreset(other));
  }
}

=== FILE: js.dfy ===
/** The small part of ECMAScript's string and number semantics the bot relies
    on: `String.prototype.trim`, `split(',')`, `parseInt` (section 19.2.5 of
    ECMA-262), decimal number-to-string, and a number that may be NaN. */
module Js {
  import opened Common

  /** An ECMAScript number as the model needs it: an integer, or NaN
      (what `parseInt` yields when no digit is found). */
  datatype JsNumber = Finite(value: int) | NaN

  /** ECMA-262 WhiteSpace and LineTerminator code points: the set `trim`
      removes, `\s` matches and `parseInt` skips. */
  predicate IsWhite(c: char) {
    c == '\t' || c == '\n' || c == '\U{000B}' || c == '\U{000C}' || c == '\r' || c == ' '
    || c == '\U{00A0}' || c == '\U{1680}' || ('\U{2000}' <= c <= '\U{200A}')
    || c == '\U{2028}' || c == '\U{2029}' || c == '\U{202F}' || c == '\U{205F}'
    || c == '\U{3000}' || c == '\U{FEFF}'
  }

  predicate IsDigit(c: char) {
    '0' <= c <= '9'
  }

  function DigitValue(c: char): (d: nat)
    requires IsDigit(c)
    ensures d < 10
  {
    (c - '0') as nat
  }

  function DigitChar(d: nat): (c: char)
    requires d < 10
    ensures IsDigit(c) && DigitValue(c) == d
  {
    ('0' as int + d) as char
  }

  predicate AllDigits(s: string) {
    forall i :: 0 <= i < |s| ==> IsDigit(s[i])
  }

  /** The value of a string of decimal digits, most significant first. */
  function DigitsValue(s: string): nat
    requires AllDigits(s)
  {
    if |s| == 0 then 0 else DigitsValue(s[..|s| - 1]) * 10 + DigitValue(s[|s| - 1])
  }

  // ---------------------------------------------------------------- trim

  /** `trimStart`: drops the leading white space and nothing else. */
  function TrimStart(s: string): (r: string)
    ensures |r| <= |s| && r == s[|s| - |r|..]
    ensures |r| > 0 ==> !IsWhite(r[0])
    ensures forall i :: 0 <= i < |s| - |r| ==> IsWhite(s[i])
  {
    if |s| > 0 && IsWhite(s[0]) then TrimStart(s[1..]) else s
  }

  /** `trimEnd`: drops the trailing white space and nothing else. */
  function TrimEnd(s: string): (r: string)
    ensures |r| <= |s| && r == s[..|r|]
    ensures |r| > 0 ==> !IsWhite(r[|r| - 1])
    ensures forall i :: |r| <= i < |s| ==> IsWhite(s[i])
  {
    if |s| > 0 && IsWhite(s[|s| - 1]) then TrimEnd(s[..|s| - 1]) else s
  }

  /** The number of white characters that open `s`. */
  function LeadingWhite(s: string): (k: nat)
    ensures k <= |s|
    ensures forall i :: 0 <= i < k ==> IsWhite(s[i])
    ensures k < |s| ==> !IsWhite(s[k])
  {
    if |s| > 0 && IsWhite(s[0]) then 1 + LeadingWhite(s[1..]) else 0
  }

  /** `String.prototype.trim`. */
  function Trim(s: string): (r: string)
    ensures |r| <= |s|
    ensures |r| > 0 ==> !IsWhite(r[0]) && !IsWhite(r[|r| - 1])
  {
    TrimEnd(TrimStart(s))
  }

  /** `trim` removes the leading and the trailing white space and nothing
      else: the result is the text between them. */
  lemma TrimRemovesOnlyWhite(s: string)
    ensures var r := Trim(s);
      var i := LeadingWhite(s);
      && i + |r| <= |s| && r == s[i..i + |r|]
      && forall k :: i + |r| <= k < |s| ==> IsWhite(s[k])
  {
    TrimStartSkipsLeading(s);
    var t := TrimStart(s);
    var r := TrimEnd(t);
    var i := LeadingWhite(s);
    WindowOfSuffix(s, i, t, r);
    TailOfSuffix(s, i, t, |r|, IsWhite);
  }

  /** A prefix of the suffix from `i` is the window from `i`. */
  lemma WindowOfSuffix<T>(s: seq<T>, i: nat, t: seq<T>, r: seq<T>)
    requires i <= |s| && t == s[i..] && |r| <= |t| && r == t[..|r|]
    ensures r == s[i..i + |r|]
  {
  }

  /** What holds past position `n` of the suffix from `i` holds past `i + n` of the whole. */
  lemma TailOfSuffix<T>(s: seq<T>, i: nat, t: seq<T>, n: nat, p: T -> bool)
    requires i <= |s| && t == s[i..] && n <= |t|
    requires forall k :: n <= k < |t| ==> p(t[k])
    ensures forall k :: i + n <= k < |s| ==> p(s[k])
  {
    forall k | i + n <= k < |s|
      ensures p(s[k])
    {
      assert t[k - i] == s[k];
    }
  }

  /** `trimStart` removes exactly the leading white space. */
  lemma {:induction false} TrimStartSkipsLeading(s: string)
    ensures TrimStart(s) == s[LeadingWhite(s)..]
    decreases |s|
  {
    if |s| > 0 && IsWhite(s[0]) {
      TrimStartSkipsLeading(s[1..]);
      assert s[1..][LeadingWhite(s[1..])..] == s[1 + LeadingWhite(s[1..])..];
    }
  }

  /** A string is blank (trims to nothing) exactly when every character is white. */
  lemma {:induction false} TrimEmptyIffBlank(s: string)
    ensures Trim(s) == "" <==> forall i :: 0 <= i < |s| ==> IsWhite(s[i])
  {
    var t := TrimStart(s);
    if Trim(s) == "" {
      assert |t| == 0;
    } else {
      assert |t| > 0;
      assert !IsWhite(t[0]);
      assert s[|s| - |t|] == t[0];
    }
  }

  /** Trimming is idempotent. */
  lemma TrimIdempotent(s: string)
    ensures Trim(Trim(s)) == Trim(s)
  {
    var r := Trim(s);
    if |r| > 0 {
      assert TrimStart(r) == r;
      assert TrimEnd(r) == r;
    }
  }

  // --------------------------------------------------------------- split

  /** `s.split(',')` for a one-character separator: the pieces between
      separators, always at least one (the empty string splits into `[""]`). */
  function Split(s: string, sep: char): (r: seq<string>)
    ensures |r| >= 1
    ensures forall k :: 0 <= k < |r| ==> sep !in r[k]
    decreases |s|
  {
    if |s| == 0 then [""]
    else
      var rest := Split(s[1..], sep);
      if s[0] == sep then [""] + rest
      else [[s[0]] + rest[0]] + rest[1..]
  }

  /** Joins pieces with a separator (`Array.prototype.join`). */
  function Join(parts: seq<string>, sep: char): string
    requires |parts| >= 1
  {
    if |parts| == 1 then parts[0] else parts[0] + [sep] + Join(parts[1..], sep)
  }

  /** Splitting loses nothing: joining the pieces back gives the input. */
  lemma {:induction false} SplitJoin(s: string, sep: char)
    ensures Join(Split(s, sep), sep) == s
    decreases |s|
  {
    if |s| > 0 {
      var rest := Split(s[1..], sep);
      SplitJoin(s[1..], sep);
      if s[0] == sep {
        assert Split(s, sep)[1..] == rest;
        assert s == [sep] + s[1..];
      } else {
        var r := Split(s, sep);
        if |rest| == 1 {
          assert r == [[s[0]] + rest[0]];
        } else {
          assert r[1..] == rest[1..];
          assert Join(r, sep) == [s[0]] + rest[0] + [sep] + Join(rest[1..], sep);
        }
      }
    }
  }

  /** Splitting a joined list gives the list back when no piece holds the separator. */
  lemma {:induction false} JoinSplit(parts: seq<string>, sep: char)
    requires |parts| >= 1
    requires forall k :: 0 <= k < |parts| ==> sep !in parts[k]
    ensures Split(Join(parts, sep), sep) == parts
    decreases |parts|
  {
    if |parts| == 1 {
      SplitNoSeparator(parts[0], sep);
    } else {
      JoinSplit(parts[1..], sep);
      SplitAfterPiece(parts[0], Join(parts[1..], sep), sep);
      assert parts == [parts[0]] + parts[1..];
    }
  }

  /** A string without the separator is a single piece. */
  lemma {:induction false} SplitNoSeparator(a: string, sep: char)
    requires sep !in a
    ensures Split(a, sep) == [a]
    decreases |a|
  {
    if |a| > 0 {
      assert sep !in a[1..] by {
        forall i | 0 <= i < |a[1..]| ensures a[1..][i] != sep {
          assert a[1..][i] == a[i + 1];
        }
      }
      SplitNoSeparator(a[1..], sep);
      assert [a[0]] + a[1..] == a;
    }
  }

  /** A separator-free first piece is split off whole. */
  lemma {:induction false} SplitAfterPiece(a: string, t: string, sep: char)
    requires sep !in a
    ensures Split(a + [sep] + t, sep) == [a] + Split(t, sep)
    decreases |a|
  {
    var s := a + [sep] + t;
    if |a| == 0 {
      assert s[0] == sep && s[1..] == t;
    } else {
      assert sep !in a[1..] by {
        forall i | 0 <= i < |a[1..]| ensures a[1..][i] != sep {
          assert a[1..][i] == a[i + 1];
        }
      }
      SplitAfterPiece(a[1..], t, sep);
      assert s[0] == a[0] && s[1..] == a[1..] + [sep] + t;
      assert [a[0]] + a[1..] == a;
    }
  }

  // ------------------------------------------------------------ parseInt

  /** Length of the longest prefix of decimal digits. */
  function DigitPrefixLen(s: string): (k: nat)
    ensures k <= |s|
    ensures AllDigits(s[..k])
    ensures k < |s| ==> !IsDigit(s[k])
  {
    if |s| > 0 && IsDigit(s[0]) then
      var k := 1 + DigitPrefixLen(s[1..]);
      assert forall i :: 1 <= i < k ==> s[..k][i] == s[1..][..k - 1][i - 1];
      k
    else 0
  }

  /** `parseInt(s, 10)`: skip leading white space, read an optional sign,
      then the longest run of decimal digits; NaN when that run is empty. */
  function ParseInt10(s: string): JsNumber {
    var t := TrimStart(s);
    var neg := |t| > 0 && t[0] == '-';
    var body := if |t| > 0 && (t[0] == '-' || t[0] == '+') then t[1..] else t;
    var k := DigitPrefixLen(body);
    if k == 0 then NaN
    else
      var v := DigitsValue(body[..k]);
      Finite(if neg then -(v as int) else v as int)
  }

  /** Value of a character as a digit in radices up to 36, or -1. */
  function RadixDigit(c: char): int {
    if '0' <= c <= '9' then (c - '0') as int
    else if 'a' <= c <= 'z' then (c - 'a') as int + 10
    else if 'A' <= c <= 'Z' then (c - 'A') as int + 10
    else -1
  }

  predicate IsRadixDigit(c: char, radix: nat) {
    0 <= RadixDigit(c) < radix
  }

  function RadixPrefixLen(s: string, radix: nat): (k: nat)
    ensures k <= |s|
    ensures forall i :: 0 <= i < k ==> IsRadixDigit(s[i], radix)
  {
    if |s| > 0 && IsRadixDigit(s[0], radix) then
      var k := 1 + RadixPrefixLen(s[1..], radix);
      assert forall i :: 1 <= i < k ==> s[i] == s[1..][i - 1];
      k
    else 0
  }

  function RadixValue(s: string, radix: nat): nat
    requires forall i :: 0 <= i < |s| ==> IsRadixDigit(s[i], radix)
  {
    if |s| == 0 then 0
    else
      var init := s[..|s| - 1];
      assert forall i :: 0 <= i < |init| ==> init[i] == s[i];
      assert IsRadixDigit(s[|s| - 1], radix);
      Shift(RadixValue(init, radix), radix) + RadixDigit(s[|s| - 1]) as nat
  }

  /** One place-value step: the digits read so far times the radix. */
  function Shift(v: nat, radix: nat): nat {
    v * radix
  }

  /** `parseInt(s)` with no radix: as `ParseInt10`, except that a `0x`/`0X`
      prefix after the sign switches to hexadecimal. */
  function ParseIntNoRadix(s: string): JsNumber {
    var t := TrimStart(s);
    var neg := |t| > 0 && t[0] == '-';
    var body := if |t| > 0 && (t[0] == '-' || t[0] == '+') then t[1..] else t;
    var hex := |body| >= 2 && body[0] == '0' && (body[1] == 'x' || body[1] == 'X');
    var radix: nat := if hex then 16 else 10;
    var digits := if hex then body[2..] else body;
    match RadixRead(digits, radix)
    case None => NaN
    case Some(v) => Finite(if neg then -(v as int) else v as int)
  }

  /** The value of the longest run of radix digits that starts `digits`,
      None when that run is empty. */
  function RadixRead(digits: string, radix: nat): Option<nat> {
    var k := RadixPrefixLen(digits, radix);
    if k == 0 then None
    else
      var p := digits[..k];
      assert forall i :: 0 <= i < |p| ==> IsRadixDigit(p[i], radix) by {
        forall i | 0 <= i < |p| ensures IsRadixDigit(p[i], radix) {
          assert p[i] == digits[i];
        }
      }
      Some(RadixValue(p, radix))
  }

  // ------------------------------------------------------- number to text

  /** Decimal rendering of a natural number, without leading zeros. */
  function NatToString(n: nat): (s: string)
    ensures |s| >= 1 && AllDigits(s)
    ensures DigitsValue(s) == n
    ensures |s| > 1 ==> s[0] != '0'
    decreases n
  {
    if n < 10 then [DigitChar(n)]
    else
      var p := NatToString(n / 10);
      var s := p + [DigitChar(n % 10)];
      assert s[..|s| - 1] == p;
      assert |p| == 1 ==> p[0] == DigitChar(n / 10) && n / 10 >= 1;
      s
  }

  /** Template-literal rendering of an integer: `-` then the magnitude for negatives. */
  function IntToString(n: int): (s: string)
    ensures |s| >= 1
  {
    if n < 0 then "-" + NatToString(-n) else NatToString(n)
  }

  /** Template-literal rendering of a number; NaN prints as `NaN`. */
  function NumberToString(n: JsNumber): (s: string)
    ensures |s| >= 1
  {
    match n
    case Finite(v) => IntToString(v)
    case NaN => "NaN"
  }

  /** An integer's text has no white space at either end and no comma. */
  lemma IntToStringTrimmed(n: int)
    ensures Trim(IntToString(n)) == IntToString(n)
    ensures ',' !in IntToString(n)
  {
    var s := IntToString(n);
    var d := NatToString(if n < 0 then -n else n);
    assert forall i :: 0 <= i < |s| ==> s[i] == '-' || IsDigit(s[i]) by {
      if n < 0 {
        assert s == "-" + d;
        assert forall i :: 1 <= i < |s| ==> s[i] == d[i - 1];
      }
    }
    NothingToTrim(s);
  }

  /** A string of signs and digits is left alone by `trim`. */
  lemma NothingToTrim(s: string)
    requires |s| > 0 && forall i :: 0 <= i < |s| ==> s[i] == '-' || IsDigit(s[i])
    ensures Trim(s) == s
  {
    assert !IsWhite(s[0]);
    assert !IsWhite(s[|s| - 1]);
  }

  lemma {:induction false} DigitPrefixOfDigits(s: string)
    requires AllDigits(s)
    ensures DigitPrefixLen(s) == |s|
    decreases |s|
  {
    if |s| > 0 {
      DigitPrefixOfDigits(s[1..]);
    }
  }

  /** A non-empty string of decimal digits is read whole by `parseInt(…, 10)`. */
  lemma ParseInt10Digits(s: string)
    requires |s| > 0 && AllDigits(s)
    ensures ParseInt10(s) == Finite(DigitsValue(s))
  {
    assert IsDigit(s[0]);
    assert !IsWhite(s[0]);
    assert TrimStart(s) == s;
    assert !(s[0] == '-' || s[0] == '+');
    DigitPrefixOfDigits(s);
    assert s[..|s|] == s;
  }

  /** `parseInt(String(n), 10) === n`: printing then parsing an integer round-trips. */
  lemma IntToStringParses(n: int)
    ensures ParseInt10(IntToString(n)) == Finite(n)
  {
    var s := IntToString(n);
    assert !IsWhite(s[0]);
    assert TrimStart(s) == s;
    if n < 0 {
      var d := NatToString(-n);
      assert s[1..] == d;
      DigitPrefixOfDigits(d);
      assert d[..|d|] == d;
    } else {
      ParseInt10Digits(s);
    }
  }
  /** `parseInt(String(n))` with no radix also reads an integer back: its
      decimal text has no `0x` prefix. */
  lemma IntToStringParsesNoRadix(n: int)
    ensures ParseIntNoRadix(IntToString(n)) == Finite(n)
  {
    var s := IntToString(n);
    var d := if n < 0 then NatToString(-n) else NatToString(n);
    assert !IsWhite(s[0]);
    assert TrimStart(s) == s;
    if n < 0 {
      assert s[1..] == d;
    }
    DecimalReads(d);
  }

  /** A non-empty run of decimal digits has no `0x` prefix and is read
      whole by the radix-10 reader. */
  lemma DecimalReads(d: string)
    requires |d| >= 1 && AllDigits(d)
    ensures !(|d| >= 2 && d[0] == '0' && (d[1] == 'x' || d[1] == 'X'))
    ensures RadixRead(d, 10) == Some(DigitsValue(d))
  {
    if |d| >= 2 {
      assert IsDigit(d[1]);
    }
    DecimalIsRadix10(d);
    assert d[..|d|] == d;
  }

  /** A run of decimal digits is read the same by the radix-10 reader. */
  lemma {:induction false} DecimalIsRadix10(d: string)
    requires AllDigits(d)
    ensures RadixPrefixLen(d, 10) == |d|
    ensures RadixValue(d, 10) == DigitsValue(d)
    decreases |d|
  {
    if |d| > 0 {
      DecimalIsRadix10(d[1..]);
      DecimalIsRadix10(d[..|d| - 1]);
    }
  }

  // ------------------------------------------------------------ length

  /** A code point outside the Basic Multilingual Plane, which UTF-16
      writes as a surrogate pair. */
  predicate Astral(c: char) {
    c as int >= 0x1_0000
  }

  /** `s.length`: ECMAScript strings count UTF-16 code units, so a code point
      outside the Basic Multilingual Plane (most emoji) counts twice. */
  function Utf16Length(s: string): (n: nat)
    ensures |s| <= n <= 2 * |s|
    ensures n == 0 <==> |s| == 0
    ensures n == |s| + CountWhere(s, Astral)
  {
    if |s| == 0 then 0 else Utf16Length(s[..|s| - 1]) + (if s[|s| - 1] as int >= 0x1_0000 then 2 else 1)
  }
  // ------------------------------------------------------------- slice

  /** A relative index of `Array.prototype.slice`: negative counts from
      the end; the result is clamped to `0..n`. */
  function SliceIndex(n: nat, x: int): (k: nat)
    ensures k <= n
    ensures x < 0 ==> k == (if n + x < 0 then 0 else n + x)
    ensures x >= 0 ==> k == (if x > n then n else x)
  {
    if x < 0 then (if n + x < 0 then 0 else n + x) else if x > n then n else x
  }

  /** `s.slice(start, end)`: the elements from the clamped start up to the
      clamped end, none when the end is not past the start. */
  function Slice<T>(s: seq<T>, start: int, end: int): (r: seq<T>)
    ensures var a := SliceIndex(|s|, start);
      var b := SliceIndex(|s|, end);
      && |r| == (if a < b then b - a else 0)
      && forall k :: 0 <= k < |r| ==> r[k] == s[a + k]
  {
    var a := SliceIndex(|s|, start);
    var b := SliceIndex(|s|, end);
    if a < b then s[a..b] else []
  }

  /** `s.slice(start)`. */
  function SliceFrom<T>(s: seq<T>, start: int): (r: seq<T>)
    ensures r == s[SliceIndex(|s|, start)..]
    ensures r == Slice(s, start, |s|)
  {
    s[SliceIndex(|s|, start)..]
  }

  /** With bounds inside the sequence, `slice` is the subsequence between
      them; a negative start counts from the end. */
  lemma SliceWithin<T>(s: seq<T>, start: int, end: int)
    ensures 0 <= start <= end <= |s| ==> Slice(s, start, end) == s[start..end]
    ensures -|s| <= start < 0 ==> Slice(s, start, |s|) == s[|s| + start..]
  {
    if 0 <= start <= end <= |s| {
      assert Slice(s, start, end) == s[start..end];
    }
    if -|s| <= start < 0 {
      assert Slice(s, start, |s|) == s[|s| + start..];
    }
  }
}

=== FILE: keyboards.dfy ===
/** The bot's keyboards: the fixed reply keyboards and the inline keyboards
    built per preset and per page of the presets list. A button carries a
    label and a callback; callback payloads are kept as structured values
    rather than as their JSON text. */
module Keyboards {
  import opened Common
  import opened Js
  import Database

  const AddPresetText := "🎁 Добавить пресет"
  const MyPresetsText := "📋 Мои пресеты"
  const CheckNowText := "🔍 Проверить сейчас"
  const StatsText := "📊 Статистика"
  const SettingsText := "⚙️ Настройки"
  const HelpText := "ℹ️ Помощь"
  const SkipText := "⏭️ Пропустить"
  const CancelText := "❌ Отмена"

  /** `mainMenu`: three rows of two texts. */
  const MainMenu: seq<seq<string>> := [
    [AddPresetText, MyPresetsText],
    [CheckNowText, StatsText],
    [SettingsText, HelpText]]

  /** `skipKeyboard`. */
  const SkipKeyboard: seq<seq<string>> := [[SkipText], [CancelText]]

  /** `CallbackQueryData`: an action with an optional preset id and page. */
  datatype CallbackData = CallbackData(action: string, presetId: Option<int>, page: Option<int>)

  /** A button's callback: a JSON-encoded payload, or a bare string. */
  datatype Callback = Json(data: CallbackData) | Bare(text: string)

  datatype Button = Button(caption: string, callback: Callback)

  type Keyboard = seq<seq<Button>>

  function ForPreset(action: string, presetId: int): Callback {
    Json(CallbackData(action, Some(presetId), None))
  }

  // ---------------------------------------------------------- preset actions

  const PauseLabel := "⏸️ Остановить мониторинг"
  const ResumeLabel := "▶️ Запустить мониторинг"

  /** `presetActions`: toggle; check and edit; delete. */
  function PresetActions(presetId: int, isActive: bool): (k: Keyboard)
    ensures |k| == 3 && |k[0]| == 1 && |k[1]| == 2 && |k[2]| == 1
    ensures k[0][0].caption == (if isActive then PauseLabel else ResumeLabel)
    ensures forall i, j :: 0 <= i < |k| && 0 <= j < |k[i]| ==>
      k[i][j].callback.Json? && k[i][j].callback.data.presetId == Some(presetId)
    ensures [k[0][0].callback.data.action, k[1][0].callback.data.action,
             k[1][1].callback.data.action, k[2][0].callback.data.action]
         == ["toggle_preset", "check_preset", "edit_preset", "delete_preset"]
  {
    [ [Button(if isActive then PauseLabel else ResumeLabel, ForPreset("toggle_preset", presetId))],
      [Button(CheckNowText, ForPreset("check_preset", presetId)), Button("✏️ Редактировать", ForPreset("edit_preset", presetId))],
      [Button("🗑 Удалить", ForPreset("delete_preset", presetId))] ]
  }

  // ------------------------------------------------------------ pagination

  /** `Math.ceil(n / size)` for a positive page size. */
  function PageCount(n: nat, size: int): (pages: nat)
    requires size >= 1
    ensures pages == 0 <==> n == 0
    ensures n <= pages * size
  {
    var x := n + size - 1;
    assert x == (x / size) * size + x % size && x % size < size;
    x / size
  }

  /** The page count is the least number of pages that holds every item. */
  lemma PageCountIsCeiling(n: nat, size: int)
    requires size >= 1
    ensures var pages := PageCount(n, size);
      (pages - 1) * size < n <= pages * size || (n == 0 && pages == 0)
  {
    var pages := PageCount(n, size);
    var x := n + size - 1;
    assert x == pages * size + x % size && 0 <= x % size < size;
    assert (pages - 1) * size == pages * size - size;
  }

  /** The button that opens one preset from the list. */
  function ViewButton(p: Database.Preset): Button {
    Button((if p.isActive then "🟢" else "🔴") + " " + p.giftName, ForPreset("view_preset", p.id))
  }

  /** The presets shown on one page: `slice(page * size, page * size + size)`. */
  function PageSlice<T>(presets: seq<T>, page: int, size: int): (r: seq<T>)
    requires size >= 1
    ensures |r| <= size
    ensures 0 <= page && page * size < |presets| ==>
      r == presets[page * size..if page * size + size < |presets| then page * size + size else |presets|]
    ensures 0 <= page && page * size >= |presets| ==> r == []
  {
    Slice(presets, page * size, page * size + size)
  }

  /** A page holds the elements from index `page * size` on, as many as fit
      in `size`. */
  lemma PageSliceAt<T>(s: seq<T>, page: int, size: int)
    requires size >= 1 && page >= 0
    ensures page * size >= 0
    ensures var shown := PageSlice(s, page, size);
      && (forall i :: 0 <= i < |shown| ==> page * size + i < |s| && shown[i] == s[page * size + i])
      && |shown| == (if page * size >= |s| then 0
                     else if page * size + size < |s| then size else |s| - page * size)
  {
    var start := page * size;
    if page > 0 {
      MulGap(0, page, size);
    }
    var shown := PageSlice(s, page, size);
    if start < |s| {
      assert shown == s[start..if start + size < |s| then start + size else |s|];
    } else {
      assert shown == [];
    }
  }

  /** The navigation row: previous (when not on the first page), the page
      label, next (when not on the last page). */
  function Navigation(page: int, pages: nat): (row: seq<Button>)
    requires pages > 1
    ensures PageLabel(page, pages) in row
    ensures PrevButton(page) in row <==> page > 0
    ensures NextButton(page) in row <==> page < pages - 1
    ensures |row| == 1 + (if page > 0 then 1 else 0) + (if page < pages - 1 then 1 else 0)
    ensures page > 0 ==> row[0] == PrevButton(page)
    ensures page < pages - 1 ==> row[|row| - 1] == NextButton(page)
  {
    var prev := if page > 0 then [PrevButton(page)] else [];
    var next := if page < pages - 1 then [NextButton(page)] else [];
    var row := prev + [PageLabel(page, pages)] + next;
    assert row[|prev|] == PageLabel(page, pages);
    assert PrevButton(page) !in [PageLabel(page, pages)] + next;
    assert NextButton(page) !in prev + [PageLabel(page, pages)];
    row
  }

  /** The middle button: "{page+1}/{pages}", whose callback does nothing. */
  function PageLabel(page: int, pages: nat): Button {
    Button(IntToString(page + 1) + "/" + IntToString(pages), Bare("noop"))
  }

  function PrevButton(page: int): Button {
    Button("⬅️", Json(CallbackData("prev_page", None, Some(page - 1))))
  }

  function NextButton(page: int): Button {
    Button("➡️", Json(CallbackData("next_page", None, Some(page + 1))))
  }

  const BackToMenu := Button("⬅️ Назад в меню", Json(CallbackData("back_to_menu", None, None)))

  /** The page size `presetsListKeyboard` uses when given none. */
  const DefaultPageSize := 5

  /** `presetsListKeyboard`: one row per preset of the page, the navigation
      row when there is more than one page, and always a last row leading
      back to the menu. */
  function PresetsListKeyboard(presets: seq<Database.Preset>, page: int := 0, size: int := DefaultPageSize): (k: Keyboard)
    requires size >= 1
    ensures var shown := PageSlice(presets, page, size);
      var pages := PageCount(|presets|, size);
      && |k| == |shown| + (if pages > 1 then 1 else 0) + 1
      && (forall i :: 0 <= i < |shown| ==> k[i] == [ViewButton(shown[i])])
      && (pages > 1 ==> k[|shown|] == Navigation(page, pages))
      && k[|k| - 1] == [BackToMenu]
  {
    var shown := PageSlice(presets, page, size);
    var pages := PageCount(|presets|, size);
    var rows := seq(|shown|, i requires 0 <= i < |shown| => [ViewButton(shown[i])]);
    var nav := if pages > 1 then [Navigation(page, pages)] else [];
    rows + nav + [[BackToMenu]]
  }

  /** Paging covers the list: the preset at index `i` is shown on page
      `i / size`, in row `i % size`, and that page is one of the counted
      pages. */
  lemma EveryPresetHasAPage(presets: seq<Database.Preset>, size: int, i: int)
    requires size >= 1 && 0 <= i < |presets|
    ensures i / size < PageCount(|presets|, size)
    ensures var shown := PageSlice(presets, i / size, size);
      i % size < |shown| && shown[i % size] == presets[i]
      && PresetsListKeyboard(presets, i / size, size)[i % size] == [ViewButton(presets[i])]
  {
    PageOfIndex(|presets|, size, i);
    RowOnPage(presets, size, i / size, i % size);
  }

  /** Index `i` lies on page `i / size`, one of the counted pages, in row `i % size`. */
  lemma PageOfIndex(n: nat, size: int, i: int)
    requires size >= 1 && 0 <= i < n
    ensures 0 <= i / size < PageCount(n, size)
    ensures 0 <= i % size < size && i == (i / size) * size + i % size
  {
    var page := i / size;
    assert (page + 1) * size == page * size + size;
    DivAtLeast(n + size - 1, page + 1, size);
  }

  /** Row `row` of page `page` shows the preset at `page * size + row`. */
  lemma RowOnPage(presets: seq<Database.Preset>, size: int, page: int, row: int)
    requires size >= 1 && 0 <= page && 0 <= row < size && page * size + row < |presets|
    ensures var shown := PageSlice(presets, page, size);
      row < |shown| && shown[row] == presets[page * size + row]
      && PresetsListKeyboard(presets, page, size)[row] == [ViewButton(presets[page * size + row])]
  {
    var start := page * size;
    SliceRow(presets, start, size, row);
    var shown := PageSlice(presets, page, size);
    assert shown == Slice(presets, start, start + size);
    assert PresetsListKeyboard(presets, page, size)[row] == [ViewButton(shown[row])];
  }

  /** Row `row` of the window `[start, start + size)` is element `start + row`. */
  lemma SliceRow<T>(s: seq<T>, start: int, size: int, row: int)
    requires 0 <= start && 0 <= row < size && start + row < |s|
    ensures var w := Slice(s, start, start + size); row < |w| && w[row] == s[start + row]
  {
  }

  /** `x / size` is at least `m` when `x` is at least `m * size`. */
  lemma DivAtLeast(x: int, m: int, size: int)
    requires size >= 1 && m >= 0 && x >= m * size
    ensures x / size >= m
  {
    var q := x / size;
    assert x < q * size + size;
    if q < m {
      MulGap(q, m, size);
      assert false;
    }
  }

  /** Between two different multiples of `c` there is a gap of at least `c`. */
  lemma {:induction false} MulGap(a: int, b: int, c: int)
    requires a < b && c >= 1
    ensures a * c + c <= b * c
    decreases b - a
  {
    if a + 1 < b {
      MulGap(a + 1, b, c);
      assert (a + 1) * c == a * c + c;
    } else {
      assert b * c == a * c + c;
    }
  }

  // ------------------------------------------------------------ JSON text

  /** The text `JSON.stringify` gives a payload: the action, then the preset
      id and the page when present, in that order, without white space. */
  function JsonText(d: CallbackData): string {
    ActionKey + d.action + "\"" + IdField(d.presetId) + PageField(d.page) + "}"
  }

  const ActionKey := "{\"action\":\""
  const PresetKey := ",\"presetId\":"
  const PageKey := ",\"page\":"

  function IdField(id: Option<int>): string {
    if id.Some? then PresetKey + IntToString(id.value) else ""
  }

  function PageField(page: Option<int>): string {
    if page.Some? then PageKey + IntToString(page.value) else ""
  }

  /** The `callback_data` string a button carries. */
  function CallbackText(cb: Callback): string {
    match cb
    case Json(d) => JsonText(d)
    case Bare(text) => text
  }

  /** An action `JSON.stringify` writes without escapes. */
  predicate PlainAction(action: string) {
    forall i :: 0 <= i < |action| ==> action[i] != '"' && action[i] != '\\' && action[i] >= ' '
  }

  /** Characters of a JSON integer. */
  predicate NumberChar(c: char) {
    c == '-' || IsDigit(c)
  }

  /** The length of the run of number characters at the front. */
  function NumberLen(s: string): (k: nat)
    ensures k <= |s|
    ensures forall i :: 0 <= i < k ==> NumberChar(s[i])
    ensures k < |s| ==> !NumberChar(s[k])
  {
    if |s| == 0 || !NumberChar(s[0]) then 0 else 1 + NumberLen(s[1..])
  }

  /** A JSON integer: an optional minus sign, then `0` or digits without a
      leading zero. */
  function JsonInt(s: string): (r: Option<int>)
    ensures r.Some? && |s| > 0 && s[0] != '-' ==> AllDigits(s) && r.value == DigitsValue(s)
    ensures r.Some? ==> |s| > 0
  {
    if |s| > 0 && s[0] == '-' then
      var v := JsonNat(s[1..]);
      if v.Some? then Some(0 - v.value as int) else None
    else
      var v := JsonNat(s);
      if v.Some? then Some(v.value as int) else None
  }

  function JsonNat(s: string): (r: Option<nat>)
    ensures r.Some? <==> |s| > 0 && AllDigits(s) && (|s| == 1 || s[0] != '0')
    ensures r.Some? ==> r.value == DigitsValue(s)
  {
    if |s| > 0 && AllDigits(s) && (|s| == 1 || s[0] != '0') then Some(DigitsValue(s)) else None
  }

  /** `key` followed by an integer: the integer and what follows it. */
  function ReadField(f: string, key: string): Option<(int, string)> {
    if |f| < |key| || f[..|key|] != key then None
    else
      var body := f[|key|..];
      var k := NumberLen(body);
      var n := JsonInt(body[..k]);
      if n.None? then None else Some((n.value, body[k..]))
  }

  /** The index of the first `"`, or the length when there is none. */
  function QuoteIndex(s: string): (q: nat)
    ensures q <= |s|
    ensures forall i :: 0 <= i < q ==> s[i] != '"'
    ensures q < |s| ==> s[q] == '"'
  {
    if |s| == 0 || s[0] == '"' then 0 else 1 + QuoteIndex(s[1..])
  }

  /** `JSON.parse` on the payloads the keyboards write: an object with a
      string `action` followed by an optional integer `presetId` and an
      optional integer `page`; None for any other text. */
  function ParsePayload(t: string): Option<CallbackData> {
    if |t| < |ActionKey| || t[..|ActionKey|] != ActionKey then None
    else
      var rest := t[|ActionKey|..];
      var q := QuoteIndex(rest);
      if q == |rest| then None
      else
        Fields(rest[..q], rest[q + 1..])
  }

  /** The fields after the action, `f` being the text after its closing quote. */
  function Fields(action: string, f: string): Option<CallbackData> {
    var id := ReadField(f, PresetKey);
    var f1 := if id.Some? then id.value.1 else f;
    var pg := ReadField(f1, PageKey);
    var f2 := if pg.Some? then pg.value.1 else f1;
    if f2 == "}" && PlainAction(action) then
      Some(CallbackData(action, if id.Some? then Some(id.value.0) else None,
                                if pg.Some? then Some(pg.value.0) else None))
    else None
  }

  // ----------------------------------------------------------- parse back

  /** `parseCallbackData`: the payload when the text parses as JSON, else
      the text itself taken as the action. */
  function ParseCallbackData(data: string): (r: CallbackData)
    ensures ParsePayload(data).None? ==> r == CallbackData(data, None, None)
    ensures ParsePayload(data).Some? ==> r == ParsePayload(data).value
  {
    var json := ParsePayload(data);
    if json.Some? then json.value else CallbackData(data, None, None)
  }

  /** Every payload the keyboards write reads back as itself. */
  lemma JsonTextParses(d: CallbackData)
    requires PlainAction(d.action)
    ensures ParseCallbackData(JsonText(d)) == d
  {
    var tail := IdField(d.presetId) + PageField(d.page) + "}";
    assert JsonText(d) == ActionKey + d.action + "\"" + tail;
    HeaderReads(d.action, tail);
    FieldsRead(d);
  }

  /** The action runs up to the first quote after the key. */
  lemma HeaderReads(action: string, tail: string)
    requires PlainAction(action)
    ensures ParsePayload(ActionKey + action + "\"" + tail) == Fields(action, tail)
  {
    var rest := action + "\"" + tail;
    var t := ActionKey + action + "\"" + tail;
    assert t == ActionKey + rest;
    assert t[..|ActionKey|] == ActionKey && t[|ActionKey|..] == rest;
    QuoteIndexAfter(action, tail);
    assert rest[..|action|] == action && rest[|action| + 1..] == tail;
  }

  /** The written fields read back as the payload's id and page. */
  lemma FieldsRead(d: CallbackData)
    requires PlainAction(d.action)
    ensures Fields(d.action, IdField(d.presetId) + PageField(d.page) + "}") == Some(d)
  {
    var f1 := PageField(d.page) + "}";
    assert IdField(d.presetId) + PageField(d.page) + "}" == IdField(d.presetId) + f1;
    IdFieldRead(d.presetId, d.page);
    PageFieldRead(d.page);
    FieldsWhen(d.action, IdField(d.presetId) + f1, d.presetId, d.page, f1);
  }

  /** `Fields` in terms of what the two field reads return. */
  lemma FieldsWhen(action: string, f: string, presetId: Option<int>, page: Option<int>, f1: string)
    requires PlainAction(action)
    requires ReadField(f, PresetKey) == if presetId.Some? then Some((presetId.value, f1)) else None
    requires presetId.None? ==> f == f1
    requires ReadField(f1, PageKey) == if page.Some? then Some((page.value, "}")) else None
    requires page.None? ==> f1 == "}"
    ensures Fields(action, f) == Some(CallbackData(action, presetId, page))
  {
  }

  /** The id field, when written, reads back and leaves the page field. */
  lemma IdFieldRead(presetId: Option<int>, page: Option<int>)
    ensures var f1 := PageField(page) + "}";
      ReadField(IdField(presetId) + f1, PresetKey)
        == if presetId.Some? then Some((presetId.value, f1)) else None
  {
    var f1 := PageField(page) + "}";
    if presetId.Some? {
      assert IdField(presetId) + f1 == PresetKey + IntToString(presetId.value) + f1;
      ReadFieldOf(PresetKey, presetId.value, f1);
    } else {
      assert IdField(presetId) + f1 == f1;
      NoPresetKey(page);
    }
  }

  /** The page field, when written, reads back and leaves the closing brace. */
  lemma PageFieldRead(page: Option<int>)
    ensures ReadField(PageField(page) + "}", PageKey)
      == if page.Some? then Some((page.value, "}")) else None
  {
    if page.Some? {
      assert PageField(page) + "}" == PageKey + IntToString(page.value) + "}";
      ReadFieldOf(PageKey, page.value, "}");
    } else {
      assert ReadField("}", PageKey).None?;
    }
  }

  /** The bare `noop` text is not JSON: it is read as the action itself. */
  lemma NoopIsBare()
    ensures ParseCallbackData("noop") == CallbackData("noop", None, None)
  {
    assert ParsePayload("noop").None?;
  }

  /** Each of the four preset actions reads back from its button's text. */
  lemma PresetActionsParse(presetId: int)
    ensures forall action :: action in ["toggle_preset", "check_preset", "edit_preset", "delete_preset"] ==>
      ParseCallbackData(CallbackText(ForPreset(action, presetId))) == CallbackData(action, Some(presetId), None)
  {
    forall action | action in ["toggle_preset", "check_preset", "edit_preset", "delete_preset"]
      ensures ParseCallbackData(CallbackText(ForPreset(action, presetId))) == CallbackData(action, Some(presetId), None)
    {
      assert PlainAction(action);
      JsonTextParses(CallbackData(action, Some(presetId), None));
    }
  }

  lemma {:induction false} QuoteIndexAfter(a: string, tail: string)
    requires PlainAction(a)
    ensures QuoteIndex(a + "\"" + tail) == |a|
    decreases |a|
  {
    if |a| > 0 {
      assert (a + "\"" + tail)[1..] == a[1..] + "\"" + tail;
      QuoteIndexAfter(a[1..], tail);
    }
  }

  /** A page field (or the closing brace) does not start with the preset key. */
  lemma NoPresetKey(page: Option<int>)
    ensures ReadField(PageField(page) + "}", PresetKey).None?
  {
    var f := PageField(page) + "}";
    if page.Some? {
      assert f[3] == PageKey[3] == 'a' && PresetKey[3] == 'r';
    }
  }

  /** A key followed by a written integer reads back as that integer. */
  lemma ReadFieldOf(key: string, n: int, tail: string)
    requires |tail| > 0 && !NumberChar(tail[0])
    ensures ReadField(key + IntToString(n) + tail, key) == Some((n, tail))
  {
    var x := IntToString(n);
    var f := key + x + tail;
    assert f[..|key|] == key && f[|key|..] == x + tail;
    NumberLenOf(x, tail);
    assert (x + tail)[..|x|] == x && (x + tail)[|x|..] == tail;
    IntToStringReads(n);
  }

  lemma IntToStringReads(n: int)
    ensures forall i :: 0 <= i < |IntToString(n)| ==> NumberChar(IntToString(n)[i])
    ensures JsonInt(IntToString(n)) == Some(n)
  {
    var x := IntToString(n);
    if n < 0 {
      assert x[1..] == NatToString(-n);
    }
  }

  lemma {:induction false} NumberLenOf(x: string, tail: string)
    requires forall i :: 0 <= i < |x| ==> NumberChar(x[i])
    requires |tail| > 0 && !NumberChar(tail[0])
    ensures NumberLen(x + tail) == |x|
    decreases |x|
  {
    if |x| > 0 {
      assert (x + tail)[1..] == x[1..] + tail;
      NumberLenOf(x[1..], tail);
    }
  }
}

=== FILE: monitoring.dfy ===
/** `MonitoringService`: the scheduler state (started/stopped), one
    monitoring cycle as an atomic step with its accounting, change
    notifications with their per-item failure isolation, the registry of
    live statistics messages, and the two text builders of a notification.
    The cron timer, the Telegram client and the clock are outside the model:
    what they answer is passed in as an `Env`. */
module Monitoring {
  import opened Common
  import opened Js
  import opened Database
  import opened PeekParser
  import opened ParserService
  import PresetModel
  import FormUrlEncoded

  const NotInitializedMessage: string := "MonitoringService не инициализирован"

  /** `MonitoringStats`; `lastCheck` is the time of the last cycle. */
  datatype MonitorStats = MonitorStats(
    totalChecks: nat,
    successfulChecks: nat,
    failedChecks: nat,
    totalChanges: nat,
    lastCheck: Option<int>,
    isRunning: bool)

  const InitialStats: MonitorStats := MonitorStats(0, 0, 0, 0, None, false)

  /** The service: whether it is initialized, whether a cron job exists, the
      `enabled` switch of its configuration, its statistics, the
      userId-to-messageId registry of statistics messages, and the parser
      service it drives. */
  datatype Monitor = Monitor(
    initialized: bool,
    hasJob: bool,
    enabled: bool,
    stats: MonitorStats,
    statsMessages: map<int, int>,
    parser: Service)

  /** Every finished cycle is either successful or failed, and `isRunning`
      mirrors the existence of the job. */
  predicate Tallied(m: Monitor) {
    m.stats.totalChecks == m.stats.successfulChecks + m.stats.failedChecks
    && m.stats.isRunning == m.hasJob
  }

  function Fresh(enabled: bool, parser: Service): (m: Monitor)
    ensures Tallied(m) && !m.initialized && m.statsMessages == map[]
  {
    Monitor(false, false, enabled, InitialStats, map[], parser)
  }

  // -------------------------------------------------------------- lifecycle

  /** `initialize`: a no-op once initialized; otherwise it initializes the
      parser service and fails with its error. */
  function Initialize(m: Monitor, launch: Option<string>): (r: Result<Monitor, Failure>)
    ensures m.initialized ==> r == Ok(m)
    ensures !m.initialized ==> (r.Ok? <==> (m.parser.initialized || launch.None?))
    ensures r.Ok? ==> r.value.initialized && r.value.stats == m.stats && r.value.statsMessages == m.statsMessages
    ensures !m.initialized && r.Ok? ==> r.value.parser.initialized
  {
    if m.initialized then Ok(m)
    else match ParserService.Initialize(m.parser, launch)
      case Ok(p) => Ok(m.(initialized := true, parser := p))
      case Err(e) => Err(e)
  }

  /** `start`: refuses before `initialize`; does nothing when disabled or
      already scheduled; otherwise schedules the job (`schedule` is None when
      the cron library accepts the expression, else its error). */
  function Start(m: Monitor, schedule: Option<string>): (r: Result<Monitor, string>)
    ensures !m.initialized ==> r == Err(NotInitializedMessage)
    ensures m.initialized && (!m.enabled || m.hasJob) ==> r == Ok(m)
    ensures m.initialized && m.enabled && !m.hasJob ==>
      (r.Ok? <==> schedule.None?)
      && (r.Ok? ==> r.value == m.(hasJob := true, stats := m.stats.(isRunning := true)))
    ensures r.Err? && m.initialized ==> r.error == schedule.value
    ensures Tallied(m) && r.Ok? ==> Tallied(r.value)
  {
    if !m.initialized then Err(NotInitializedMessage)
    else if !m.enabled || m.hasJob then Ok(m)
    else match schedule
      case None => Ok(m.(hasJob := true, stats := m.stats.(isRunning := true)))
      case Some(e) => Err(e)
  }

  /** `stop`: drops the job if there is one, and always forgets every
      statistics message. */
  function Stop(m: Monitor): (r: Monitor)
    ensures !r.hasJob && r.statsMessages == map[]
    ensures Tallied(m) ==> Tallied(r) && !r.stats.isRunning
    ensures r.initialized == m.initialized && r.parser == m.parser
    ensures r.stats.(isRunning := m.stats.isRunning) == m.stats
  {
    var stopped := if m.hasJob then m.(hasJob := false, stats := m.stats.(isRunning := false)) else m;
    stopped.(statsMessages := map[])
  }

  /** `cleanup`: `stop`, then closes the parser service when initialized. */
  function Cleanup(m: Monitor): (r: Monitor)
    ensures !r.initialized && !r.hasJob && r.statsMessages == map[]
    ensures !m.initialized ==> r.parser == m.parser
    ensures m.initialized ==> r.parser == ParserService.Close(m.parser)
  {
    var s := Stop(m);
    if s.initialized then s.(initialized := false, parser := ParserService.Close(s.parser)) else s
  }

  /** Start then stop leaves no job, whatever the state before. */
  lemma StartThenStop(m: Monitor, schedule: Option<string>)
    requires Tallied(m) && Start(m, schedule).Ok?
    ensures var r := Stop(Start(m, schedule).value);
      !r.hasJob && !r.stats.isRunning && r.statsMessages == map[] && Tallied(r)
  {
  }

  // ------------------------------------------------------- statistics registry

  /** `setStatsMessageId`: registers (or replaces) the user's message. */
  function SetStatsMessageId(m: Monitor, userId: int, messageId: int): (r: Monitor)
    ensures r.statsMessages.Keys == m.statsMessages.Keys + {userId}
    ensures r.statsMessages[userId] == messageId
    ensures forall u :: u in m.statsMessages && u != userId ==> r.statsMessages[u] == m.statsMessages[u]
    ensures r.(statsMessages := m.statsMessages) == m
  {
    m.(statsMessages := m.statsMessages[userId := messageId])
  }

  /** `removeStatsMessageId`: forgets the user's message, if any. */
  function RemoveStatsMessageId(m: Monitor, userId: int): (r: Monitor)
    ensures r.statsMessages.Keys == m.statsMessages.Keys - {userId}
    ensures forall u :: u in r.statsMessages ==> r.statsMessages[u] == m.statsMessages[u]
    ensures r.(statsMessages := m.statsMessages) == m
  {
    m.(statsMessages := m.statsMessages - {userId})
  }

  /** Registering and then removing a user who had no message changes nothing. */
  lemma SetThenRemove(m: Monitor, userId: int, messageId: int)
    requires userId !in m.statsMessages
    ensures RemoveStatsMessageId(SetStatsMessageId(m, userId, messageId), userId) == m
  {
    assert (m.statsMessages[userId := messageId] - {userId}) == m.statsMessages;
  }

  /** `updateStatsMessages`: each registered message is edited; a user whose
      edit fails (message gone, bot blocked) is dropped from the registry.
      `edits(u)` says whether editing user `u`'s message succeeds. */
  function UpdateStatsMessages(messages: map<int, int>, edits: int -> bool): (r: map<int, int>)
    ensures forall u :: u in r <==> u in messages && edits(u)
    ensures forall u :: u in r ==> r[u] == messages[u]
  {
    if |messages| == 0 then messages
    else map u | u in messages && edits(u) :: messages[u]
  }

  /** Once every edit of a cycle has gone through, a second cycle with the
      same outcomes keeps the registry as it is. */
  lemma UpdateStatsMessagesIdempotent(messages: map<int, int>, edits: int -> bool)
    ensures UpdateStatsMessages(UpdateStatsMessages(messages, edits), edits) == UpdateStatsMessages(messages, edits)
  {
  }

  // ----------------------------------------------------------- notifications

  /** The query of the peek.tg search link: `gift`, then `model`,
      `background` and `pattern`, each only when truthy. */
  function SearchParams(p: Preset): (r: seq<(string, string)>)
    ensures |r| >= 1 && r[0] == ("gift", p.giftName)
    ensures ("model", p.model.GetOr("")) in r <==> Truthy(p.model)
    ensures ("background", p.background.GetOr("")) in r <==> Truthy(p.background)
    ensures ("pattern", p.pattern.GetOr("")) in r <==> Truthy(p.pattern)
    ensures |r| == 1 + (if Truthy(p.model) then 1 else 0) + (if Truthy(p.background) then 1 else 0)
      + (if Truthy(p.pattern) then 1 else 0)
    ensures forall i, j :: 0 <= i < j < |r| ==> KeyRank(r[i].0) < KeyRank(r[j].0)
  {
    [("gift", p.giftName)]
    + (if Truthy(p.model) then [("model", p.model.value)] else [])
    + (if Truthy(p.background) then [("background", p.background.value)] else [])
    + (if Truthy(p.pattern) then [("pattern", p.pattern.value)] else [])
  }

  /** Position of a query key in the order the link writes them. */
  function KeyRank(key: string): nat {
    if key == "gift" then 0
    else if key == "model" then 1
    else if key == "background" then 2
    else 3
  }

  const SearchBase: string := "https://peek.tg/gifts"

  /** `generateSearchUrl`. */
  function GenerateSearchUrl(p: Preset): (url: string)
    ensures |url| > |SearchBase| && url[..|SearchBase| + 1] == SearchBase + "?"
  {
    SearchBase + "?" + FormUrlEncoded.Serialize(SearchParams(p))
  }

  /** The query of the link splits into one `name=value` piece per parameter;
      each piece splits on `=` into the encoded name and value, and both
      decode back to the parameter's text. */
  lemma SearchUrlQuery(p: Preset)
    ensures var params := SearchParams(p);
      var query := GenerateSearchUrl(p)[|SearchBase| + 1..];
      && Split(query, '&') == seq(|params|, k requires 0 <= k < |params| => FormUrlEncoded.Pair(params[k]))
      && (forall k :: 0 <= k < |params| ==>
            Split(FormUrlEncoded.Pair(params[k]), '=')
              == [FormUrlEncoded.EncodeComponent(params[k].0), FormUrlEncoded.EncodeComponent(params[k].1)])
      && (forall k :: 0 <= k < |params| ==>
            FormUrlEncoded.Decode(FormUrlEncoded.Utf8Of(FormUrlEncoded.EncodeComponent(params[k].0)))
              == FormUrlEncoded.Utf8Of(params[k].0))
      && (forall k :: 0 <= k < |params| ==>
            FormUrlEncoded.Decode(FormUrlEncoded.Utf8Of(FormUrlEncoded.EncodeComponent(params[k].1)))
              == FormUrlEncoded.Utf8Of(params[k].1))
  {
    var params := SearchParams(p);
    FormUrlEncoded.SerializeSplits(params);
    assert GenerateSearchUrl(p)[|SearchBase| + 1..] == FormUrlEncoded.Serialize(params);
    forall k | 0 <= k < |params|
      ensures Split(FormUrlEncoded.Pair(params[k]), '=')
        == [FormUrlEncoded.EncodeComponent(params[k].0), FormUrlEncoded.EncodeComponent(params[k].1)]
      ensures FormUrlEncoded.Decode(FormUrlEncoded.Utf8Of(FormUrlEncoded.EncodeComponent(params[k].0)))
        == FormUrlEncoded.Utf8Of(params[k].0)
      ensures FormUrlEncoded.Decode(FormUrlEncoded.Utf8Of(FormUrlEncoded.EncodeComponent(params[k].1)))
        == FormUrlEncoded.Utf8Of(params[k].1)
    {
      FormUrlEncoded.PairSplits(params[k]);
      FormUrlEncoded.ComponentRoundTrip(params[k].0);
      FormUrlEncoded.ComponentRoundTrip(params[k].1);
    }
  }

  /** The parts of a change notification, in order. */
  datatype NoticePart =
    | Heading
    | PresetName(name: string)
    | ModelName(model: string)
    | BackgroundName(background: string)
    | PatternName(pattern: string)
    | Movement(rising: bool, oldCount: int, newCount: int)
    | Difference(amount: nat)
    | GiftLink(url: string)
    | SearchLink(url: string)

  /** The block of the notice a part belongs to: the preset lines (0), the
      change lines (1) or the links (2). */
  function Block(part: NoticePart): nat {
    match part
    case Heading | PresetName(_) | ModelName(_) | BackgroundName(_) | PatternName(_) => 0
    case Movement(_, _, _) | Difference(_) => 1
    case GiftLink(_) | SearchLink(_) => 2
  }

  function Abs(x: int): nat {
    if x < 0 then -x else x
  }

  /** The preset lines: the name, then each optional filter only when truthy. */
  function PresetParts(p: Preset): (r: seq<NoticePart>)
    ensures |r| >= 2 && r[0] == Heading && r[1] == PresetName(p.giftName)
    ensures forall v :: ModelName(v) in r <==> Truthy(p.model) && v == p.model.value
    ensures forall v :: BackgroundName(v) in r <==> Truthy(p.background) && v == p.background.value
    ensures forall v :: PatternName(v) in r <==> Truthy(p.pattern) && v == p.pattern.value
    ensures forall x :: x in r ==> Block(x) == 0
  {
    [Heading, PresetName(p.giftName)]
    + (if Truthy(p.model) then [ModelName(p.model.value)] else [])
    + (if Truthy(p.background) then [BackgroundName(p.background.value)] else [])
    + (if Truthy(p.pattern) then [PatternName(p.pattern.value)] else [])
  }

  /** The closing links: the gift link only when one was found, the search link always. */
  function LinkParts(giftLink: Option<string>, searchUrl: string): (r: seq<NoticePart>)
    ensures |r| >= 1 && r[|r| - 1] == SearchLink(searchUrl)
    ensures forall u :: GiftLink(u) in r <==> Truthy(giftLink) && u == giftLink.value
    ensures forall x :: x in r ==> Block(x) == 2
  {
    (if Truthy(giftLink) then [GiftLink(giftLink.value)] else []) + [SearchLink(searchUrl)]
  }

  /** The movement (an increase exactly when the count rose, so equal counts
      read as a decrease) and the absolute difference. */
  function ChangeParts(oldCount: int, newCount: int): (r: seq<NoticePart>)
    ensures |r| == 2 && r[0].Movement? && r[1].Difference?
    ensures r[0].rising <==> newCount > oldCount
    ensures r[0].oldCount == oldCount && r[0].newCount == newCount
    ensures r[1].amount == if newCount >= oldCount then newCount - oldCount else oldCount - newCount
  {
    [Movement(newCount > oldCount, oldCount, newCount), Difference(Abs(newCount - oldCount))]
  }

  /** The structure of `formatChangeNotification`: the preset lines, the
      change, then the links. */
  function NoticeParts(p: Preset, oldCount: int, newCount: int, giftLink: Option<string>, searchUrl: string): (r: seq<NoticePart>)
    ensures |r| >= 5 && r[0] == Heading && r[1] == PresetName(p.giftName)
    ensures r[|r| - 1] == SearchLink(searchUrl)
  {
    PresetParts(p) + ChangeParts(oldCount, newCount) + LinkParts(giftLink, searchUrl)
  }

  /** The model, background and pattern lines appear exactly for the truthy filters. */
  lemma NoticeShowsFilters(p: Preset, oldCount: int, newCount: int, giftLink: Option<string>, searchUrl: string)
    ensures var r := NoticeParts(p, oldCount, newCount, giftLink, searchUrl);
      && (forall v :: ModelName(v) in r <==> Truthy(p.model) && v == p.model.value)
      && (forall v :: BackgroundName(v) in r <==> Truthy(p.background) && v == p.background.value)
      && (forall v :: PatternName(v) in r <==> Truthy(p.pattern) && v == p.pattern.value)
  {
    var head := PresetParts(p);
    var links := LinkParts(giftLink, searchUrl);
    var r := NoticeParts(p, oldCount, newCount, giftLink, searchUrl);
    assert r == head + ChangeParts(oldCount, newCount) + links;
    forall v ensures ModelName(v) in r <==> ModelName(v) in head {
      assert ModelName(v) !in links;
    }
    forall v ensures BackgroundName(v) in r <==> BackgroundName(v) in head {
      assert BackgroundName(v) !in links;
    }
    forall v ensures PatternName(v) in r <==> PatternName(v) in head {
      assert PatternName(v) !in links;
    }
  }

  /** The gift-link line appears exactly when a link was found. */
  lemma NoticeShowsGiftLinkIffFound(p: Preset, oldCount: int, newCount: int, giftLink: Option<string>, searchUrl: string)
    ensures var r := NoticeParts(p, oldCount, newCount, giftLink, searchUrl);
      forall u :: GiftLink(u) in r <==> Truthy(giftLink) && u == giftLink.value
  {
    var head := PresetParts(p);
    var links := LinkParts(giftLink, searchUrl);
    var r := NoticeParts(p, oldCount, newCount, giftLink, searchUrl);
    assert r == head + ChangeParts(oldCount, newCount) + links;
    forall u ensures GiftLink(u) in r <==> GiftLink(u) in links {
      assert GiftLink(u) !in head;
    }
  }

  /** Exactly one movement line and one difference line, telling the direction and the amount. */
  lemma NoticeShowsChange(p: Preset, oldCount: int, newCount: int, giftLink: Option<string>, searchUrl: string)
    ensures var r := NoticeParts(p, oldCount, newCount, giftLink, searchUrl);
      && Movement(newCount > oldCount, oldCount, newCount) in r
      && Difference(Abs(newCount - oldCount)) in r
      && (forall part :: part in r && part.Movement? ==> part == Movement(newCount > oldCount, oldCount, newCount))
      && (forall part :: part in r && part.Difference? ==> part == Difference(Abs(newCount - oldCount)))
      && (forall i, j :: 0 <= i < j < |r| ==> !(r[i].Movement? && r[j].Movement?))
      && (forall i, j :: 0 <= i < j < |r| ==> !(r[i].Difference? && r[j].Difference?))
  {
    var head := PresetParts(p);
    var change := ChangeParts(oldCount, newCount);
    var links := LinkParts(giftLink, searchUrl);
    var r := NoticeParts(p, oldCount, newCount, giftLink, searchUrl);
    assert r == head + change + links;
    forall part | part in r && Block(part) == 1 ensures part in change {
      assert part !in head && part !in links;
    }
    ChangeLinesAt(p, oldCount, newCount, giftLink, searchUrl);
  }

  /** The movement line sits right after the preset lines and the
      difference line right after it; no other line is either. */
  lemma ChangeLinesAt(p: Preset, oldCount: int, newCount: int, giftLink: Option<string>, searchUrl: string)
    ensures var r := NoticeParts(p, oldCount, newCount, giftLink, searchUrl);
      var at := |PresetParts(p)|;
      forall i :: 0 <= i < |r| ==> (r[i].Movement? <==> i == at) && (r[i].Difference? <==> i == at + 1)
  {
    var head := PresetParts(p);
    var change := ChangeParts(oldCount, newCount);
    var links := LinkParts(giftLink, searchUrl);
    var r := NoticeParts(p, oldCount, newCount, giftLink, searchUrl);
    assert r == head + change + links;
    forall i | 0 <= i < |r|
      ensures (r[i].Movement? <==> i == |head|) && (r[i].Difference? <==> i == |head| + 1)
    {
      if i < |head| {
        assert r[i] in head;
      } else if i >= |head| + 2 {
        assert r[i] == links[i - |head| - 2];
        assert r[i] in links;
      }
    }
  }

  /** The text of one part (Telegram Markdown). */
  function RenderPart(part: NoticePart): string {
    match part
    case Heading => "🎁 *Изменение количества подарков*\n\n"
    case PresetName(n) => "🎯 *Пресет:* " + n + "\n"
    case ModelName(v) => "🤖 *Модель:* " + v + "\n"
    case BackgroundName(v) => "🎨 *Фон:* " + v + "\n"
    case PatternName(v) => "🔍 *Узор:* " + v + "\n"
    case Movement(up, o, n) =>
      "\n" + (if up then "📈" else "📉") + " Количество " + (if up then "увеличилось" else "уменьшилось")
      + ": *" + IntToString(o) + "* → *" + IntToString(n) + "*\n"
    case Difference(d) => "📊 Разница: *" + IntToString(d) + "*\n"
    case GiftLink(u) => "\n🎁 [Посмотреть последний подарок](" + u + ")"
    case SearchLink(u) => "\n🔗 [Посмотреть все на peek.tg](" + u + ")"
  }

  function Render(parts: seq<NoticePart>): string {
    if |parts| == 0 then "" else RenderPart(parts[0]) + Render(parts[1..])
  }

  lemma {:induction false} RenderAppend(a: seq<NoticePart>, b: seq<NoticePart>)
    ensures Render(a + b) == Render(a) + Render(b)
    decreases |a|
  {
    if |a| > 0 {
      assert (a + b)[0] == a[0] && (a + b)[1..] == a[1..] + b;
      RenderAppend(a[1..], b);
    } else {
      assert a + b == b;
    }
  }

  /** `formatChangeNotification`: the message opens with the heading and the
      preset's name and closes with the link to the search for the preset. */
  function FormatChangeNotification(p: Preset, oldCount: int, newCount: int, giftLink: Option<string>): (text: string)
    ensures var head := RenderPart(Heading) + RenderPart(PresetName(p.giftName));
      |head| <= |text| && text[..|head|] == head
    ensures var link := RenderPart(SearchLink(GenerateSearchUrl(p)));
      |link| <= |text| && text[|text| - |link|..] == link
  {
    var parts := NoticeParts(p, oldCount, newCount, giftLink, GenerateSearchUrl(p));
    RenderEnds(parts);
    Render(parts)
  }

  /** The rendering of parts starts with its first two parts and ends with its last. */
  lemma RenderEnds(parts: seq<NoticePart>)
    requires |parts| >= 2
    ensures var head := RenderPart(parts[0]) + RenderPart(parts[1]);
      |head| <= |Render(parts)| && Render(parts)[..|head|] == head
    ensures var last := RenderPart(parts[|parts| - 1]);
      |last| <= |Render(parts)| && Render(parts)[|Render(parts)| - |last|..] == last
  {
    RenderHead(parts);
    RenderLast(parts);
  }

  lemma RenderHead(parts: seq<NoticePart>)
    requires |parts| >= 2
    ensures Render(parts) == RenderPart(parts[0]) + RenderPart(parts[1]) + Render(parts[2..])
  {
    assert parts[1..][0] == parts[1] && parts[1..][1..] == parts[2..];
  }

  lemma RenderLast(parts: seq<NoticePart>)
    requires |parts| >= 1
    ensures Render(parts) == Render(parts[..|parts| - 1]) + RenderPart(parts[|parts| - 1])
  {
    var n := |parts|;
    assert parts == parts[..n - 1] + [parts[n - 1]];
    RenderAppend(parts[..n - 1], [parts[n - 1]]);
    assert Render([parts[n - 1]]) == RenderPart(parts[n - 1]) + Render([]);
  }

  /** Equal counts are reported as a decrease of 0. */
  lemma EqualCountsReadAsDecrease(p: Preset, n: int, giftLink: Option<string>, searchUrl: string)
    ensures Movement(false, n, n) in NoticeParts(p, n, n, giftLink, searchUrl)
    ensures Difference(0) in NoticeParts(p, n, n, giftLink, searchUrl)
  {
    NoticeShowsChange(p, n, n, giftLink, searchUrl);
  }

  /** One attempted notification: the recipient, what the message reports
      (its text is `Text()`), and whether Telegram accepted it. */
  datatype Notice = Notice(userId: int, preset: Preset, oldCount: int, newCount: int, giftLink: Option<string>, delivered: bool) {
    function Text(): string {
      FormatChangeNotification(preset, oldCount, newCount, giftLink)
    }
  }

  predicate Notifiable(e: Entry<Change>) {
    e.value.newCount.Finite?
  }

  /** The service can search: it is initialized and its browser is open. */
  predicate Ready(s: Service) {
    s.initialized && s.parser.browserOpen
  }

  /** The link a lookup yields, read off the page alone: none when the
      service cannot search, the page did not load or the search form
      fails, else the last result card's link. */
  function LinkOf(ready: bool, p: Preset, page: Attempt, clock: int): Option<string> {
    if !ready then None
    else match page
      case Unreachable(_) => None
      case Reached(pg) => if PerformSearch(pg, CriteriaOf(p), clock).Ok? then ExtractLastGiftLink(pg) else None
  }

  /** The link a notification carries: the lookup's answer, or none when
      the lookup throws (the error is swallowed). */
  function FoundLink(s: Service, p: Preset, page: Attempt, clock: int): (r: (Service, Option<string>))
    ensures var link := ParserService.GetLastGiftLink(s, p, page, clock);
      && r.0 == link.0
      && (link.1.Err? ==> r.1 == None)
      && (link.1.Ok? ==> r.1 == link.1.value)
    ensures r.1 == LinkOf(Ready(s), p, page, clock)
    ensures Ready(r.0) == Ready(s)
  {
    var link := ParserService.GetLastGiftLink(s, p, page, clock);
    (link.0, if link.1.Ok? then link.1.value else None)
  }

  /** The link lookups for the changed entries, in order on one service,
      the k-th loading `links(from + k)`. */
  function LookupLinks(s: Service, changed: seq<Entry<Change>>, links: nat -> Attempt, from: nat, clock: int): (r: (Service, seq<Option<string>>))
    ensures |r.1| == |changed|
    ensures forall k :: 0 <= k < |changed| ==> r.1[k] == LinkOf(Ready(s), changed[k].preset, links(from + k), clock)
    ensures r.0.initialized == s.initialized && r.0.retryAttempts == s.retryAttempts
    ensures r.0.parser.browserOpen == s.parser.browserOpen
  {
    var step := (t: Service, e: Entry<Change>, n: nat) => FoundLink(t, e.preset, links(n), clock);
    var same := (t: Service) =>
      t.initialized == s.initialized && t.retryAttempts == s.retryAttempts && t.parser.browserOpen == s.parser.browserOpen;
    var answer := (e: Entry<Change>, n: nat) => LinkOf(Ready(s), e.preset, links(n), clock);
    assert forall t, e, n :: same(t) ==> same(step(t, e, n).0) && step(t, e, n).1 == answer(e, n) by {
      forall t: Service, e: Entry<Change>, n: nat | same(t)
        ensures same(step(t, e, n).0) && step(t, e, n).1 == answer(e, n)
      {
        var found := FoundLink(t, e.preset, links(n), clock);
        assert step(t, e, n) == found;
        assert Ready(t) == Ready(s);
      }
    }
    ThreadAnswers(s, changed, step, from, same, answer);
    Thread(s, changed, step, from)
  }

  /** Every lookup answers as one on the starting service would: the
      earlier lookups change only the request counters. */
  lemma LookupLinksAnswers(s: Service, changed: seq<Entry<Change>>, links: nat -> Attempt, from: nat, clock: int)
    ensures var r := LookupLinks(s, changed, links, from, clock);
      forall k :: 0 <= k < |changed| ==> r.1[k] == FoundLink(s, changed[k].preset, links(from + k), clock).1
  {
  }

  /** `sendChangeNotifications`/`sendChangeNotification` over the changed
      entries: the k-th gets its link from the k-th lookup (without a link
      when that lookup failed) and one message to its preset's owner, which
      Telegram accepts when `delivered(from + k)`. A refused send does not
      stop the later ones. */
  function SendNotifications(s: Service, changed: seq<Entry<Change>>, links: nat -> Attempt, delivered: nat -> bool, from: nat, clock: int): (r: (Service, seq<Notice>))
    requires forall k :: 0 <= k < |changed| ==> changed[k].value.newCount.Finite?
    ensures |r.1| == |changed|
    ensures forall k :: 0 <= k < |changed| ==>
      && r.1[k].userId == changed[k].preset.userId
      && r.1[k].delivered == delivered(from + k)
      && r.1[k].preset == changed[k].preset
      && r.1[k].oldCount == changed[k].value.oldCount
      && Finite(r.1[k].newCount) == changed[k].value.newCount
    ensures var found := LookupLinks(s, changed, links, from, clock).1;
      forall k :: 0 <= k < |changed| ==> r.1[k].giftLink == found[k]
    ensures r.0.initialized == s.initialized && r.0.retryAttempts == s.retryAttempts
  {
    var found := LookupLinks(s, changed, links, from, clock);
    var notices := seq(|changed|, k requires 0 <= k < |changed| =>
      Notice(changed[k].preset.userId, changed[k].preset, changed[k].value.oldCount,
        changed[k].value.newCount.value, found.1[k], delivered(from + k)));
    (found.0, notices)
  }

  /** A notice leaves without a gift link when the lookup fails. */
  lemma FailedLinkIsSwallowed(s: Service, e: Entry<Change>, links: nat -> Attempt, delivered: nat -> bool, from: nat, clock: int)
    requires e.value.newCount.Finite?
    requires ParserService.GetLastGiftLink(s, e.preset, links(from), clock).1.Err?
    ensures var r := SendNotifications(s, [e], links, delivered, from, clock);
      |r.1| == 1 && r.1[0].giftLink == None
      && r.1[0].Text() == FormatChangeNotification(e.preset, e.value.oldCount, e.value.newCount.value, None)
  {
  }

  function IsChanged(): Entry<Change> -> bool {
    (e: Entry<Change>) => e.value.hasChanged
  }

  // ------------------------------------------------------------------ cycle

  /** What the outside world answers during one cycle: whether the store
      fails to list the active presets, the reads of the k-th preset, the
      page of the k-th link lookup, whether the k-th send is delivered,
      whether editing a user's statistics message succeeds, and the time. */
  datatype Env = Env(
    storeDown: bool,
    script: nat -> Reads,
    links: nat -> Attempt,
    delivered: nat -> bool,
    edits: int -> bool,
    clock: int,
    now: int)

  datatype Cycle = Cycle(monitor: Monitor, db: Db, notices: seq<Notice>)

  /** The changed entries among a batch's results. */
  function ChangedEntries(active: seq<Preset>, b: Batch<Change>): (r: seq<Entry<Change>>)
    requires |b.outcomes| == |active|
    requires forall k :: 0 <= k < |active| && b.outcomes[k].Ok? ==> b.outcomes[k].value.newCount.Finite?
    ensures forall e :: e in r ==> Notifiable(e) && e.value.hasChanged
    ensures forall k :: 0 <= k < |r| ==> r[k].value.newCount.Finite?
    ensures |r| == CountWhere(Kept(active, b.outcomes), IsChanged())
  {
    var kept := Kept(active, b.outcomes);
    KeptNotifiable(active, b.outcomes);
    Filter(kept, IsChanged())
  }

  /** The changed entries are exactly the checked entries that report a
      change: each of them, as often as it occurs, in the batch's order. */
  lemma ChangedEntriesExact(active: seq<Preset>, b: Batch<Change>)
    requires |b.outcomes| == |active|
    requires forall k :: 0 <= k < |active| && b.outcomes[k].Ok? ==> b.outcomes[k].value.newCount.Finite?
    ensures var kept := Kept(active, b.outcomes);
      var r := ChangedEntries(active, b);
      && (forall e :: e in r <==> e in kept && e.value.hasChanged)
      && SubsequenceOf(r, kept)
      && (forall e :: multiset(r)[e] == if e.value.hasChanged then multiset(kept)[e] else 0)
  {
    KeepChanged(Kept(active, b.outcomes));
  }

  /** Every successful check of the batch reports a finite new count. */
  lemma KeptNotifiable(active: seq<Preset>, outcomes: seq<Result<Change, Failure>>)
    requires |outcomes| == |active|
    requires forall k :: 0 <= k < |active| && outcomes[k].Ok? ==> outcomes[k].value.newCount.Finite?
    ensures forall e :: e in Kept(active, outcomes) ==> Notifiable(e)
  {
    var kept := Kept(active, outcomes);
    forall e | e in kept ensures Notifiable(e) {
      var j :| 0 <= j < |kept| && kept[j] == e;
    }
  }

  /** Keeping the changed entries keeps each of them, as often as it
      occurs, in order, and nothing else. */
  lemma KeepChanged(kept: seq<Entry<Change>>)
    ensures var r := Filter(kept, IsChanged());
      && (forall e :: e in r <==> e in kept && e.value.hasChanged)
      && SubsequenceOf(r, kept)
      && (forall e :: multiset(r)[e] == if e.value.hasChanged then multiset(kept)[e] else 0)
  {
    FilterIsSubsequence(kept, IsChanged());
    FilterCounts(kept, IsChanged());
  }

  /** `performMonitoringCycle`, as one atomic step. */
  function PerformMonitoringCycle(m: Monitor, db: Db, env: Env): (r: Cycle)
    requires Valid(db)
    ensures !m.initialized ==> r == Cycle(m, db, [])
    ensures Valid(r.db) && r.db.presets == db.presets
    ensures r.monitor.initialized == m.initialized && r.monitor.hasJob == m.hasJob && r.monitor.enabled == m.enabled
    ensures m.initialized ==>
      && r.monitor.stats.totalChecks == m.stats.totalChecks + 1
      && r.monitor.stats.lastCheck == Some(env.now)
      && r.monitor.stats.isRunning == m.stats.isRunning
      && r.monitor.stats.failedChecks == m.stats.failedChecks + (if env.storeDown then 1 else 0)
      && r.monitor.stats.successfulChecks == m.stats.successfulChecks + (if env.storeDown then 0 else 1)
    ensures env.storeDown || PresetModel.GetAllActive(db) == [] ==>
      r.db == db && r.notices == [] && r.monitor.statsMessages == m.statsMessages
      && r.monitor.stats.totalChanges == m.stats.totalChanges
    ensures m.initialized && !env.storeDown && PresetModel.GetAllActive(db) != [] ==>
      var active := PresetModel.GetAllActive(db);
      var b := CheckEach(db, m.parser, active, env.script, 0, env.clock, env.now);
      && r.db == b.db
      && r.monitor.stats.totalChanges == m.stats.totalChanges + CountWhere(Kept(active, b.outcomes), IsChanged())
      && |r.notices| == CountWhere(Kept(active, b.outcomes), IsChanged())
      && r.monitor.statsMessages == UpdateStatsMessages(m.statsMessages, env.edits)
    ensures Tallied(m) ==> Tallied(r.monitor)
  {
    if !m.initialized then Cycle(m, db, [])
    else
      var started := m.stats.(totalChecks := m.stats.totalChecks + 1, lastCheck := Some(env.now));
      if env.storeDown then
        Cycle(m.(stats := started.(failedChecks := started.failedChecks + 1)), db, [])
      else
        var active := PresetModel.GetAllActive(db);
        if |active| == 0 then
          Cycle(m.(stats := started.(successfulChecks := started.successfulChecks + 1)), db, [])
        else
          var b := CheckEach(db, m.parser, active, env.script, 0, env.clock, env.now);
          var changed := ChangedEntries(active, b);
          var sent := SendNotifications(b.service, changed, env.links, env.delivered, 0, env.clock);
          var stats := started.(totalChanges := started.totalChanges + |changed|,
                                successfulChecks := started.successfulChecks + 1);
          Cycle(m.(stats := stats, parser := sent.0, statsMessages := UpdateStatsMessages(m.statsMessages, env.edits)),
                b.db, sent.1)
  }

  /** A cycle that checks presets sends one notice per changed entry, in
      order: the k-th goes to that preset's owner, carries its counts and
      the link the k-th lookup page shows (none when the parser cannot
      search), and is delivered as Telegram answers the k-th send. */
  lemma CycleNotifiesChangedOwners(m: Monitor, db: Db, env: Env)
    requires Valid(db)
    requires m.initialized && !env.storeDown && PresetModel.GetAllActive(db) != []
    ensures var active := PresetModel.GetAllActive(db);
      var b := CheckEach(db, m.parser, active, env.script, 0, env.clock, env.now);
      var changed := ChangedEntries(active, b);
      var r := PerformMonitoringCycle(m, db, env);
      && |r.notices| == |changed|
      && forall k :: 0 <= k < |changed| ==>
        && r.notices[k].userId == changed[k].preset.userId
        && r.notices[k].preset == changed[k].preset
        && r.notices[k].oldCount == changed[k].value.oldCount
        && Finite(r.notices[k].newCount) == changed[k].value.newCount
        && r.notices[k].giftLink == LinkOf(Ready(b.service), changed[k].preset, env.links(k), env.clock)
        && r.notices[k].delivered == env.delivered(k)
  {
  }

  /** A preset whose check throws adds no change and does not stop the
      rest: every active preset is checked, and the changes counted are
      exactly the successful checks that report a change. */
  lemma FailingChecksAreIsolated(db: Db, s: Service, active: seq<Preset>, script: nat -> Reads, clock: int, now: int)
    requires Valid(db)
    ensures var b := CheckEach(db, s, active, script, 0, clock, now);
      |b.outcomes| == |active|
      && CountWhere(Kept(active, b.outcomes), IsChanged()) == |active| - CountFailedOrSteady(b.outcomes)
  {
    var b := CheckEach(db, s, active, script, 0, clock, now);
    ChangedCount(active, b.outcomes);
  }

  /** Number of outcomes that failed or report no change. */
  function CountFailedOrSteady(outcomes: seq<Result<Change, Failure>>): (n: nat)
    ensures n <= |outcomes|
  {
    if |outcomes| == 0 then 0
    else
      var last := outcomes[|outcomes| - 1];
      CountFailedOrSteady(outcomes[..|outcomes| - 1]) + (if last.Err? || !last.value.hasChanged then 1 else 0)
  }

  lemma {:induction false} ChangedCount(presets: seq<Preset>, outcomes: seq<Result<Change, Failure>>)
    requires |outcomes| == |presets|
    ensures CountWhere(Kept(presets, outcomes), IsChanged()) == |outcomes| - CountFailedOrSteady(outcomes)
    decreases |outcomes|
  {
    if |outcomes| > 0 {
      var n := |outcomes| - 1;
      ChangedCount(presets[..n], outcomes[..n]);
      var before := Kept(presets[..n], outcomes[..n]);
      var after := Kept(presets, outcomes);
      var steady := CountFailedOrSteady(outcomes);
      assert steady == CountFailedOrSteady(outcomes[..n])
        + (if outcomes[n].Err? || !outcomes[n].value.hasChanged then 1 else 0);
      KeptSnoc(presets, outcomes);
      if outcomes[n].Ok? {
        var e := Entry(presets[n], outcomes[n].value);
        assert after == before + [e];
        assert after[..|after| - 1] == before;
        assert CountWhere(after, IsChanged()) == CountWhere(before, IsChanged()) + (if e.value.hasChanged then 1 else 0);
      } else {
        assert after == before;
      }
    }
  }

  /** Extending a batch by one step extends what it keeps by that step's entry, if it succeeded. */
  lemma KeptSnoc<T, E>(presets: seq<Preset>, outcomes: seq<Result<T, E>>)
    requires |outcomes| == |presets| > 0
    ensures var n := |outcomes| - 1;
      Kept(presets, outcomes) == Kept(presets[..n], outcomes[..n])
        + (if outcomes[n].Ok? then [Entry(presets[n], outcomes[n].value)] else [])
  {
    var n := |outcomes| - 1;
    var idx := OkPositions(outcomes);
    var prev := OkPositions(outcomes[..n]);
    assert idx == prev + (if outcomes[n].Ok? then [n] else []);
    forall j | 0 <= j < |prev|
      ensures presets[..n][prev[j]] == presets[prev[j]] && outcomes[..n][prev[j]] == outcomes[prev[j]]
    {
    }
  }
}

=== FILE: ordering.dfy ===
/** `ORDER BY <key> DESC` over an in-memory table: a stable insertion sort
    on a sequence, with its ordering and permutation facts. */
module Ordering {

  /** Non-increasing by `key`. */
  predicate SortedDesc<T>(s: seq<T>, key: T -> int) {
    forall i, j :: 0 <= i < j < |s| ==> key(s[i]) >= key(s[j])
  }

  /** Places `x` after every element whose key is at least its own. */
  function Insert<T>(x: T, s: seq<T>, key: T -> int): (r: seq<T>)
    requires SortedDesc(s, key)
    ensures SortedDesc(r, key)
    ensures multiset(r) == multiset(s) + multiset{x}
    ensures |r| == |s| + 1
  {
    if |s| == 0 then [x]
    else if key(x) > key(s[0]) then
      assert forall k :: 0 <= k < |s| ==> key(s[0]) >= key(s[k]);
      ConsSorted(x, s, key);
      [x] + s
    else
      var tail := Insert(x, s[1..], key);
      assert s == [s[0]] + s[1..];
      forall k | 0 <= k < |tail|
        ensures key(s[0]) >= key(tail[k])
      {
        assert tail[k] in multiset(s[1..]) + multiset{x};
        if tail[k] != x {
          assert tail[k] in s[1..];
        }
      }
      ConsSorted(s[0], tail, key);
      assert multiset([s[0]] + tail) == multiset{s[0]} + multiset(tail);
      assert multiset(s) == multiset{s[0]} + multiset(s[1..]);
      [s[0]] + tail
  }

  /** A head whose key is at least every key of a descending tail keeps the
      sequence descending. */
  lemma ConsSorted<T>(h: T, t: seq<T>, key: T -> int)
    requires SortedDesc(t, key) && forall k :: 0 <= k < |t| ==> key(h) >= key(t[k])
    ensures SortedDesc([h] + t, key)
  {
    var r := [h] + t;
    forall i, j | 0 <= i < j < |r| ensures key(r[i]) >= key(r[j]) {
      assert r[j] == t[j - 1];
      if i > 0 {
        assert r[i] == t[i - 1];
      }
    }
  }

  /** The rows of `s` ordered by descending `key`. */
  function SortDesc<T>(s: seq<T>, key: T -> int): (r: seq<T>)
    ensures SortedDesc(r, key)
    ensures multiset(r) == multiset(s)
    ensures |r| == |s|
  {
    if |s| == 0 then []
    else
      assert s == s[..|s| - 1] + [s[|s| - 1]];
      Insert(s[|s| - 1], SortDesc(s[..|s| - 1], key), key)
  }

  /** Every element of a non-empty descending sequence has a key no larger than the first. */
  lemma HeadIsMax<T>(s: seq<T>, key: T -> int)
    requires SortedDesc(s, key) && |s| > 0
    ensures forall x :: x in s ==> key(x) <= key(s[0])
  {
    forall x | x in s
      ensures key(x) <= key(s[0])
    {
      var k :| 0 <= k < |s| && s[k] == x;
      if k > 0 {
        assert key(s[0]) >= key(s[k]);
      }
    }
  }

  /** A prefix of a descending sequence is descending. */
  lemma PrefixSorted<T>(s: seq<T>, n: nat, key: T -> int)
    requires SortedDesc(s, key) && n <= |s|
    ensures SortedDesc(s[..n], key)
  {
  }

  /** The first `k` rows of a descending sequence are its top rows: none of
      the rows left behind has a larger key than any row kept. */
  lemma PrefixIsTop<T>(s: seq<T>, k: nat, key: T -> int)
    requires SortedDesc(s, key) && k <= |s|
    ensures multiset(s[..k]) + multiset(s[k..]) == multiset(s)
    ensures forall x, y :: x in s[..k] && y in s[k..] ==> key(x) >= key(y)
  {
    assert s == s[..k] + s[k..];
    forall x, y | x in s[..k] && y in s[k..]
      ensures key(x) >= key(y)
    {
      var i :| 0 <= i < k && s[..k][i] == x;
      var j :| 0 <= j < |s| - k && s[k..][j] == y;
      assert s[i] == x && s[k + j] == y;
    }
  }
}

=== FILE: parser.dfy ===
/** `PeekParser`: the decisions the peek.tg scraper takes on a loaded page
    (which form controls it drives, where it reads the result count from,
    which gift cards it keeps, which link it derives), its bounded retry
    loop and its request counters. The browser is replaced by a snapshot of
    what each selector query would answer. */
module PeekParser {
  import opened Common
  import opened Js

  // ------------------------------------------------------------------ data

  /** `SearchCriteria`: optional filters are `undefined` (None) when unset. */
  datatype SearchCriteria = SearchCriteria(
    giftName: string,
    model: Option<string>,
    background: Option<string>,
    pattern: Option<string>)

  /** What one gift card answers when it is inspected. `nameText` is the text
      of its title element (None: no title element), `imageSrc` the `src` of
      its image, `rarityText` the text of its rarity element; `broken` cards
      throw while being read (for example once detached from the page). */
  datatype Card = Card(
    dataId: Option<string>,
    idAttr: Option<string>,
    nameText: Option<string>,
    imageSrc: Option<string>,
    rarityText: Option<string>,
    broken: bool)

  /** `GiftItem`, restricted to the fields the extractor fills in. */
  datatype GiftItem = GiftItem(id: string, name: string, imageUrl: Option<string>, rarity: Option<string>)

  /** The gift page a card of the result grid leads to: the `href` of its
      `t.me/nft/` link, if there is one, and its address. */
  datatype GiftPage = GiftPage(telegramHref: Option<string>, url: string)

  /** A loaded search page as the selector queries see it. A query that
      throws is treated by every caller exactly like one that finds nothing,
      so the snapshot records only the latter.
      - `matches(sel)`: `page.$(sel)` finds an element;
      - `textOf(sel)`: text content of the first element `sel` selects;
      - `countOf(sel)`: `page.$$(sel).length`;
      - `cardsOf(sel)`: the elements `page.$$(sel)` returns, as gift cards;
      - `giftGrid`: the cards of the result grid with the page each leads to
        (None: no grid container);
      - `linkFails`: reading the gift link throws part-way. */
  datatype Page = Page(
    matches: string -> bool,
    textOf: string -> Option<string>,
    countOf: string -> nat,
    cardsOf: string -> seq<Card>,
    giftGrid: Option<seq<GiftPage>>,
    linkFails: bool)

  /** One try at loading the search page: navigation either fails with an
      error message or yields a page. */
  datatype Attempt = Unreachable(message: string) | Reached(page: Page)

  datatype SearchResult = SearchResult(count: JsNumber, items: seq<GiftItem>, criteria: SearchCriteria)

  /** A thrown error: its message, the `code` of a `ParserError` (None for a
      plain `Error`) and the `retryCount` the retry loop stamps on it. */
  datatype Failure = Failure(message: string, code: Option<string>, retryCount: Option<nat>)

  /** `ParserStats` without the timing fields. */
  datatype Stats = Stats(totalRequests: nat, successfulRequests: nat, failedRequests: nat)

  /** The scraper's state: whether a browser is open, and its counters. */
  datatype Parser = Parser(browserOpen: bool, stats: Stats)

  /** The state after a single request and what it returned or threw. */
  datatype Step<T> = Step(parser: Parser, result: Result<T, Failure>)

  /** The state after a retried request, what it returned or threw, how many
      page loads it attempted and how many pauses it made. */
  datatype Outcome<T> = Outcome(parser: Parser, result: Result<T, Failure>, attempts: nat, delays: nat)

  const BrowserNotReady: string := "Браузер не инициализирован. Вызовите initialize() сначала."
  const SearchButtonMissing: string := "Кнопка поиска не найдена"
  const AttemptsExhausted: string := "Все попытки поиска исчерпаны"
  /** Stands in for the browser library's own timeout error when no form
      control appears within 10000 ms; its exact wording is the library's. */
  const FormNotLoaded: string := "Timeout 10000ms exceeded waiting for input, select, button"
  const SearchFailed: string := "SEARCH_FAILED"
  const LinkExtractionFailed: string := "LINK_EXTRACTION_FAILED"
  const UnknownGift: string := "Unknown Gift"
  const MaxItems: nat := 10
  const MaxImageCount: nat := 100

  const ZeroStats: Stats := Stats(0, 0, 0)

  // ------------------------------------------------------------ selectors

  const FormControls: string := "input, select, button"

  /** The four dropdowns of the search form, in the order they are filled. */
  datatype Field = Gift | Model | Background | Pattern {
    /** The caption the dropdown button shows while nothing is chosen. */
    function Placeholder(): string {
      match this
      case Gift => "All gifts"
      case Model => "All models"
      case Background => "All backgrounds"
      case Pattern => "All patterns"
    }

    /** The label of the form row holding the dropdown. */
    function Label(): string {
      match this
      case Gift => "Gift"
      case Model => "Model"
      case Background => "Background"
      case Pattern => "Pattern"
    }
  }

  /** The nine selectors tried, in order, for a dropdown's button. */
  function ButtonSelectors(f: Field): (r: seq<string>)
    ensures |r| == 9
  {
    var all := f.Placeholder();
    var row := f.Label();
    [ "button:has-text(\"" + all + "\")",
      "button[aria-haspopup=\"listbox\"]:has-text(\"" + all + "\")",
      "button[type=\"button\"]:has-text(\"" + all + "\")",
      "div:has(label:has-text(\"" + row + "\")) button[type=\"button\"]",
      "div:has(label:has-text(\"" + row + "\")) button",
      "button[class*=\"relative\"]:has-text(\"" + all + "\")",
      "button[class*=\"flex\"]:has-text(\"" + all + "\")",
      "button[class*=\"w-full\"]:has-text(\"" + all + "\")",
      "button:has(span:has-text(\"" + all + "\"))" ]
  }

  const SearchInputSelectors: seq<string> := [
    "input[placeholder=\"Search...\"]",
    "input[type=\"text\"][placeholder=\"Search...\"]",
    "div[role=\"listbox\"] input[placeholder=\"Search...\"]",
    "input[class*=\"bg-gray-700\"]" ]

  /** The selectors tried, in order, for the option carrying `value`. */
  function OptionSelectors(value: string): seq<string> {
    [ "[role=\"option\"]:has-text(\"" + value + "\")",
      "div[role=\"option\"]:has-text(\"" + value + "\")",
      "div:has-text(\"" + value + "\"):has([role=\"option\"])",
      "div[class*=\"cursor-pointer\"]:has-text(\"" + value + "\")" ]
  }

  const SearchButtonSelectors: seq<string> := [
    "button:has-text(\"Найти\")",
    "button:has-text(\"Find\")",
    "button:has-text(\"Search\")",
    "button[type=\"submit\"]",
    "[data-testid*=\"search\" i]",
    "button[class*=\"search\" i]" ]

  const SpanSelector: string := "span.font-medium.text-white"
  const FoundSelector: string := "text=/Найдено:\\s*[\\d,]+/i"
  const CountSelectors: seq<string> := ["[class*=\"count\" i]", "[data-testid*=\"count\" i]"]
  const ImageSelectors: seq<string> := [
    "img[src*=\"gift\"]",
    "img[alt*=\"gift\" i]",
    "[class*=\"gift\" i] img",
    "[class*=\"item\" i] img" ]
  const ItemSelectors: seq<string> := ["[class*=\"gift\" i]", "[class*=\"item\" i]", "[data-testid*=\"gift\" i]"]

  // -------------------------------------------------------- fallback chains

  /** Index of the first selector that finds an element: the `for ... break`
      scans of the source. */
  function FirstMatch(selectors: seq<string>, matches: string -> bool): (r: Option<nat>)
    ensures r.Some? ==> r.value < |selectors| && matches(selectors[r.value])
    ensures r.Some? ==> forall j :: 0 <= j < r.value ==> !matches(selectors[j])
    ensures r.None? <==> forall j :: 0 <= j < |selectors| ==> !matches(selectors[j])
  {
    if |selectors| == 0 then None
    else if matches(selectors[0]) then Some(0)
    else
      match FirstMatch(selectors[1..], matches)
      case None => None
      case Some(k) => Some(k + 1)
  }

  /** How one `selectDropdownValue` call went: no button was found (and the
      field was skipped), or the button at `button` was opened, the search
      box at `input` (if any) was filled and the option at `option` (if any)
      was clicked. */
  datatype Selection =
    | NoButton
    | Opened(button: nat, input: Option<nat>, option: Option<nat>)

  /** `selectDropdownValue`: never fails; each stage uses the first matching
      selector of its list and the option is looked for only once the search
      box was found. */
  function SelectDropdownValue(page: Page, f: Field, value: string): (r: Selection)
    ensures r.NoButton? <==> FirstMatch(ButtonSelectors(f), page.matches).None?
    ensures r.Opened? ==> Some(r.button) == FirstMatch(ButtonSelectors(f), page.matches)
    ensures r.Opened? ==> r.input == FirstMatch(SearchInputSelectors, page.matches)
    ensures r.Opened? && r.input.None? ==> r.option.None?
    ensures r.Opened? && r.input.Some? ==> r.option == FirstMatch(OptionSelectors(value), page.matches)
  {
    match FirstMatch(ButtonSelectors(f), page.matches)
    case None => NoButton
    case Some(b) =>
      var input := FirstMatch(SearchInputSelectors, page.matches);
      var option := if input.Some? then FirstMatch(OptionSelectors(value), page.matches) else None;
      Opened(b, input, option)
  }

  /** The value a criterion gives a field (the empty string stands for an
      unset optional filter, which is never selected). */
  function ValueFor(c: SearchCriteria, f: Field): string {
    match f
    case Gift => c.giftName
    case Model => c.model.GetOr("")
    case Background => c.background.GetOr("")
    case Pattern => c.pattern.GetOr("")
  }

  /** The dropdowns `fillSearchForm` drives: the gift always, then model,
      background and pattern each only when that criterion is truthy, in
      that order. */
  function FormFields(c: SearchCriteria): (r: seq<Field>)
    ensures |r| >= 1 && r[0] == Gift
    ensures Model in r <==> Truthy(c.model)
    ensures Background in r <==> Truthy(c.background)
    ensures Pattern in r <==> Truthy(c.pattern)
    ensures forall i, j :: 0 <= i < j < |r| ==> FieldRank(r[i]) < FieldRank(r[j])
  {
    [Gift] + (if Truthy(c.model) then [Model] else [])
      + (if Truthy(c.background) then [Background] else [])
      + (if Truthy(c.pattern) then [Pattern] else [])
  }

  /** `fillSearchForm`: one `selectDropdownValue` per field to fill, in order. */
  function FillSearchForm(page: Page, c: SearchCriteria): (r: seq<(Field, Selection)>)
    ensures |r| == |FormFields(c)|
    ensures forall k :: 0 <= k < |r| ==> r[k].0 == FormFields(c)[k]
    ensures forall k :: 0 <= k < |r| ==> r[k].1 == SelectDropdownValue(page, r[k].0, ValueFor(c, r[k].0))
  {
    var fields := FormFields(c);
    seq(|fields|, k requires 0 <= k < |fields| => (fields[k], SelectDropdownValue(page, fields[k], ValueFor(c, fields[k]))))
  }

  function FieldRank(f: Field): nat {
    match f
    case Gift => 0
    case Model => 1
    case Background => 2
    case Pattern => 3
  }

  /** `clickSearchButton`: clicks the first of the six search-button
      selectors that finds an element, or fails when none does. */
  function ClickSearchButton(page: Page): (r: Result<nat, string>)
    ensures r.Ok? ==> Some(r.value) == FirstMatch(SearchButtonSelectors, page.matches)
    ensures r.Err? <==> forall j :: 0 <= j < |SearchButtonSelectors| ==> !page.matches(SearchButtonSelectors[j])
    ensures r.Err? ==> r.error == SearchButtonMissing
  {
    match FirstMatch(SearchButtonSelectors, page.matches)
    case Some(k) => Ok(k)
    case None => Err(SearchButtonMissing)
  }

  // ------------------------------------------------------ count from text

  predicate IsCountChar(c: char) {
    IsDigit(c) || c == ','
  }

  /** Length of the longest prefix made of digits and commas. */
  function RunLen(s: string): (k: nat)
    ensures k <= |s|
    ensures forall j :: 0 <= j < k ==> IsCountChar(s[j])
    ensures k < |s| ==> !IsCountChar(s[k])
  {
    if |s| > 0 && IsCountChar(s[0]) then
      var k := 1 + RunLen(s[1..]);
      assert forall j :: 1 <= j < k ==> s[j] == s[1..][j - 1];
      k
    else 0
  }

  /** Index of the first digit or comma (|s| when there is none). */
  function RunStart(s: string): (i: nat)
    ensures i <= |s|
    ensures forall k :: 0 <= k < i ==> !IsCountChar(s[k])
    ensures i < |s| ==> IsCountChar(s[i])
  {
    if |s| == 0 || IsCountChar(s[0]) then 0
    else
      var i := 1 + RunStart(s[1..]);
      assert forall k :: 1 <= k < i ==> s[k] == s[1..][k - 1];
      i
  }

  /** `s.match(/[\d,]+/)?.[0]`: the leftmost maximal run of digits and commas. */
  function CountRun(s: string): (r: Option<string>)
    ensures r.None? <==> forall k :: 0 <= k < |s| ==> !IsCountChar(s[k])
    ensures r.Some? ==> r.value != [] && forall k :: 0 <= k < |r.value| ==> IsCountChar(r.value[k])
    ensures r.Some? ==> exists i :: LeftmostRunAt(s, i, r.value)
  {
    var i := RunStart(s);
    if i == |s| then None
    else
      var k := RunLen(s[i..]);
      assert s[i..][0] == s[i];
      assert i + k < |s| ==> s[i..][k] == s[i + k];
      assert s[i..][..k] == s[i..i + k];
      assert LeftmostRunAt(s, i, s[i..i + k]);
      Some(s[i..i + k])
  }

  /** `run` occurs at `i`, nothing before `i` is a digit or comma, and the run
      cannot be extended to the right. */
  predicate LeftmostRunAt(s: string, i: nat, run: string) {
    && i + |run| <= |s|
    && s[i..i + |run|] == run
    && (forall k :: 0 <= k < i ==> !IsCountChar(s[k]))
    && (i + |run| < |s| ==> !IsCountChar(s[i + |run|]))
  }

  /** `s.replace(/,/g, '')`. */
  function RemoveCommas(s: string): (r: string)
    ensures |r| <= |s|
    ensures forall k :: 0 <= k < |r| ==> r[k] != ','
    ensures forall c :: c in r <==> c in s && c != ','
  {
    if |s| == 0 then ""
    else
      var rest := RemoveCommas(s[1..]);
      assert forall c :: c in s <==> c == s[0] || c in s[1..];
      if s[0] == ',' then rest else [s[0]] + rest
  }

  /** The count a text yields in `extractCount`: None when it has no digit or
      comma at all; otherwise `parseInt` (radix 10) of the first run with its
      commas removed, which is NaN for a run made only of commas. */
  function ParseCountText(text: string): (r: Option<JsNumber>)
    ensures r.None? <==> CountRun(text).None?
    ensures r == Some(NaN) <==> CountRun(text).Some? && forall k :: 0 <= k < |CountRun(text).value| ==> CountRun(text).value[k] == ','
    ensures r.Some? && r.value.Finite? ==> r.value.value >= 0
  {
    match CountRun(text)
    case None => None
    case Some(run) =>
      var digits := RemoveCommas(run);
      assert AllDigits(digits) by {
        forall k | 0 <= k < |digits| ensures IsDigit(digits[k]) {
          assert digits[k] in digits;
        }
      }
      ParseDigits(digits);
      if digits == "" then
        assert forall k :: 0 <= k < |run| ==> run[k] == ',' by {
          forall k | 0 <= k < |run| ensures run[k] == ',' {
            assert run[k] in run;
          }
        }
        Some(ParseInt10(digits))
      else
        assert digits[0] in run;
        Some(ParseInt10(digits))
  }

  /** On a string of decimal digits `parseInt` reads the whole string (NaN
      only for the empty string). */
  lemma ParseDigits(s: string)
    requires AllDigits(s)
    ensures s == "" ==> ParseInt10(s) == NaN
    ensures s != "" ==> ParseInt10(s) == Finite(DigitsValue(s))
  {
    if s != "" {
      ParseInt10Digits(s);
    }
  }

  /** Removing commas from a string without commas changes nothing. */
  lemma {:induction false} RemoveCommasNone(s: string)
    requires ',' !in s
    ensures RemoveCommas(s) == s
    decreases |s|
  {
    if |s| > 0 {
      assert s == [s[0]] + s[1..];
      RemoveCommasNone(s[1..]);
    }
  }

  /** A number written in decimal between text that holds no digit or comma
      (and does not continue the run) reads back as that number. */
  lemma CountTextRoundTrip(before: string, n: nat, after: string)
    requires forall k :: 0 <= k < |before| ==> !IsCountChar(before[k])
    requires |after| > 0 ==> !IsCountChar(after[0])
    ensures ParseCountText(before + NatToString(n) + after) == Some(Finite(n))
  {
    var d := NatToString(n);
    var s := before + d + after;
    assert s[|before|] == d[0];
    var run := CountRun(s).value;
    var i: nat :| LeftmostRunAt(s, i, run);
    assert s[i] == run[0] by {
      assert s[i..i + |run|][0] == s[i];
    }
    assert i == |before|;
    assert forall j :: 0 <= j < |d| ==> s[i + j] == d[j];
    assert |after| > 0 ==> s[i + |d|] == after[0];
    assert forall j :: 0 <= j < |run| ==> s[i + j] == run[j];
    assert |run| == |d|;
    assert run == d by {
      assert s[|before|..|before| + |d|] == d;
    }
    assert ',' !in d by {
      forall k | 0 <= k < |d| ensures d[k] != ',' {
        assert IsDigit(d[k]);
      }
    }
    RemoveCommasNone(d);
    ParseDigits(d);
  }

  // ------------------------------------------------ the "Найдено:" label

  /** Canonical case of a character under a case-insensitive regular
      expression without the `u` flag, for the letters that matter here:
      ASCII, basic Cyrillic, and the old Cyrillic variants whose upper case
      is a basic Cyrillic letter. */
  function UpperCase(c: char): char {
    if 'a' <= c <= 'z' then (c as int - 32) as char
    else if 'а' <= c <= 'я' then (c as int - 32) as char
    else if '\U{0450}' <= c <= '\U{045F}' then (c as int - 80) as char
    else if c == '\U{1C80}' then 'В'
    else if c == '\U{1C81}' then 'Д'
    else if c == '\U{1C82}' then 'О'
    else if c == '\U{1C83}' then 'С'
    else if c == '\U{1C84}' || c == '\U{1C85}' then 'Т'
    else if c == '\U{1C86}' then 'Ъ'
    else c
  }

  const FoundLabel: string := "Найдено:"

  /** The label occurs at `i`, ignoring case. */
  predicate LabelAt(s: string, i: nat) {
    i + |FoundLabel| <= |s| && forall k :: 0 <= k < |FoundLabel| ==> UpperCase(s[i + k]) == UpperCase(FoundLabel[k])
  }

  /** First index at or after `i` that is not white space. */
  function SkipWhite(s: string, i: nat): (j: nat)
    requires i <= |s|
    ensures i <= j <= |s|
    ensures forall k :: i <= k < j ==> IsWhite(s[k])
    ensures j < |s| ==> !IsWhite(s[j])
    decreases |s| - i
  {
    if i < |s| && IsWhite(s[i]) then SkipWhite(s, i + 1) else i
  }

  /** `/Найдено:\s*([\d,]+)/i` matches at `i`. */
  predicate FoundAt(s: string, i: nat) {
    LabelAt(s, i) && var j := SkipWhite(s, i + |FoundLabel|); j < |s| && IsCountChar(s[j])
  }

  /** The capture group of the match at `i`. */
  function CaptureAt(s: string, i: nat): (r: string)
    requires FoundAt(s, i)
    ensures r != [] && forall k :: 0 <= k < |r| ==> IsCountChar(r[k])
  {
    var j := SkipWhite(s, i + |FoundLabel|);
    var k := RunLen(s[j..]);
    assert s[j..][0] == s[j];
    assert forall m :: 0 <= m < k ==> s[j..][..k][m] == s[j..][m];
    s[j..][..k]
  }

  /** The leftmost match at or after `from`. */
  function FindLabel(s: string, from: nat): (r: Option<nat>)
    requires from <= |s|
    ensures r.Some? ==> from <= r.value < |s| && FoundAt(s, r.value)
    ensures r.Some? ==> forall i :: from <= i < r.value ==> !FoundAt(s, i)
    ensures r.None? ==> forall i :: from <= i <= |s| ==> !FoundAt(s, i)
    decreases |s| - from
  {
    if from == |s| then None
    else if FoundAt(s, from) then Some(from)
    else FindLabel(s, from + 1)
  }

  /** `text.match(/Найдено:\s*([\d,]+)/i)?.[1]`. */
  function FoundCapture(s: string): (r: Option<string>)
    ensures r.None? <==> forall i :: 0 <= i <= |s| ==> !FoundAt(s, i)
    ensures r.Some? ==> exists i :: (0 <= i <= |s| && FoundAt(s, i) && r.value == CaptureAt(s, i)
      && forall i' :: 0 <= i' < i ==> !FoundAt(s, i'))
  {
    match FindLabel(s, 0)
    case None => None
    case Some(i) => Some(CaptureAt(s, i))
  }

  // ------------------------------------------------------- extractCount

  /** What each source of `extractCount` yields, in the order they are
      tried: the counter span, the "Найдено:" text, the two count-class
      selectors, then the four gift-image selectors (a tally of images
      counts only when it is strictly between 0 and 100). */
  function CountSources(page: Page): (r: seq<Option<JsNumber>>)
    ensures |r| == 8
  {
    [ TextCount(page.textOf(SpanSelector)),
      match page.textOf(FoundSelector)
      case Some(t) => if t != "" && FoundCapture(t).Some? then Some(ParseInt10(RemoveCommas(FoundCapture(t).value))) else None
      case None => None,
      TextCount(page.textOf(CountSelectors[0])),
      TextCount(page.textOf(CountSelectors[1])),
      ImageCount(page.countOf(ImageSelectors[0])),
      ImageCount(page.countOf(ImageSelectors[1])),
      ImageCount(page.countOf(ImageSelectors[2])),
      ImageCount(page.countOf(ImageSelectors[3])) ]
  }

  /** An element's text yields a count when it is truthy and holds a run of
      digits and commas. */
  function TextCount(text: Option<string>): Option<JsNumber> {
    match text
    case Some(t) => if t != "" then ParseCountText(t) else None
    case None => None
  }

  function ImageCount(n: nat): Option<JsNumber> {
    if 0 < n < MaxImageCount then Some(Finite(n)) else None
  }

  /** The first source that yields a value, or None. */
  function FirstSome(s: seq<Option<JsNumber>>): (r: Option<JsNumber>)
    ensures r.None? <==> forall k :: 0 <= k < |s| ==> s[k].None?
    ensures r.Some? ==> exists k :: 0 <= k < |s| && s[k] == r && forall j :: 0 <= j < k ==> s[j].None?
  {
    if |s| == 0 then None
    else if s[0].Some? then s[0]
    else
      var r := FirstSome(s[1..]);
      assert forall k :: 1 <= k < |s| ==> s[k] == s[1..][k - 1];
      assert r.Some? ==> exists k :: 0 <= k < |s| && s[k] == r && forall j :: 0 <= j < k ==> s[j].None? by {
        if r.Some? {
          var k :| 0 <= k < |s[1..]| && s[1..][k] == r && forall j :: 0 <= j < k ==> s[1..][j].None?;
          assert s[k + 1] == r;
        }
      }
      r
  }

  /** `extractCount`: the value of the first source that yields one, or 0
      when none does. It never fails. */
  function ExtractCount(page: Page): (r: JsNumber)
    ensures (forall k :: 0 <= k < 8 ==> CountSources(page)[k].None?) ==> r == Finite(0)
    ensures (exists k :: 0 <= k < 8 && CountSources(page)[k].Some?) ==>
      exists k :: 0 <= k < 8 && CountSources(page)[k] == Some(r) && forall j :: 0 <= j < k ==> CountSources(page)[j].None?
  {
    FirstSome(CountSources(page)).GetOr(Finite(0))
  }

  /** A count read from the page is never negative (it may be NaN). */
  lemma ExtractCountNonNegative(page: Page)
    ensures ExtractCount(page).Finite? ==> ExtractCount(page).value >= 0
  {
    var src := CountSources(page);
    if exists k :: 0 <= k < 8 && src[k].Some? {
      var k :| 0 <= k < 8 && src[k] == Some(ExtractCount(page));
      SourceNonNegative(page, k);
    }
  }

  /** No single source yields a negative count. */
  lemma SourceNonNegative(page: Page, k: nat)
    requires k < 8
    ensures CountSources(page)[k].Some? && CountSources(page)[k].value.Finite? ==> CountSources(page)[k].value.value >= 0
  {
    if k == 1 {
      FoundNonNegative(page.textOf(FoundSelector));
    }
  }

  /** The "Найдено:" capture holds digits once its commas are gone, so it
      reads as a non-negative number or NaN. */
  lemma FoundNonNegative(text: Option<string>)
    ensures text.Some? && text.value != "" && FoundCapture(text.value).Some? ==>
      var n := ParseInt10(RemoveCommas(FoundCapture(text.value).value)); n.Finite? ==> n.value >= 0
  {
    if text.Some? && text.value != "" && FoundCapture(text.value).Some? {
      var cap := FoundCapture(text.value).value;
      var digits := RemoveCommas(cap);
      assert AllDigits(digits) by {
        forall m | 0 <= m < |digits| ensures IsDigit(digits[m]) {
          assert digits[m] in digits;
          assert digits[m] in cap;
        }
      }
      ParseDigits(digits);
    }
  }

  // ------------------------------------------------------ gift items

  /** `extractGiftItem`'s id: `data-id`, else `id`, else `item-<clock>`,
      trimmed after the choice. */
  function ItemId(card: Card, clock: int): (r: string)
    ensures Truthy(card.dataId) ==> r == Trim(card.dataId.value)
    ensures !Truthy(card.dataId) && Truthy(card.idAttr) ==> r == Trim(card.idAttr.value)
    ensures !Truthy(card.dataId) && !Truthy(card.idAttr) ==> r == "item-" + IntToString(clock)
  {
    var raw := if Truthy(card.dataId) then card.dataId.value
               else if Truthy(card.idAttr) then card.idAttr.value
               else "item-" + IntToString(clock);
    if !Truthy(card.dataId) && !Truthy(card.idAttr) then
      assert !IsWhite(raw[0]) && !IsWhite(raw[|raw| - 1]);
      assert TrimStart(raw) == raw;
      raw
    else Trim(raw)
  }

  /** `extractGiftItem`'s name: the trimmed title text, or "Unknown Gift"
      when there is no title or it is blank. */
  function ItemName(card: Card): (r: string)
    ensures r != ""
    ensures card.nameText.Some? && Trim(card.nameText.value) != "" ==> r == Trim(card.nameText.value)
    ensures card.nameText.None? || Trim(card.nameText.value) == "" ==> r == UnknownGift
  {
    match card.nameText
    case None => UnknownGift
    case Some(t) => if Trim(t) == "" then UnknownGift else Trim(t)
  }

  /** `extractGiftItem`: None when reading the card throws. */
  function ExtractGiftItem(card: Card, clock: int): (r: Option<GiftItem>)
    ensures r.None? <==> card.broken
    ensures r.Some? ==> r.value.id == ItemId(card, clock) && r.value.name == ItemName(card)
    ensures r.Some? ==> r.value.imageUrl == card.imageSrc && r.value.rarity == card.rarityText
  {
    if card.broken then None
    else Some(GiftItem(ItemId(card, clock), ItemName(card), card.imageSrc, card.rarityText))
  }

  function IsReadable(): Card -> bool {
    (c: Card) => !c.broken
  }

  /** The item list the extractor reads from: the elements of the first item
      selector that matches any, or none. */
  function ItemSource(page: Page): (r: seq<Card>)
    ensures r == [] <==> forall j :: 0 <= j < |ItemSelectors| ==> page.cardsOf(ItemSelectors[j]) == []
    ensures r != [] ==> exists j :: (0 <= j < |ItemSelectors| && r == page.cardsOf(ItemSelectors[j])
      && forall i :: 0 <= i < j ==> page.cardsOf(ItemSelectors[i]) == [])
  {
    if page.cardsOf(ItemSelectors[0]) != [] then page.cardsOf(ItemSelectors[0])
    else if page.cardsOf(ItemSelectors[1]) != [] then page.cardsOf(ItemSelectors[1])
    else page.cardsOf(ItemSelectors[2])
  }

  /** Reads the cards in order, dropping the ones that throw. */
  function ExtractItems(cards: seq<Card>, clock: int): (r: seq<GiftItem>)
    ensures |r| == |Filter(cards, IsReadable())|
    ensures forall k :: 0 <= k < |r| ==> Some(r[k]) == ExtractGiftItem(Filter(cards, IsReadable())[k], clock)
  {
    if |cards| == 0 then []
    else
      var init := cards[..|cards| - 1];
      var last := cards[|cards| - 1];
      var rest := ExtractItems(init, clock);
      match ExtractGiftItem(last, clock)
      case Some(item) => rest + [item]
      case None => rest
  }

  /** `extractGiftItems`: reads at most the first ten cards of the item
      source, keeps the ones that could be read, in order, and never fails. */
  function ExtractGiftItems(page: Page, clock: int): (items: seq<GiftItem>)
    ensures |items| <= MaxItems
    ensures var kept := Filter(Take(ItemSource(page), MaxItems), IsReadable());
      && |items| == |kept|
      && forall k :: 0 <= k < |items| ==> Some(items[k]) == ExtractGiftItem(kept[k], clock)
  {
    ExtractItems(Take(ItemSource(page), MaxItems), clock)
  }

  // ---------------------------------------------------- last gift link

  /** `url.match(/\/gifts\/([^\/]+)/)?.[1]`: the path segment after the
      first `/gifts/` that is followed by a non-empty segment. */
  function GiftSegment(url: string): (r: Option<string>)
    ensures r.Some? ==> r.value != "" && '/' !in r.value
  {
    match FindSegment(url, 0)
    case None => None
    case Some(i) =>
      var rest := url[i + 7..];
      var k := SegmentLen(rest);
      Some(rest[..k])
  }

  const GiftsPath: string := "/gifts/"

  predicate SegmentAt(url: string, i: nat) {
    i + 8 <= |url| && url[i..i + 7] == GiftsPath && url[i + 7] != '/'
  }

  function FindSegment(url: string, from: nat): (r: Option<nat>)
    requires from <= |url|
    ensures r.Some? ==> from <= r.value && SegmentAt(url, r.value)
    ensures r.Some? ==> forall i :: from <= i < r.value ==> !SegmentAt(url, i)
    ensures r.None? ==> forall i :: from <= i ==> !SegmentAt(url, i)
    decreases |url| - from
  {
    if from == |url| then None
    else if SegmentAt(url, from) then Some(from)
    else FindSegment(url, from + 1)
  }

  /** Length of the longest prefix without a slash. */
  function SegmentLen(s: string): (k: nat)
    ensures k <= |s|
    ensures forall j :: 0 <= j < k ==> s[j] != '/'
    ensures k < |s| ==> s[k] == '/'
  {
    if |s| > 0 && s[0] != '/' then
      var k := 1 + SegmentLen(s[1..]);
      assert forall j :: 1 <= j < k ==> s[j] == s[1..][j - 1];
      k
    else 0
  }

  /** The slash-free prefix is determined by where the first slash is. */
  lemma SegmentLenIs(s: string, m: nat)
    requires m <= |s| && (forall j :: 0 <= j < m ==> s[j] != '/') && (m < |s| ==> s[m] == '/')
    ensures SegmentLen(s) == m
  {
  }

  /** A gift page's address gives back its segment: for a prefix without a
      slash, `prefix/gifts/<seg>` followed by nothing or by a slash. */
  lemma GiftSegmentRoundTrip(prefix: string, seg: string, rest: string)
    requires '/' !in prefix && seg != "" && '/' !in seg
    requires rest == "" || rest[0] == '/'
    ensures GiftSegment(prefix + GiftsPath + seg + rest) == Some(seg)
  {
    var url := prefix + GiftsPath + seg + rest;
    var p := |prefix|;
    FirstSegmentAfterPrefix(prefix, seg, rest);
    var tail := url[p + 7..];
    assert tail == seg + rest;
    var k := SegmentLen(tail);
    assert forall j :: 0 <= j < |seg| ==> tail[j] == seg[j] && seg[j] != '/';
    assert |rest| > 0 ==> tail[|seg|] == '/';
    SegmentLenIs(tail, |seg|);
    assert tail[..k] == seg;
  }

  /** In such an address the first `/gifts/` segment starts right after the prefix. */
  lemma FirstSegmentAfterPrefix(prefix: string, seg: string, rest: string)
    requires '/' !in prefix && seg != "" && seg[0] != '/'
    ensures FindSegment(prefix + GiftsPath + seg + rest, 0) == Some(|prefix|)
  {
    var url := prefix + GiftsPath + seg + rest;
    var p := |prefix|;
    assert url[p..p + 7] == GiftsPath;
    assert url[p + 7] == seg[0];
    assert SegmentAt(url, p);
    forall i | 0 <= i < p
      ensures !SegmentAt(url, i)
    {
      assert url[i] == prefix[i] && url[i..i + 7][0] == url[i];
    }
  }

  /** `extractLastGiftLink`: the last card of the result grid decides. Its
      gift page's `t.me/nft/` link wins; otherwise the segment after
      `/gifts/` in that page's address gives `https://t.me/nft/<segment>`;
      otherwise, and on any error, there is no link. */
  function ExtractLastGiftLink(page: Page): (r: Option<string>)
    ensures page.linkFails || page.giftGrid.None? || page.giftGrid.value == [] ==> r.None?
    ensures !page.linkFails && page.giftGrid.Some? && page.giftGrid.value != [] ==>
      var last := page.giftGrid.value[|page.giftGrid.value| - 1];
      && (Truthy(last.telegramHref) ==> r == last.telegramHref)
      && (!Truthy(last.telegramHref) && GiftSegment(last.url).Some? ==>
            r == Some("https://t.me/nft/" + GiftSegment(last.url).value))
      && (!Truthy(last.telegramHref) && GiftSegment(last.url).None? ==> r.None?)
  {
    if page.linkFails then None
    else match page.giftGrid
      case None => None
      case Some(cards) =>
        if |cards| == 0 then None
        else
          var last := cards[|cards| - 1];
          if Truthy(last.telegramHref) then last.telegramHref
          else match GiftSegment(last.url)
            case Some(seg) => Some("https://t.me/nft/" + seg)
            case None => None
  }

  // ------------------------------------------------------- the search

  /** `performSearch` on a loaded page: waits for form controls, fills the
      form, clicks search, then reads the count and the items. Filling the
      form (`FillSearchForm`) changes nothing the page model reads, so it
      does not appear here. Only the wait and the search button can fail;
      the extraction never does. */
  function PerformSearch(page: Page, c: SearchCriteria, clock: int): (r: Result<SearchResult, string>)
    ensures !page.matches(FormControls) ==> r == Err(FormNotLoaded)
    ensures page.matches(FormControls) ==> (r.Err? <==> ClickSearchButton(page).Err?)
    ensures r.Err? ==> r.error == FormNotLoaded || r.error == SearchButtonMissing
    ensures r.Ok? ==> r.value.count == ExtractCount(page) && r.value.criteria == c
    ensures r.Ok? ==> r.value.items == ExtractGiftItems(page, clock) && |r.value.items| <= MaxItems
  {
    if !page.matches(FormControls) then Err(FormNotLoaded)
    else
      match ClickSearchButton(page)
      case Err(e) => Err(e)
      case Ok(_) => Ok(SearchResult(ExtractCount(page), ExtractGiftItems(page, clock), c))
  }

  /** `updateStats`: one more success or one more failure. */
  function UpdateStats(s: Stats, success: bool): (r: Stats)
    ensures r.totalRequests == s.totalRequests
    ensures success ==> r.successfulRequests == s.successfulRequests + 1 && r.failedRequests == s.failedRequests
    ensures !success ==> r.failedRequests == s.failedRequests + 1 && r.successfulRequests == s.successfulRequests
  {
    if success then s.(successfulRequests := s.successfulRequests + 1)
    else s.(failedRequests := s.failedRequests + 1)
  }

  /** Every finished request was counted as exactly one success or failure. */
  predicate Balanced(s: Stats) {
    s.successfulRequests + s.failedRequests == s.totalRequests
  }

  /** `resetStats`: all counters back to zero. */
  function ResetStats(p: Parser): (r: Parser)
    ensures r.browserOpen == p.browserOpen
    ensures r.stats.totalRequests == 0 && r.stats.successfulRequests == 0 && r.stats.failedRequests == 0
    ensures Balanced(r.stats)
  {
    p.(stats := ZeroStats)
  }

  /** What one search attempt returns or throws, counters aside: without a
      browser a plain error; otherwise the page outcome, with a failure
      wrapped as a `ParserError` coded `SEARCH_FAILED`. */
  function AttemptOutcome(open: bool, a: Attempt, c: SearchCriteria, clock: int): (r: Result<SearchResult, Failure>)
    ensures !open ==> r == Err(Failure(BrowserNotReady, None, None))
    ensures open && a.Unreachable? ==> r == Err(Failure(a.message, Some(SearchFailed), None))
    ensures open && a.Reached? ==> (r.Ok? <==> PerformSearch(a.page, c, clock).Ok?)
    ensures open && a.Reached? && r.Ok? ==> r.value == PerformSearch(a.page, c, clock).value
    ensures open && a.Reached? && r.Err? ==> r.error == Failure(PerformSearch(a.page, c, clock).error, Some(SearchFailed), None)
  {
    if !open then Err(Failure(BrowserNotReady, None, None))
    else
      var page := match a
        case Unreachable(m) => Err(m)
        case Reached(pg) => PerformSearch(pg, c, clock);
      match page
      case Ok(res) => Ok(res)
      case Err(m) => Err(Failure(m, Some(SearchFailed), None))
  }

  /** The counters around one request whose result is `r`: untouched
      without a browser (the request throws first), otherwise one more
      request and one more success or failure. */
  function Request<T>(p: Parser, r: Result<T, Failure>): (o: Step<T>)
    ensures o.result == r && o.parser.browserOpen == p.browserOpen
    ensures !p.browserOpen ==> o.parser == p
    ensures p.browserOpen ==> o.parser.stats.totalRequests == p.stats.totalRequests + 1
    ensures p.browserOpen && r.Ok? ==>
      o.parser.stats.successfulRequests == p.stats.successfulRequests + 1 && o.parser.stats.failedRequests == p.stats.failedRequests
    ensures p.browserOpen && r.Err? ==>
      o.parser.stats.failedRequests == p.stats.failedRequests + 1 && o.parser.stats.successfulRequests == p.stats.successfulRequests
    ensures Balanced(p.stats) ==> Balanced(o.parser.stats)
  {
    if !p.browserOpen then Step(p, r)
    else Step(p.(stats := UpdateStats(p.stats.(totalRequests := p.stats.totalRequests + 1), r.Ok?)), r)
  }

  /** `searchGifts`: without a browser it throws before touching the
      counters; otherwise it counts one request and exactly one success or
      failure. */
  function SearchGifts(p: Parser, c: SearchCriteria, a: Attempt, clock: int): (o: Step<SearchResult>)
    ensures o.result == AttemptOutcome(p.browserOpen, a, c, clock)
    ensures !p.browserOpen ==> o.parser == p && o.result == Err(Failure(BrowserNotReady, None, None))
    ensures p.browserOpen ==> o.parser.stats.totalRequests == p.stats.totalRequests + 1
    ensures p.browserOpen && o.result.Ok? ==> o.parser.stats.successfulRequests == p.stats.successfulRequests + 1
    ensures p.browserOpen && o.result.Err? ==> o.parser.stats.failedRequests == p.stats.failedRequests + 1
    ensures p.browserOpen && o.result.Err? ==> o.result.error.code == Some(SearchFailed)
  {
    Request(p, AttemptOutcome(p.browserOpen, a, c, clock))
  }

  /** The retry loop from attempt number `attempt` (1-based) on, attempt `k`
      producing `outcome(k - 1)`: stops at the first success; after a
      failure pauses only if another attempt follows, and stamps the last
      failure with its attempt number. */
  function RetryFrom(p: Parser, n: nat, outcome: nat -> Result<SearchResult, Failure>, attempt: nat): (o: Outcome<SearchResult>)
    requires 1 <= attempt <= n
    ensures attempt <= o.attempts <= n
    ensures o.delays == o.attempts - attempt
    ensures o.parser.browserOpen == p.browserOpen
    ensures forall k :: attempt - 1 <= k < o.attempts - 1 ==> outcome(k).Err?
    ensures o.result.Ok? ==> o.result == outcome(o.attempts - 1)
    ensures o.result.Err? ==> o.attempts == n && outcome(n - 1).Err?
    ensures o.result.Err? ==> o.result.error == outcome(n - 1).error.(retryCount := Some(n))
    ensures !p.browserOpen ==> o.parser == p
    ensures p.browserOpen ==>
      && o.parser.stats.totalRequests == p.stats.totalRequests + (o.attempts - attempt + 1)
      && o.parser.stats.successfulRequests == p.stats.successfulRequests + (if o.result.Ok? then 1 else 0)
      && o.parser.stats.failedRequests == p.stats.failedRequests + (o.attempts - attempt + 1) - (if o.result.Ok? then 1 else 0)
    decreases n - attempt
  {
    var step := Request(p, outcome(attempt - 1));
    match step.result
    case Ok(res) => Outcome(step.parser, Ok(res), attempt, 0)
    case Err(e) =>
      if attempt < n then
        var rest := RetryFrom(step.parser, n, outcome, attempt + 1);
        rest.(delays := rest.delays + 1)
      else Outcome(step.parser, Err(e.(retryCount := Some(attempt))), attempt, 0)
  }

  /** What attempt `k` (0-based) of a retried search returns or throws,
      counters aside. */
  function Tries(open: bool, world: nat -> Attempt, c: SearchCriteria, clock: int): nat -> Result<SearchResult, Failure> {
    (k: nat) => AttemptOutcome(open, world(k), c, clock)
  }

  /** `searchGiftsWithRetry`: at most `retryAttempts` calls of `searchGifts`,
      attempt `k` (1-based) loading `world(k - 1)`; the first success is
      returned, the pauses fall only between attempts, and when every
      attempt fails the last failure is rethrown stamped with the number of
      attempts. With no attempt allowed it throws without searching. */
  function SearchGiftsWithRetry(p: Parser, retryAttempts: int, c: SearchCriteria, world: nat -> Attempt, clock: int): (o: Outcome<SearchResult>)
    ensures retryAttempts <= 0 ==> o == Outcome(p, Err(Failure(AttemptsExhausted, None, None)), 0, 0)
    ensures retryAttempts > 0 ==> 1 <= o.attempts <= retryAttempts && o.delays == o.attempts - 1
    ensures var tries := Tries(p.browserOpen, world, c, clock);
      && (forall k :: 0 <= k < o.attempts - 1 ==> tries(k).Err?)
      && (o.result.Ok? ==> o.attempts >= 1 && o.result == tries(o.attempts - 1))
      && (retryAttempts > 0 && o.result.Err? ==>
            o.attempts == retryAttempts && tries(retryAttempts - 1).Err?
            && o.result.error == tries(retryAttempts - 1).error.(retryCount := Some(retryAttempts)))
    ensures o.parser.browserOpen == p.browserOpen
    ensures !p.browserOpen ==> o.parser == p
    ensures p.browserOpen ==>
      && o.parser.stats.totalRequests == p.stats.totalRequests + o.attempts
      && o.parser.stats.successfulRequests == p.stats.successfulRequests + (if o.result.Ok? then 1 else 0)
      && o.parser.stats.failedRequests == p.stats.failedRequests + o.attempts - (if o.result.Ok? then 1 else 0)
  {
    if retryAttempts <= 0 then Outcome(p, Err(Failure(AttemptsExhausted, None, None)), 0, 0)
    else RetryFrom(p, retryAttempts, Tries(p.browserOpen, world, c, clock), 1)
  }

  lemma RetryFromFirstSuccess(p: Parser, n: nat, outcome: nat -> Result<SearchResult, Failure>, k: nat)
    requires k < n && outcome(k).Ok?
    requires forall j :: 0 <= j < k ==> outcome(j).Err?
    ensures var o := RetryFrom(p, n, outcome, 1);
      o.attempts == k + 1 && o.result == outcome(k)
  {
  }

  /** The first successful attempt within the allowance is the one returned. */
  lemma RetryReturnsFirstSuccess(p: Parser, n: nat, c: SearchCriteria, world: nat -> Attempt, clock: int, k: nat)
    requires k < n && Tries(p.browserOpen, world, c, clock)(k).Ok?
    requires forall j :: 0 <= j < k ==> Tries(p.browserOpen, world, c, clock)(j).Err?
    ensures var o := SearchGiftsWithRetry(p, n, c, world, clock);
      o.attempts == k + 1 && o.result == Tries(p.browserOpen, world, c, clock)(k)
  {
    RetryFromFirstSuccess(p, n, Tries(p.browserOpen, world, c, clock), k);
  }

  /** The counters stay balanced through any retried search. */
  lemma RetryKeepsBalance(p: Parser, n: int, c: SearchCriteria, world: nat -> Attempt, clock: int)
    requires Balanced(p.stats)
    ensures Balanced(SearchGiftsWithRetry(p, n, c, world, clock).parser.stats)
  {
  }

  /** `getLastGiftLink`: one request, not retried; after a successful search
      the link extraction itself cannot fail. Failures are coded
      `LINK_EXTRACTION_FAILED`. */
  function GetLastGiftLink(p: Parser, c: SearchCriteria, a: Attempt, clock: int): (o: Step<Option<string>>)
    ensures !p.browserOpen ==> o == Step(p, Err(Failure(BrowserNotReady, None, None)))
    ensures p.browserOpen ==> o.parser.stats.totalRequests == p.stats.totalRequests + 1 && o.parser.browserOpen
    ensures p.browserOpen && a.Reached? && PerformSearch(a.page, c, clock).Ok? ==>
      o.result == Ok(ExtractLastGiftLink(a.page))
      && o.parser.stats.successfulRequests == p.stats.successfulRequests + 1
    ensures p.browserOpen && a.Unreachable? ==> o.result == Err(Failure(a.message, Some(LinkExtractionFailed), None))
    ensures p.browserOpen && a.Reached? && PerformSearch(a.page, c, clock).Err? ==>
      o.result == Err(Failure(PerformSearch(a.page, c, clock).error, Some(LinkExtractionFailed), None))
    ensures p.browserOpen && o.result.Err? ==> o.parser.stats.failedRequests == p.stats.failedRequests + 1
    ensures Balanced(p.stats) ==> Balanced(o.parser.stats)
  {
    if !p.browserOpen then Step(p, Err(Failure(BrowserNotReady, None, None)))
    else
      var started := p.stats.(totalRequests := p.stats.totalRequests + 1);
      var searched := match a
        case Unreachable(m) => Err(m)
        case Reached(pg) => PerformSearch(pg, c, clock);
      match searched
      case Err(m) => Step(p.(stats := UpdateStats(started, false)), Err(Failure(m, Some(LinkExtractionFailed), None)))
      case Ok(_) => Step(p.(stats := UpdateStats(started, true)), Ok(ExtractLastGiftLink(a.page)))
  }
}

=== FILE: parser_service.dfy ===
/** `ParserService`: the guard around the parser and the reliability-checked
    change detector. A preset's baseline is its latest history count; a fresh
    read is written to the history only when it is plausible and, if it
    differs from the baseline, confirmed by a second read. Every read is a
    retried search whose page loads come from a `world` oracle. */
module ParserService {
  import opened Common
  import opened Js
  import opened Database
  import opened PeekParser
  import HistoryModel
  import PresetModel

  const NotInitialized: string := "ParserService не инициализирован"
  const LaunchFailed: string := "Не удалось инициализировать браузер: "

  /** The upper bound above which a count is taken for parsing garbage. */
  const MaxReasonable: int := 1_000_000

  /** The service: its `isInitialized` flag, the parser it owns and the
      configured number of search attempts. */
  datatype Service = Service(initialized: bool, parser: Parser, retryAttempts: int)

  /** The service is initialized exactly when its parser holds a browser. */
  predicate Coherent(s: Service) {
    s.initialized <==> s.parser.browserOpen
  }

  /** `initialize`: a no-op once initialized; otherwise the browser launch
      decides (`launch` is None when it succeeds, else the launcher's error). */
  function Initialize(s: Service, launch: Option<string>): (r: Result<Service, Failure>)
    ensures s.initialized ==> r == Ok(s)
    ensures !s.initialized ==> (r.Ok? <==> launch.None?)
    ensures r.Ok? ==> r.value.initialized && r.value.parser.stats == s.parser.stats && r.value.retryAttempts == s.retryAttempts
    ensures Coherent(s) && r.Ok? ==> Coherent(r.value)
    ensures r.Err? ==> r.error.message == LaunchFailed + launch.value
  {
    if s.initialized then Ok(s)
    else match launch
      case None => Ok(s.(initialized := true, parser := s.parser.(browserOpen := true)))
      case Some(e) => Err(Failure(LaunchFailed + e, None, None))
  }

  /** A second `initialize` changes nothing, whatever the launcher would do. */
  lemma InitializeIdempotent(s: Service, first: Option<string>, again: Option<string>)
    requires Initialize(s, first).Ok?
    ensures Initialize(Initialize(s, first).value, again) == Initialize(s, first)
  {
  }

  /** `close`: releases the browser when initialized, else does nothing. */
  function Close(s: Service): (r: Service)
    ensures !r.initialized && !(s.initialized && r.parser.browserOpen)
    ensures r.parser.stats == s.parser.stats && r.retryAttempts == s.retryAttempts
    ensures Coherent(s) ==> Coherent(r)
  {
    if s.initialized then s.(initialized := false, parser := s.parser.(browserOpen := false)) else s
  }

  // ------------------------------------------------------------------ reads

  /** `convertPresetToSearchCriteria`: falsy optional fields become undefined. */
  function CriteriaOf(p: Preset): (c: SearchCriteria)
    ensures c.giftName == p.giftName
    ensures c.model.Some? <==> Truthy(p.model)
    ensures c.background.Some? <==> Truthy(p.background)
    ensures c.pattern.Some? <==> Truthy(p.pattern)
    ensures c.model.Some? ==> c.model == p.model
    ensures c.background.Some? ==> c.background == p.background
    ensures c.pattern.Some? ==> c.pattern == p.pattern
  {
    SearchCriteria(p.giftName, Normalize(p.model), Normalize(p.background), Normalize(p.pattern))
  }

  datatype Searched = Searched(service: Service, result: Result<SearchResult, Failure>)

  /** `searchGifts`: refuses before `initialize`, otherwise one retried search. */
  function SearchGifts(s: Service, c: SearchCriteria, world: nat -> Attempt, clock: int): (o: Searched)
    ensures !s.initialized ==> o == Searched(s, Err(Failure(NotInitialized, None, None)))
    ensures s.initialized ==> o.result == SearchGiftsWithRetry(s.parser, s.retryAttempts, c, world, clock).result
    ensures o.service.initialized == s.initialized && o.service.retryAttempts == s.retryAttempts
    ensures o.service.parser.browserOpen == s.parser.browserOpen
    ensures Balanced(s.parser.stats) ==> Balanced(o.service.parser.stats)
  {
    if !s.initialized then Searched(s, Err(Failure(NotInitialized, None, None)))
    else
      var o := SearchGiftsWithRetry(s.parser, s.retryAttempts, c, world, clock);
      Searched(s.(parser := o.parser), o.result)
  }

  /** `getLastGiftLink`: the same guard, then one link lookup. */
  function GetLastGiftLink(s: Service, preset: Preset, a: Attempt, clock: int): (o: (Service, Result<Option<string>, Failure>))
    ensures !s.initialized ==> o == (s, Err(Failure(NotInitialized, None, None)))
    ensures s.initialized ==> o.1 == PeekParser.GetLastGiftLink(s.parser, CriteriaOf(preset), a, clock).result
    ensures o.0.initialized == s.initialized && o.0.retryAttempts == s.retryAttempts
    ensures o.0.parser.browserOpen == s.parser.browserOpen
  {
    if !s.initialized then (s, Err(Failure(NotInitialized, None, None)))
    else
      var step := PeekParser.GetLastGiftLink(s.parser, CriteriaOf(preset), a, clock);
      (s.(parser := step.parser), step.result)
  }

  // ------------------------------------------------------------ reliability

  /** The reasons `isResultReliable` has for distrusting a read. */
  datatype Doubt = ZeroWithItems | PositiveWithoutItems | ImplausibleJump | OutOfRange

  /** Every doubt that applies to a read, judged independently. JavaScript
      comparisons with NaN are false, so a NaN count raises none. */
  function Doubts(previousCount: int, r: SearchResult): set<Doubt> {
    var n := r.count;
    (if n == Finite(0) && |r.items| > 0 then {ZeroWithItems} else {})
    + (if n.Finite? && n.value > 0 && |r.items| == 0 then {PositiveWithoutItems} else {})
    + (if previousCount > 0 && n.Finite? && n.value >= previousCount * 100 then {ImplausibleJump} else {})
    + (if n.Finite? && (n.value < 0 || n.value > MaxReasonable) then {OutOfRange} else {})
  }

  /** `isResultReliable`: the rejections are tried in order and the first
      that applies answers false. */
  function IsResultReliable(previousCount: int, r: SearchResult): (ok: bool)
    ensures ok <==> Doubts(previousCount, r) == {}
    ensures ok && r.count.Finite? ==> 0 <= r.count.value <= MaxReasonable
    ensures ok && r.count.Finite? && r.count.value > 0 ==> |r.items| > 0
    ensures r.count.NaN? ==> ok
    ensures r.count == Finite(0) && |r.items| == 0 ==> ok
  {
    var n := r.count;
    if n == Finite(0) && |r.items| > 0 then
      assert ZeroWithItems in Doubts(previousCount, r);
      false
    else if n.Finite? && n.value > 0 && |r.items| == 0 then
      assert PositiveWithoutItems in Doubts(previousCount, r);
      false
    else if previousCount > 0 && n.Finite? && n.value >= previousCount * 100 then
      assert ImplausibleJump in Doubts(previousCount, r);
      false
    else if n.Finite? && (n.value < 0 || n.value > MaxReasonable) then
      assert OutOfRange in Doubts(previousCount, r);
      false
    else true
  }

  /** The outcome of `confirmChangeWithSecondRead`. */
  datatype Confirmation = Confirmation(confirmed: bool, secondCount: Option<JsNumber>)

  /** `Math.abs(b - a) <= 1` on JavaScript numbers. */
  predicate WithinOne(a: JsNumber, b: JsNumber) {
    match (a, b)
    case (Finite(x), Finite(y)) => (if y >= x then y - x else x - y) <= 1
    case _ => false
  }

  /** The second read confirms the first when it succeeds and lands within
      one of it; a failing second read is simply unconfirmed. */
  function Confirm(first: JsNumber, second: Result<SearchResult, Failure>): (c: Confirmation)
    ensures c.confirmed <==> (second.Ok? && first.Finite? && second.value.count.Finite?
      && first.value - 1 <= second.value.count.value <= first.value + 1)
    ensures c.secondCount.Some? <==> second.Ok?
    ensures second.Ok? ==> c.secondCount == Some(second.value.count)
  {
    match second
    case Err(_) => Confirmation(false, None)
    case Ok(res) => Confirmation(WithinOne(first, res.count), Some(res.count))
  }

  // -------------------------------------------------------- change detection

  /** `lastHistory?.count ?? 0`. */
  function Baseline(db: Db, presetId: int): (n: int)
    ensures (forall h :: h in db.history ==> h.presetId != presetId) ==> n == 0
    ensures (exists h :: h in db.history && h.presetId == presetId) ==>
      exists h :: h in db.history && h.presetId == presetId && h.count == n
        && (forall g :: g in db.history && g.presetId == presetId ==> g.checkedAt <= h.checkedAt)
  {
    match HistoryModel.GetLatestByPresetId(db, presetId)
    case None => 0
    case Some(h) => h.count
  }

  /** What `checkPresetChanges` returns for one preset. */
  datatype Change = Change(hasChanged: bool, oldCount: int, newCount: JsNumber, result: SearchResult)

  datatype Checked = Checked(db: Db, service: Service, result: Result<Change, Failure>)

  /** Writes the accepted reading: one history row, whose insert may still
      fail on the foreign key. */
  function Record(db: Db, s: Service, preset: Preset, oldCount: int, res: SearchResult, count: int, hasChanged: bool, now: int): (r: Checked)
    requires Valid(db)
    ensures r.service == s && Valid(r.db) && r.db.presets == db.presets
    ensures r.result.Ok? <==> HasPreset(db, preset.id)
    ensures r.result.Err? ==> r.db == db && r.result.error.message == HistoryModel.ForeignKeyFailed
    ensures r.result.Ok? ==> r.result.value == Change(hasChanged, oldCount, Finite(count), res)
    ensures r.result.Ok? ==> |r.db.history| == |db.history| + 1 && r.db.history[..|db.history|] == db.history
    ensures r.result.Ok? ==> var h := r.db.history[|db.history|];
      h.presetId == preset.id && h.count == count && h.hasChanged == hasChanged && h.checkedAt == now
  {
    match HistoryModel.Create(db, preset.id, count, now, hasChanged)
    case Err(m) => Checked(db, s, Err(Failure(m, None, None)))
    case Ok(logged) =>
      assert logged.db.history[..|db.history|] == db.history;
      Checked(logged.db, s, Ok(Change(hasChanged, oldCount, Finite(count), res)))
  }

  /** The reads a check may make: the first and, when needed, the confirming one. */
  datatype Reads = Reads(first: nat -> Attempt, second: nat -> Attempt)

  /** Whether the first read is the one the history takes: it is plausible
      and either matches the baseline or is confirmed by the second read. */
  predicate Accepts(baseline: int, res: SearchResult, second: Result<SearchResult, Failure>) {
    IsResultReliable(baseline, res) && (res.count == Finite(baseline) || Confirm(res.count, second).confirmed)
  }

  /** `checkPresetChanges`. */
  function CheckPresetChanges(db: Db, s: Service, preset: Preset, script: Reads, clock: int, now: int): (r: Checked)
    requires Valid(db)
    ensures Valid(r.db) && r.db.presets == db.presets
    ensures r.service.initialized == s.initialized && r.service.retryAttempts == s.retryAttempts
    ensures Balanced(s.parser.stats) ==> Balanced(r.service.parser.stats)
    ensures r.result.Ok? ==> r.result.value.oldCount == Baseline(db, preset.id)
    ensures r.result.Ok? ==> r.result.value.newCount.Finite?
    ensures r.result.Ok? ==> (r.result.value.hasChanged <==> r.result.value.newCount != Finite(r.result.value.oldCount))
    ensures r.db.history == db.history || (|r.db.history| == |db.history| + 1 && r.db.history[..|db.history|] == db.history)
    ensures r.db.history != db.history ==>
      (var h := r.db.history[|db.history|];
       r.result.Ok? && h.presetId == preset.id && Finite(h.count) == r.result.value.newCount
       && h.hasChanged == r.result.value.hasChanged && h.checkedAt == now)
    ensures r.db.history == db.history ==> r.db == db
    ensures r.db.history == db.history && r.result.Ok? ==>
      !r.result.value.hasChanged && r.result.value.newCount == Finite(r.result.value.oldCount)
    ensures r.result.Err? ==> r.db == db
  {
    var baseline := Baseline(db, preset.id);
    var c := CriteriaOf(preset);
    var read := SearchGifts(s, c, script.first, clock);
    match read.result
    case Err(e) => Checked(db, read.service, Err(e))
    case Ok(res) =>
      if !IsResultReliable(baseline, res) then Checked(db, read.service, Ok(Change(false, baseline, Finite(baseline), res)))
      else if res.count == Finite(baseline) then Record(db, read.service, preset, baseline, res, baseline, false, now)
      else
        var confirm := SearchGifts(read.service, c, script.second, clock);
        if !Confirm(res.count, confirm.result).confirmed then
          Checked(db, confirm.service, Ok(Change(false, baseline, Finite(baseline), res)))
        else Record(db, confirm.service, preset, baseline, res, res.count.value, true, now)
  }

  /** The three outcomes of a successful first read: an implausible read or
      an unconfirmed change leaves the history alone and reports the
      baseline unchanged; an accepted read is written once, with the first
      read's count (not the confirming one), and no second read is made
      when the count equals the baseline. */
  lemma CheckPresetChangesPaths(db: Db, s: Service, preset: Preset, script: Reads, clock: int, now: int)
    requires Valid(db)
    ensures var baseline := Baseline(db, preset.id);
      var read := SearchGifts(s, CriteriaOf(preset), script.first, clock);
      var r := CheckPresetChanges(db, s, preset, script, clock, now);
      && (read.result.Err? ==> r == Checked(db, read.service, Err(read.result.error)))
      && (read.result.Ok? && !IsResultReliable(baseline, read.result.value) ==>
            r == Checked(db, read.service, Ok(Change(false, baseline, Finite(baseline), read.result.value))))
      && (read.result.Ok? && IsResultReliable(baseline, read.result.value) && read.result.value.count == Finite(baseline) ==>
            r.service == read.service && (r.result.Ok? ==> !r.result.value.hasChanged && r.db.history != db.history))
      && (read.result.Ok? && read.result.value.count != Finite(baseline) ==>
            var confirm := SearchGifts(read.service, CriteriaOf(preset), script.second, clock);
            (Accepts(baseline, read.result.value, confirm.result) && r.result.Ok? ==> (r.db.history != db.history
              && r.result.value.newCount == read.result.value.count && r.result.value.hasChanged))
            && (!Accepts(baseline, read.result.value, confirm.result) ==> (r.db == db && r.result.Ok?
              && r.result.value == Change(false, baseline, Finite(baseline), read.result.value))))
  {
  }

  /** A history row is written exactly when the first read is accepted and
      the preset exists. */
  lemma WritesIffAccepted(db: Db, s: Service, preset: Preset, script: Reads, clock: int, now: int)
    requires Valid(db)
    ensures var baseline := Baseline(db, preset.id);
      var read := SearchGifts(s, CriteriaOf(preset), script.first, clock);
      var confirm := SearchGifts(read.service, CriteriaOf(preset), script.second, clock);
      var r := CheckPresetChanges(db, s, preset, script, clock, now);
      r.db.history != db.history <==>
        read.result.Ok? && Accepts(baseline, read.result.value, confirm.result) && HasPreset(db, preset.id)
  {
    var baseline := Baseline(db, preset.id);
    var c := CriteriaOf(preset);
    var read := SearchGifts(s, c, script.first, clock);
    var r := CheckPresetChanges(db, s, preset, script, clock, now);
    if read.result.Ok? && IsResultReliable(baseline, read.result.value) {
      var res := read.result.value;
      if res.count == Finite(baseline) {
        assert r == Record(db, read.service, preset, baseline, res, baseline, false, now);
      } else {
        var confirm := SearchGifts(read.service, c, script.second, clock);
        if Confirm(res.count, confirm.result).confirmed {
          assert r == Record(db, confirm.service, preset, baseline, res, res.count.value, true, now);
        }
      }
    }
  }

  /** Before `initialize` a check fails with the guard's message and touches nothing. */
  lemma CheckNeedsInitialize(db: Db, s: Service, preset: Preset, script: Reads, clock: int, now: int)
    requires Valid(db) && !s.initialized
    ensures CheckPresetChanges(db, s, preset, script, clock, now) == Checked(db, s, Err(Failure(NotInitialized, None, None)))
  {
  }

  /** After any successful check the preset's baseline is the `newCount` it
      reported, provided the check's clock is later than every earlier row
      of the preset: an accepted read becomes the latest row, and a rejected
      one leaves the old baseline, which is what it reports. */
  lemma BaselineFollowsCheck(db: Db, s: Service, preset: Preset, script: Reads, clock: int, now: int)
    requires Valid(db)
    requires forall h :: h in db.history && h.presetId == preset.id ==> h.checkedAt < now
    ensures var r := CheckPresetChanges(db, s, preset, script, clock, now);
      r.result.Ok? ==> Finite(Baseline(r.db, preset.id)) == r.result.value.newCount
  {
    var r := CheckPresetChanges(db, s, preset, script, clock, now);
    if r.result.Ok? && r.db.history != db.history {
      LatestAfterAppend(db.history, r.db, preset.id, now);
    }
  }

  /** A row appended later than every earlier row of its preset becomes that
      preset's latest row. */
  lemma LatestAfterAppend(before: seq<HistoryRecord>, db: Db, presetId: int, now: int)
    requires |db.history| == |before| + 1 && db.history[..|before|] == before
    requires db.history[|before|].presetId == presetId && db.history[|before|].checkedAt == now
    requires forall h :: h in before && h.presetId == presetId ==> h.checkedAt < now
    ensures Baseline(db, presetId) == db.history[|before|].count
  {
    var h := db.history[|before|];
    assert h in db.history;
    forall g | g in db.history && g.presetId == presetId && g != h
      ensures g.checkedAt < now
    {
      var i :| 0 <= i < |db.history| && db.history[i] == g;
      assert i < |before|;
      assert before[i] == g;
    }
    var latest := HistoryModel.GetLatestByPresetId(db, presetId);
    assert latest.Some? && latest.value.checkedAt >= h.checkedAt;
  }

  // ------------------------------------------------------------------ batches

  /** A batch entry: the preset together with what its check returned. */
  datatype Entry<T> = Entry(preset: Preset, value: T)

  /** Positions of the successful outcomes, in increasing order. */
  function OkPositions<T, E>(outcomes: seq<Result<T, E>>): (r: seq<nat>)
    ensures forall j :: 0 <= j < |r| ==> r[j] < |outcomes| && outcomes[r[j]].Ok?
    ensures forall k :: 0 <= k < |outcomes| && outcomes[k].Ok? ==> k in r
    ensures forall i, j :: 0 <= i < j < |r| ==> r[i] < r[j]
    ensures (forall k :: 0 <= k < |outcomes| ==> outcomes[k].Err?) ==> r == []
  {
    if |outcomes| == 0 then []
    else
      var rest := OkPositions(outcomes[..|outcomes| - 1]);
      if outcomes[|outcomes| - 1].Ok? then rest + [|outcomes| - 1] else rest
  }

  /** The entries a batch keeps: the presets whose step succeeded, in input
      order; the ones that failed are left out. */
  function Kept<T, E>(presets: seq<Preset>, outcomes: seq<Result<T, E>>): (r: seq<Entry<T>>)
    requires |outcomes| == |presets|
    ensures |r| == |OkPositions(outcomes)|
    ensures forall j :: 0 <= j < |r| ==>
      var k := OkPositions(outcomes)[j];
      r[j] == Entry(presets[k], outcomes[k].value)
  {
    var idx := OkPositions(outcomes);
    seq(|idx|, j requires 0 <= j < |idx| => Entry(presets[idx[j]], outcomes[idx[j]].value))
  }

  /** Each preset is checked with its own script, `script(from + k)` for the k-th. */
  datatype Batch<T> = Batch(db: Db, service: Service, outcomes: seq<Result<T, Failure>>)

  function CheckEach(db: Db, s: Service, presets: seq<Preset>, script: nat -> Reads, from: nat, clock: int, now: int): (b: Batch<Change>)
    requires Valid(db)
    ensures |b.outcomes| == |presets|
    ensures Valid(b.db) && b.db.presets == db.presets
    ensures b.service.initialized == s.initialized && b.service.retryAttempts == s.retryAttempts
    ensures Balanced(s.parser.stats) ==> Balanced(b.service.parser.stats)
    ensures |presets| > 0 ==> b.outcomes[0] == CheckPresetChanges(db, s, presets[0], script(from), clock, now).result
    ensures forall k :: 0 <= k < |presets| && b.outcomes[k].Ok? ==>
      b.outcomes[k].value.newCount.Finite?
      && (b.outcomes[k].value.hasChanged <==> b.outcomes[k].value.newCount != Finite(b.outcomes[k].value.oldCount))
    decreases |presets|
  {
    if |presets| == 0 then Batch(db, s, [])
    else
      var first := CheckPresetChanges(db, s, presets[0], script(from), clock, now);
      var rest := CheckEach(first.db, first.service, presets[1..], script, from + 1, clock, now);
      Batch(rest.db, rest.service, [first.result] + rest.outcomes)
  }

  datatype Checks = Checks(db: Db, service: Service, result: Result<seq<Entry<Change>>, Failure>)

  /** `checkAllPresetChanges`: the guard, then every active preset in the
      order `getAllActive` lists them; a preset whose check throws is left
      out and the rest are still checked. */
  function CheckAllPresetChanges(db: Db, s: Service, script: nat -> Reads, clock: int, now: int): (r: Checks)
    requires Valid(db)
    ensures !s.initialized ==> r == Checks(db, s, Err(Failure(NotInitialized, None, None)))
    ensures s.initialized ==> r.result.Ok?
    ensures Valid(r.db) && r.db.presets == db.presets
    ensures r.service.initialized == s.initialized
    ensures r.result.Ok? ==>
      var active := PresetModel.GetAllActive(db);
      var b := CheckEach(db, s, active, script, 0, clock, now);
      r.result.value == Kept(active, b.outcomes)
    ensures r.result.Ok? ==> forall e :: e in r.result.value ==> e.preset in db.presets && e.preset.isActive
  {
    if !s.initialized then Checks(db, s, Err(Failure(NotInitialized, None, None)))
    else
      var active := PresetModel.GetAllActive(db);
      var b := CheckEach(db, s, active, script, 0, clock, now);
      var kept := Kept(active, b.outcomes);
      assert forall e :: e in kept ==> e.preset in active by {
        forall e | e in kept ensures e.preset in active {
          var j :| 0 <= j < |kept| && kept[j] == e;
          assert active[OkPositions(b.outcomes)[j]] == e.preset;
        }
      }
      Checks(b.db, b.service, Ok(kept))
  }

  function SearchEach(s: Service, presets: seq<Preset>, worlds: nat -> (nat -> Attempt), from: nat, clock: int): (b: (Service, seq<Result<SearchResult, Failure>>))
    ensures |b.1| == |presets|
    ensures b.0.initialized == s.initialized && b.0.retryAttempts == s.retryAttempts
    ensures Balanced(s.parser.stats) ==> Balanced(b.0.parser.stats)
    ensures |presets| > 0 ==> b.1[0] == SearchGifts(s, CriteriaOf(presets[0]), worlds(from), clock).result
    decreases |presets|
  {
    if |presets| == 0 then (s, [])
    else
      var first := SearchGifts(s, CriteriaOf(presets[0]), worlds(from), clock);
      var rest := SearchEach(first.service, presets[1..], worlds, from + 1, clock);
      (rest.0, [first.result] + rest.1)
  }

  /** `searchAllActivePresets`: the guard, then one retried search per
      active preset; presets whose search throws are left out. */
  function SearchAllActivePresets(db: Db, s: Service, worlds: nat -> (nat -> Attempt), clock: int): (r: (Service, Result<seq<Entry<SearchResult>>, Failure>))
    ensures !s.initialized ==> r == (s, Err(Failure(NotInitialized, None, None)))
    ensures s.initialized ==> r.1.Ok?
    ensures r.1.Ok? ==>
      var active := PresetModel.GetAllActive(db);
      r.1.value == Kept(active, SearchEach(s, active, worlds, 0, clock).1)
  {
    if !s.initialized then (s, Err(Failure(NotInitialized, None, None)))
    else
      var active := PresetModel.GetAllActive(db);
      var b := SearchEach(s, active, worlds, 0, clock);
      (b.0, Ok(Kept(active, b.1)))
  }

  /** A batch whose every step fails reports nothing; one whose every step
      succeeds reports every preset, in order. */
  lemma KeptExtremes<T, E>(presets: seq<Preset>, outcomes: seq<Result<T, E>>)
    requires |outcomes| == |presets|
    ensures (forall k :: 0 <= k < |outcomes| ==> outcomes[k].Err?) ==> Kept(presets, outcomes) == []
    ensures (forall k :: 0 <= k < |outcomes| ==> outcomes[k].Ok?) ==>
      |Kept(presets, outcomes)| == |presets|
      && forall k :: 0 <= k < |presets| ==> Kept(presets, outcomes)[k].preset == presets[k]
  {
    if forall k :: 0 <= k < |outcomes| ==> outcomes[k].Ok? {
      AllPositions(outcomes);
    }
  }

  /** When every outcome succeeds, the positions are exactly 0, 1, 2, …. */
  lemma {:induction false} AllPositions<T, E>(outcomes: seq<Result<T, E>>)
    requires forall k :: 0 <= k < |outcomes| ==> outcomes[k].Ok?
    ensures |OkPositions(outcomes)| == |outcomes|
    ensures forall k :: 0 <= k < |outcomes| ==> OkPositions(outcomes)[k] == k
    decreases |outcomes|
  {
    if |outcomes| > 0 {
      AllPositions(outcomes[..|outcomes| - 1]);
    }
  }
}

=== FILE: preset_model.dfy ===
/** `PresetModel`: the queries and updates of the `presets` table, including
    the cascade of a preset's deletion into its monitoring history. */
module PresetModel {
  import opened Common
  import opened Js
  import opened Ordering
  import opened Database

  /** `CreatePresetData`; `isActive` None stands for the omitted field. */
  datatype CreateData = CreateData(
    userId: int,
    giftName: string,
    model: Option<string>,
    background: Option<string>,
    pattern: Option<string>,
    isActive: Option<bool>)

  /** `UpdatePresetData`; a None field is `undefined` and is not written. */
  datatype UpdateData = UpdateData(
    giftName: Option<string>,
    model: Option<string>,
    background: Option<string>,
    pattern: Option<string>,
    isActive: Option<bool>)

  /** `PresetSearchCriteria`. */
  datatype Criteria = Criteria(
    giftName: string,
    model: Option<string>,
    background: Option<string>,
    pattern: Option<string>)

  datatype Written = Written(db: Db, preset: Preset)

  function CreatedAtKey(): Preset -> int {
    (p: Preset) => p.createdAt
  }

  function OwnedBy(userId: int): Preset -> bool {
    (p: Preset) => p.userId == userId
  }

  function ActiveOwnedBy(userId: int): Preset -> bool {
    (p: Preset) => p.userId == userId && p.isActive
  }

  function IdIsNot(id: int): Preset -> bool {
    (p: Preset) => p.id != id
  }

  function OfOtherPreset(id: int): HistoryRecord -> bool {
    (h: HistoryRecord) => h.presetId != id
  }

  function IsActive(): Preset -> bool {
    (p: Preset) => p.isActive
  }

  /** The WHERE clause `findByCriteria` builds: the gift name always, each
      optional filter only when the criterion is truthy. */
  function MatchesCriteria(c: Criteria): Preset -> bool {
    (p: Preset) => p.giftName == c.giftName
      && (Truthy(c.model) ==> p.model == c.model)
      && (Truthy(c.background) ==> p.background == c.background)
      && (Truthy(c.pattern) ==> p.pattern == c.pattern)
  }

  function NotFound(id: int): string {
    "Пресет с ID " + IntToString(id) + " не найден"
  }

  /** `getById`: the row with that key, or the "not found" error. */
  function GetById(db: Db, id: int): (r: Result<Preset, string>)
    ensures r.Ok? <==> HasPreset(db, id)
    ensures r.Ok? ==> r.value in db.presets && r.value.id == id
    ensures r.Err? ==> r.error == NotFound(id)
  {
    match FindPreset(db.presets, id)
    case Some(p) => Ok(p)
    case None => Err(NotFound(id))
  }

  /** `create`: falsy optional filters are stored as NULL, `is_active`
      defaults to true, and the new row is what `getById` then reads back. */
  function Create(db: Db, data: CreateData, now: int): (r: Written)
    requires Valid(db)
    ensures Valid(r.db)
    ensures r.db.presets == db.presets + [r.preset] && r.db.history == db.history
    ensures !HasPreset(db, r.preset.id)
    ensures r.preset.userId == data.userId && r.preset.giftName == data.giftName
    ensures Truthy(data.model) ==> r.preset.model == data.model
    ensures !Truthy(data.model) ==> r.preset.model == None
    ensures Truthy(data.background) ==> r.preset.background == data.background
    ensures !Truthy(data.background) ==> r.preset.background == None
    ensures Truthy(data.pattern) ==> r.preset.pattern == data.pattern
    ensures !Truthy(data.pattern) ==> r.preset.pattern == None
    ensures r.preset.isActive <==> (data.isActive.None? || data.isActive.value)
    ensures GetById(r.db, r.preset.id) == Ok(r.preset)
  {
    var p := Preset(db.nextPresetId, data.userId, data.giftName,
                    Normalize(data.model), Normalize(data.background), Normalize(data.pattern),
                    data.isActive.GetOr(true), now, now);
    var db' := db.(presets := db.presets + [p], nextPresetId := db.nextPresetId + 1);
    AppendPresetValid(db, p);
    assert p in db'.presets;
    FindPresetUnique(db', p);
    Written(db', p)
  }

  predicate NoFields(d: UpdateData) {
    d.giftName.None? && d.model.None? && d.background.None? && d.pattern.None? && d.isActive.None?
  }

  /** The row after the SET clause of `update`. */
  function Apply(p: Preset, d: UpdateData, now: int): Preset {
    p.(giftName := d.giftName.GetOr(p.giftName),
       model := if d.model.Some? then d.model else p.model,
       background := if d.background.Some? then d.background else p.background,
       pattern := if d.pattern.Some? then d.pattern else p.pattern,
       isActive := d.isActive.GetOr(p.isActive),
       updatedAt := now)
  }

  /** `UPDATE presets SET ... WHERE id = ?` over the table. */
  function UpdateRows(ps: seq<Preset>, id: int, d: UpdateData, now: int): (r: seq<Preset>)
    ensures |r| == |ps|
    ensures forall i :: 0 <= i < |ps| ==> r[i].id == ps[i].id
    ensures forall i :: 0 <= i < |ps| && ps[i].id != id ==> r[i] == ps[i]
    ensures forall i :: 0 <= i < |ps| && ps[i].id == id ==> r[i] == Apply(ps[i], d, now)
  {
    seq(|ps|, i requires 0 <= i < |ps| => if ps[i].id == id then Apply(ps[i], d, now) else ps[i])
  }

  /** `update`: writes exactly the fields that are not `undefined` (and
      `updated_at`); with no field it writes nothing and returns the row. */
  function Update(db: Db, id: int, d: UpdateData, now: int): (r: Result<Written, string>)
    requires Valid(db)
    ensures r.Ok? <==> HasPreset(db, id)
    ensures r.Err? ==> r.error == NotFound(id)
    ensures r.Ok? ==> Valid(r.value.db) && r.value.db.history == db.history
    ensures r.Ok? ==> r.value.preset.id == id && r.value.preset in r.value.db.presets
    ensures r.Ok? && NoFields(d) ==> r.value.db == db
    ensures r.Ok? ==>
      var prev := FindPreset(db.presets, id).value;
      var p := r.value.preset;
      && p.userId == prev.userId && p.createdAt == prev.createdAt
      && (d.giftName.Some? ==> p.giftName == d.giftName.value)
      && (d.giftName.None? ==> p.giftName == prev.giftName)
      && (d.model.Some? ==> p.model == d.model)
      && (d.model.None? ==> p.model == prev.model)
      && (d.background.Some? ==> p.background == d.background)
      && (d.background.None? ==> p.background == prev.background)
      && (d.pattern.Some? ==> p.pattern == d.pattern)
      && (d.pattern.None? ==> p.pattern == prev.pattern)
      && (d.isActive.Some? ==> p.isActive == d.isActive.value)
      && (d.isActive.None? ==> p.isActive == prev.isActive)
      && (NoFields(d) ==> p == prev)
      && (!NoFields(d) ==> p.updatedAt == now)
    ensures r.Ok? ==> |r.value.db.presets| == |db.presets|
    ensures r.Ok? ==> forall q :: q in db.presets && q.id != id ==> q in r.value.db.presets
  {
    if NoFields(d) then
      match GetById(db, id)
      case Ok(p) => Ok(Written(db, p))
      case Err(e) => Err(e)
    else
      var ps := UpdateRows(db.presets, id, d, now);
      var db' := db.(presets := ps);
      SameKeysValid(db, ps);
      match FindPreset(db.presets, id)
      case None => Err(NotFound(id))
      case Some(prev) =>
        UpdatedRow(db.presets, id, d, now, prev);
        Ok(Written(db', Apply(prev, d, now)))
  }

  /** The rewritten table holds the updated row and every other row as it was. */
  lemma UpdatedRow(presets: seq<Preset>, id: int, d: UpdateData, now: int, prev: Preset)
    requires prev in presets && prev.id == id
    ensures var ps := UpdateRows(presets, id, d, now);
      && Apply(prev, d, now) in ps
      && forall q :: q in presets && q.id != id ==> q in ps
  {
    var ps := UpdateRows(presets, id, d, now);
    var i :| 0 <= i < |presets| && presets[i] == prev;
    assert ps[i] == Apply(prev, d, now);
    forall q | q in presets && q.id != id
      ensures q in ps
    {
      var j :| 0 <= j < |presets| && presets[j] == q;
      assert ps[j] == q;
    }
  }

  /** `toggleActive`: reads the row, then updates `is_active` to its negation. */
  function ToggleActive(db: Db, id: int, now: int): (r: Result<Written, string>)
    requires Valid(db)
    ensures r.Ok? <==> HasPreset(db, id)
    ensures r.Ok? ==> Valid(r.value.db)
    ensures r.Ok? ==> r.value.preset.isActive == !FindPreset(db.presets, id).value.isActive
  {
    match GetById(db, id)
    case Err(e) => Err(e)
    case Ok(p) => Update(db, id, UpdateData(None, None, None, None, Some(!p.isActive)), now)
  }

  /** Toggling twice restores the activity flag and every user-visible field. */
  lemma ToggleTwiceRestores(db: Db, id: int, now1: int, now2: int)
    requires Valid(db) && HasPreset(db, id)
    ensures
      var once := ToggleActive(db, id, now1);
      once.Ok? &&
      var twice := ToggleActive(once.value.db, id, now2);
      var p := FindPreset(db.presets, id).value;
      && twice.Ok?
      && twice.value.preset == p.(updatedAt := now2)
  {
    var once := ToggleActive(db, id, now1);
    var p := FindPreset(db.presets, id).value;
    FindPresetUnique(once.value.db, once.value.preset);
  }

  /** `getByUserId`: that user's presets, newest first. */
  function GetByUserId(db: Db, userId: int): (r: seq<Preset>)
    ensures SortedDesc(r, CreatedAtKey())
    ensures multiset(r) == multiset(Filter(db.presets, OwnedBy(userId)))
    ensures forall p :: p in r <==> p in db.presets && p.userId == userId
  {
    var r := SortDesc(Filter(db.presets, OwnedBy(userId)), CreatedAtKey());
    assert forall p :: p in r <==> p in Filter(db.presets, OwnedBy(userId)) by {
      forall p ensures p in r <==> p in Filter(db.presets, OwnedBy(userId)) {
        assert p in r <==> p in multiset(r);
      }
    }
    r
  }

  /** `getActiveByUserId`: that user's active presets, newest first. */
  function GetActiveByUserId(db: Db, userId: int): (r: seq<Preset>)
    ensures SortedDesc(r, CreatedAtKey())
    ensures multiset(r) == multiset(Filter(db.presets, ActiveOwnedBy(userId)))
    ensures forall p :: p in r <==> p in db.presets && p.userId == userId && p.isActive
  {
    var r := SortDesc(Filter(db.presets, ActiveOwnedBy(userId)), CreatedAtKey());
    assert forall p :: p in r <==> p in Filter(db.presets, ActiveOwnedBy(userId)) by {
      forall p ensures p in r <==> p in Filter(db.presets, ActiveOwnedBy(userId)) {
        assert p in r <==> p in multiset(r);
      }
    }
    r
  }

  /** The active presets among a user's presets are, as a multiset, the
      ones `getActiveByUserId` returns. */
  lemma ActiveAmongOwned(db: Db, userId: int)
    ensures multiset(Filter(GetByUserId(db, userId), IsActive())) == multiset(GetActiveByUserId(db, userId))
    ensures |Filter(GetByUserId(db, userId), IsActive())| == |GetActiveByUserId(db, userId)|
  {
    var owned := GetByUserId(db, userId);
    var a := Filter(owned, IsActive());
    var b := GetActiveByUserId(db, userId);
    FilterCounts(owned, IsActive());
    FilterCounts(db.presets, OwnedBy(userId));
    FilterCounts(db.presets, ActiveOwnedBy(userId));
    assert multiset(a) == multiset(b) by {
      forall x ensures multiset(a)[x] == multiset(b)[x] {
        assert multiset(owned)[x] == multiset(Filter(db.presets, OwnedBy(userId)))[x];
        assert multiset(b)[x] == multiset(Filter(db.presets, ActiveOwnedBy(userId)))[x];
      }
    }
    assert |multiset(a)| == |a| && |multiset(b)| == |b|;
  }

  /** `getAllActive`: every active preset, newest first. */
  function GetAllActive(db: Db): (r: seq<Preset>)
    ensures SortedDesc(r, CreatedAtKey())
    ensures multiset(r) == multiset(Filter(db.presets, IsActive()))
    ensures forall p :: p in r <==> p in db.presets && p.isActive
  {
    var r := SortDesc(Filter(db.presets, IsActive()), CreatedAtKey());
    assert forall p :: p in r <==> p in Filter(db.presets, IsActive()) by {
      forall p ensures p in r <==> p in Filter(db.presets, IsActive()) {
        assert p in r <==> p in multiset(r);
      }
    }
    r
  }

  /** `findByCriteria`: the presets matching the criteria's WHERE clause, newest first. */
  function FindByCriteria(db: Db, c: Criteria): (r: seq<Preset>)
    ensures SortedDesc(r, CreatedAtKey())
    ensures multiset(r) == multiset(Filter(db.presets, MatchesCriteria(c)))
    ensures forall p :: p in r <==>
      && p in db.presets
      && p.giftName == c.giftName
      && (Truthy(c.model) ==> p.model == c.model)
      && (Truthy(c.background) ==> p.background == c.background)
      && (Truthy(c.pattern) ==> p.pattern == c.pattern)
  {
    var r := SortDesc(Filter(db.presets, MatchesCriteria(c)), CreatedAtKey());
    assert forall p :: p in r <==> p in Filter(db.presets, MatchesCriteria(c)) by {
      forall p ensures p in r <==> p in Filter(db.presets, MatchesCriteria(c)) {
        assert p in r <==> p in multiset(r);
      }
    }
    r
  }

  /** `SELECT COUNT(*) ... WHERE user_id = ?`, counted row by row. */
  function CountRows(ps: seq<Preset>, userId: int): nat {
    if |ps| == 0 then 0
    else CountRows(ps[..|ps| - 1], userId) + (if ps[|ps| - 1].userId == userId then 1 else 0)
  }

  lemma {:induction false} CountRowsIsCountWhere(ps: seq<Preset>, userId: int)
    ensures CountRows(ps, userId) == CountWhere(ps, OwnedBy(userId))
    decreases |ps|
  {
    if |ps| > 0 {
      CountRowsIsCountWhere(ps[..|ps| - 1], userId);
    }
  }

  /** `countByUserId` agrees with the size of `getByUserId`. */
  function CountByUserId(db: Db, userId: int): (n: nat)
    ensures n == |GetByUserId(db, userId)|
  {
    CountRowsIsCountWhere(db.presets, userId);
    CountRows(db.presets, userId)
  }

  /** The tables after `DELETE FROM presets WHERE id = ?` and its cascade. */
  function Remove(db: Db, id: int): Db {
    db.(presets := Filter(db.presets, IdIsNot(id)), history := Filter(db.history, OfOtherPreset(id)))
  }

  lemma RemoveValid(db: Db, id: int)
    requires Valid(db)
    ensures Valid(Remove(db, id))
  {
    var r := Remove(db, id);
    FilterKeepsIncreasing(db.presets, IdIsNot(id), PresetKey());
    FilterKeepsIncreasing(db.history, OfOtherPreset(id), RecordKey());
    forall i | 0 <= i < |r.presets|
      ensures 1 <= r.presets[i].id < r.nextPresetId
    {
      assert r.presets[i] in db.presets;
    }
    forall i | 0 <= i < |r.history|
      ensures 1 <= r.history[i].id < r.nextHistoryId
    {
      assert r.history[i] in db.history;
    }
    forall h | h in r.history
      ensures HasPreset(r, h.presetId)
    {
      assert h in db.history && h.presetId != id;
      var q :| q in db.presets && q.id == h.presetId;
      assert IdIsNot(id)(q);
      assert q in r.presets;
    }
  }

  /** `delete`: removes the row; the foreign key's ON DELETE CASCADE removes
      its history rows as well. Deleting a missing id changes nothing. */
  function Delete(db: Db, id: int): (r: Db)
    requires Valid(db)
    ensures Valid(r)
    ensures !HasPreset(r, id)
    ensures forall p :: p in r.presets <==> p in db.presets && p.id != id
    ensures forall h :: h in r.history <==> h in db.history && h.presetId != id
    ensures !HasPreset(db, id) ==> r == db
  {
    RemoveValid(db, id);
    if !HasPreset(db, id) then
      FilterAll(db.presets, IdIsNot(id));
      FilterAll(db.history, OfOtherPreset(id));
      db
    else Remove(db, id)
  }
}

=== FILE: sessions.dfy ===
/** The chat front end's per-user conversation store (`SessionManager`): a
    JavaScript `Map` from user id to session, kept here as a map plus the
    insertion order a `Map` iterates in. The clock is an integer number of
    milliseconds passed to every call that stamps `lastActivity`. */
module Sessions {
  import opened Common

  /** `UserState`: where a user is in the chat's dialogues. */
  datatype UserState =
    | Idle | AddingPresetGift | AddingPresetModel | AddingPresetBackground
    | AddingPresetPattern | EditingPreset | ViewingPresets | Settings

  /** A value kept in a session's data record: the wizard stores trimmed
      strings, and `null` for a skipped filter. */
  datatype Value = Null | Str(s: string)

  datatype Session = Session(userId: int, state: UserState, data: map<string, Value>, lastActivity: int)

  /** The session map and the order in which its keys were first inserted. */
  datatype Store = Store(order: seq<int>, sessions: map<int, Session>)

  /** The order lists every key exactly once, and each session is filed under
      its own user id. */
  ghost predicate Valid(st: Store) {
    && (forall i, j :: 0 <= i < j < |st.order| ==> st.order[i] != st.order[j])
    && (forall u :: u in st.order <==> u in st.sessions)
    && (forall u :: u in st.sessions ==> st.sessions[u].userId == u)
  }

  const Empty := Store([], map[])

  lemma EmptyValid()
    ensures Valid(Empty)
  {
  }

  function FreshSession(u: int, now: int): Session {
    Session(u, Idle, map[], now)
  }

  /** `sessions.set(u, s)`: an existing key keeps its place in the order, a
      new one goes last. */
  function Put(st: Store, s: Session): (r: Store)
    requires Valid(st)
    ensures Valid(r)
    ensures r.sessions == st.sessions[s.userId := s]
  {
    var order := if s.userId in st.sessions then st.order else st.order + [s.userId];
    Store(order, st.sessions[s.userId := s])
  }

  /** `getSession`: the user's session, created idle and empty on first use.
      Only a new user makes the store grow, and then by exactly one. */
  function GetSession(st: Store, u: int, now: int): (r: (Store, Session))
    requires Valid(st)
    ensures Valid(r.0)
    ensures u in r.0.sessions && r.1 == r.0.sessions[u] && r.1.userId == u
    ensures u in st.sessions ==> r.0 == st && r.1 == st.sessions[u]
    ensures u !in st.sessions ==>
      r.1 == FreshSession(u, now) && r.0.sessions == st.sessions[u := r.1] && |r.0.sessions| == |st.sessions| + 1
  {
    if u in st.sessions then (st, st.sessions[u])
    else
      var s := FreshSession(u, now);
      assert st.sessions[u := s].Keys == st.sessions.Keys + {u};
      (Put(st, s), s)
  }

  /** Every other user's session is left as it was. */
  ghost predicate OthersUnchanged(st: Store, r: Store, u: int) {
    forall v :: v != u ==>
      (v in r.sessions <==> v in st.sessions) && (v in st.sessions ==> r.sessions[v] == st.sessions[v])
  }

  /** `updateState`: only the state changes (and the activity stamp). */
  function UpdateState(st: Store, u: int, state: UserState, now: int): (r: Store)
    requires Valid(st)
    ensures Valid(r) && u in r.sessions && OthersUnchanged(st, r, u)
    ensures r.sessions[u].state == state && r.sessions[u].lastActivity == now
    ensures r.sessions[u].data == (if u in st.sessions then st.sessions[u].data else map[])
  {
    var (st1, s) := GetSession(st, u, now);
    Put(st1, s.(state := state, lastActivity := now))
  }

  /** `updateData`: `{ ...data, ...patch }`; the patch's keys override and
      every other key is kept. */
  function UpdateData(st: Store, u: int, patch: map<string, Value>, now: int): (r: Store)
    requires Valid(st)
    ensures Valid(r) && u in r.sessions && OthersUnchanged(st, r, u)
    ensures r.sessions[u].state == (if u in st.sessions then st.sessions[u].state else Idle)
    ensures forall k :: k in patch ==> k in r.sessions[u].data && r.sessions[u].data[k] == patch[k]
    ensures u in st.sessions ==> forall k :: k !in patch ==>
      (k in r.sessions[u].data <==> k in st.sessions[u].data)
      && (k in st.sessions[u].data ==> r.sessions[u].data[k] == st.sessions[u].data[k])
    ensures r.sessions[u].data.Keys == patch.Keys + (if u in st.sessions then st.sessions[u].data.Keys else {})
  {
    var (st1, s) := GetSession(st, u, now);
    Put(st1, s.(data := s.data + patch, lastActivity := now))
  }

  /** `clearData`: empties the data and keeps the state. */
  function ClearData(st: Store, u: int, now: int): (r: Store)
    requires Valid(st)
    ensures Valid(r) && u in r.sessions && OthersUnchanged(st, r, u)
    ensures r.sessions[u].data == map[]
    ensures r.sessions[u].state == (if u in st.sessions then st.sessions[u].state else Idle)
  {
    var (st1, s) := GetSession(st, u, now);
    Put(st1, s.(data := map[], lastActivity := now))
  }

  /** `resetSession`: idle with no data, whatever the session held before. */
  function ResetSession(st: Store, u: int, now: int): (r: Store)
    requires Valid(st)
    ensures Valid(r) && OthersUnchanged(st, r, u)
    ensures u in r.sessions && r.sessions[u] == FreshSession(u, now)
  {
    Put(st, FreshSession(u, now))
  }

  /** `getData`: the stored value, or `undefined` (None) when the key is unset. */
  function GetData(st: Store, u: int, key: string, now: int): (r: (Store, Option<Value>))
    requires Valid(st)
    ensures Valid(r.0) && u in r.0.sessions
    ensures u in st.sessions ==> r.0 == st
    ensures r.1.Some? <==> key in r.0.sessions[u].data
    ensures r.1.Some? ==> r.1.value == r.0.sessions[u].data[key]
  {
    var (st1, s) := GetSession(st, u, now);
    (st1, if key in s.data then Some(s.data[key]) else None)
  }

  /** `setData`: writes one key of the user's data. */
  function SetData(st: Store, u: int, key: string, value: Value, now: int): (r: Store)
    requires Valid(st)
    ensures Valid(r) && u in r.sessions && OthersUnchanged(st, r, u)
    ensures r.sessions[u].data == (if u in st.sessions then st.sessions[u].data else map[])[key := value]
    ensures r.sessions[u].state == (if u in st.sessions then st.sessions[u].state else Idle)
  {
    var (st1, s) := GetSession(st, u, now);
    Put(st1, s.(data := s.data[key := value], lastActivity := now))
  }

  /** Reading a key just written gives the value written; other keys read as before. */
  lemma SetThenGet(st: Store, u: int, key: string, value: Value, other: string, now: int, later: int)
    requires Valid(st) && u in st.sessions && other != key
    ensures GetData(SetData(st, u, key, value, now), u, key, later).1 == Some(value)
    ensures GetData(SetData(st, u, key, value, now), u, other, later).1 == GetData(st, u, other, later).1
  {
  }

  /** `isInState`: goes through `getSession`, so a user without a session
      gets a fresh idle one (and is then in state `Idle` only). */
  function IsInState(st: Store, u: int, state: UserState, now: int): (r: (Store, bool))
    requires Valid(st)
    ensures Valid(r.0)
    ensures r.1 <==> (if u in st.sessions then st.sessions[u].state else Idle) == state
    ensures u in st.sessions ==> r.0 == st
    ensures u !in st.sessions ==> r.0.sessions == st.sessions[u := FreshSession(u, now)]
  {
    var (st1, s) := GetSession(st, u, now);
    (st1, s.state == state)
  }

  /** Whether a session has been idle longer than `maxAgeMinutes` minutes
      (strictly). */
  predicate Expired(s: Session, maxAgeMinutes: int, now: int) {
    now - s.lastActivity > maxAgeMinutes * 60 * 1000
  }

  /** `cleanupInactiveSessions`: deletes exactly the expired sessions; the
      survivors keep their order. */
  function CleanupInactiveSessions(st: Store, maxAgeMinutes: int := 60, now: int): (r: Store)
    requires Valid(st)
    ensures Valid(r)
    ensures forall u :: u in r.sessions <==> u in st.sessions && !Expired(st.sessions[u], maxAgeMinutes, now)
    ensures forall u :: u in r.sessions ==> r.sessions[u] == st.sessions[u]
  {
    var keep := map u | u in st.sessions && !Expired(st.sessions[u], maxAgeMinutes, now) :: st.sessions[u];
    var order := KeepOrder(st.order, keep.Keys);
    Store(order, keep)
  }

  /** The keys of `order` that are in `keep`, in order. */
  function KeepOrder(order: seq<int>, keep: set<int>): (r: seq<int>)
    requires forall i, j :: 0 <= i < j < |order| ==> order[i] != order[j]
    ensures forall i, j :: 0 <= i < j < |r| ==> r[i] != r[j]
    ensures forall u :: u in r <==> u in order && u in keep
  {
    if |order| == 0 then []
    else
      var rest := KeepOrder(order[1..], keep);
      assert order[0] !in order[1..];
      if order[0] in keep then [order[0]] + rest else rest
  }

  /** `getActiveSessionsCount`. */
  function ActiveSessionsCount(st: Store): (n: nat)
    ensures n == 0 <==> st.sessions == map[]
  {
    |st.sessions|
  }

  /** `getAllSessions`: the sessions in the map's iteration order. */
  function AllSessions(st: Store): (r: seq<Session>)
    requires Valid(st)
    ensures forall s :: s in r ==> s in st.sessions.Values
    ensures forall u :: u in st.sessions ==> st.sessions[u] in r
  {
    assert forall i :: 0 <= i < |st.order| ==> st.order[i] in st.order;
    var r := seq(|st.order|, i requires 0 <= i < |st.order| => st.sessions[st.order[i]]);
    assert forall u :: u in st.sessions ==> st.sessions[u] in r by {
      forall u | u in st.sessions
        ensures st.sessions[u] in r
      {
        var i :| 0 <= i < |st.order| && st.order[i] == u;
        assert r[i] == st.sessions[u];
      }
    }
    r
  }

  /** The count reports as many sessions as the listing returns. */
  lemma {:induction false} CountMatchesAll(st: Store)
    requires Valid(st)
    ensures ActiveSessionsCount(st) == |AllSessions(st)|
  {
    var keys := set u | u in st.order;
    assert forall u :: u in keys <==> u in st.sessions;
    assert st.sessions.Keys == keys;
    DistinctCard(st.order);
  }

  /** A sequence without repetitions has as many distinct elements as entries. */
  lemma {:induction false} DistinctCard(s: seq<int>)
    requires forall i, j :: 0 <= i < j < |s| ==> s[i] != s[j]
    ensures |set u | u in s| == |s|
    decreases |s|
  {
    if |s| > 0 {
      DistinctCard(s[1..]);
      assert (set u | u in s) == (set u | u in s[1..]) + {s[0]};
      assert s[0] !in s[1..];
    }
  }
}

=== FILE: validators.dfy ===
/** The chat front end's input validation (`InputValidator`): every check
    returns a verdict that is either valid or carries one fixed, user-facing
    error text. Lengths are ECMAScript lengths (UTF-16 code units) of the
    trimmed input; the forbidden-character test looks at the raw input. */
module Validators {
  import opened Common
  import opened Js

  /** `ValidationResult`: `{ isValid: true }` or `{ isValid: false, error }`. */
  datatype Verdict = Valid | Invalid(error: string)

  /** A value the source receives typed `any`: missing (`undefined`/`null`),
      a string, or an integral number. */
  datatype Given = Absent | Text(text: string) | Number(number: int)

  /** JavaScript falsiness of a `Given`: `undefined`, `null`, `""` and `0`. */
  predicate Falsy(g: Given) {
    g == Absent || g == Text("") || g == Number(0)
  }

  /** `parseInt(g)` with no radix: a number is first turned into its
      decimal text. */
  function ParseGiven(g: Given): (n: JsNumber)
    ensures g.Number? ==> n == Finite(g.number)
    ensures g.Absent? ==> n == NaN
  {
    match g
    case Absent => UndefinedIsNaN(); ParseIntNoRadix("undefined")
    case Text(s) => ParseIntNoRadix(s)
    case Number(k) => IntToStringParsesNoRadix(k); ParseIntNoRadix(IntToString(k))
  }

  /** `parseInt(undefined)` reads the text "undefined", which has no digit. */
  lemma UndefinedIsNaN()
    ensures ParseIntNoRadix("undefined") == NaN
  {
    var s := "undefined";
    assert !IsWhite(s[0]);
    assert TrimStart(s) == s;
    assert !IsRadixDigit(s[0], 10);
    assert RadixPrefixLen(s, 10) == 0;
  }

  /** The characters `< > { } [ ] \ | ` ~` the regular expression
      `/[<>{}[\]\\|`~]/` matches. */
  predicate Forbidden(c: char) {
    c == '<' || c == '>' || c == '{' || c == '}' || c == '[' || c == ']'
    || c == '\\' || c == '|' || c == '`' || c == '~'
  }

  predicate HasForbidden(s: string) {
    exists i :: 0 <= i < |s| && Forbidden(s[i])
  }

  // --------------------------------------------------------- first failure

  /** One check of a validator: whether it fails, and the error it reports. */
  datatype Check = Check(fails: bool, error: string)

  /** Runs checks in order; the first failing one decides the error. */
  function FirstFailure(checks: seq<Check>): (v: Verdict)
    ensures v.Valid? <==> forall k :: 0 <= k < |checks| ==> !checks[k].fails
    ensures v.Invalid? ==>
      exists k :: (0 <= k < |checks| && checks[k].fails && v.error == checks[k].error
        && forall j :: 0 <= j < k ==> !checks[j].fails)
  {
    if |checks| == 0 then Valid
    else if checks[0].fails then Invalid(checks[0].error)
    else
      var v := FirstFailure(checks[1..]);
      assert forall k :: 1 <= k < |checks| ==> checks[k] == checks[1..][k - 1];
      if v.Invalid? then
        var k :| 0 <= k < |checks[1..]| && checks[1..][k].fails && v.error == checks[1..][k].error
          && forall j :: 0 <= j < k ==> !checks[1..][j].fails;
        assert checks[k + 1].fails && forall j :: 0 <= j < k + 1 ==> !checks[j].fails;
        v
      else v
  }

  lemma FirstFailureCons(c: Check, rest: seq<Check>)
    ensures FirstFailure([c] + rest) == if c.fails then Invalid(c.error) else FirstFailure(rest)
  {
    assert ([c] + rest)[1..] == rest;
  }

  /** Running two lists of checks one after the other is running their
      concatenation. */
  lemma {:induction false} FirstFailureAppend(a: seq<Check>, b: seq<Check>)
    ensures FirstFailure(a + b) == if FirstFailure(a).Invalid? then FirstFailure(a) else FirstFailure(b)
    decreases |a|
  {
    if |a| == 0 {
      assert a + b == b;
    } else {
      FirstFailureCons(a[0], a[1..] + b);
      assert a + b == [a[0]] + (a[1..] + b);
      FirstFailureCons(a[0], a[1..]);
      assert a == [a[0]] + a[1..];
      FirstFailureAppend(a[1..], b);
    }
  }

  // ------------------------------------------------------------ gift name

  const GiftNameEmpty := "❌ Название подарка не может быть пустым"
  const GiftNameShort := "❌ Название подарка должно содержать минимум 2 символа"
  const GiftNameLong := "❌ Название подарка не должно превышать 100 символов"
  const GiftNameChars := "❌ Название подарка содержит недопустимые символы"

  /** The four checks of `validateGiftName`, in the order they are made. */
  function GiftNameChecks(name: string): seq<Check> {
    var n := Utf16Length(Trim(name));
    [ Check(n == 0, GiftNameEmpty),
      Check(n < 2, GiftNameShort),
      Check(n > 100, GiftNameLong),
      Check(HasForbidden(name), GiftNameChars) ]
  }

  /** What an acceptable gift name is: 2 to 100 code units once trimmed, and
      no forbidden character anywhere in the raw text. */
  predicate AcceptableGiftName(name: string) {
    2 <= Utf16Length(Trim(name)) <= 100 && !HasForbidden(name)
  }

  function ValidateGiftName(name: string): (v: Verdict)
    ensures v.Valid? <==> AcceptableGiftName(name)
    ensures Trim(name) == "" ==> v == Invalid(GiftNameEmpty)
  {
    var n := Utf16Length(Trim(name));
    if name == "" || n == 0 then Invalid(GiftNameEmpty)
    else if n < 2 then Invalid(GiftNameShort)
    else if n > 100 then Invalid(GiftNameLong)
    else if HasForbidden(name) then Invalid(GiftNameChars)
    else Valid
  }

  /** `validateGiftName` reports the error of the first of its four checks
      that fails. */
  lemma GiftNameFirstFailure(name: string)
    ensures ValidateGiftName(name) == FirstFailure(GiftNameChecks(name))
  {
    var c := GiftNameChecks(name);
    FourChecks(c[0], c[1], c[2], c[3]);
    assert c == [c[0], c[1], c[2], c[3]];
  }

  lemma FourChecks(c0: Check, c1: Check, c2: Check, c3: Check)
    ensures FirstFailure([c0, c1, c2, c3]) ==
      if c0.fails then Invalid(c0.error)
      else if c1.fails then Invalid(c1.error)
      else if c2.fails then Invalid(c2.error)
      else if c3.fails then Invalid(c3.error)
      else Valid
  {
    FirstFailureCons(c3, []);
    FirstFailureCons(c2, [c3]);
    FirstFailureCons(c1, [c2, c3]);
    FirstFailureCons(c0, [c1, c2, c3]);
    assert [c0, c1, c2, c3] == [c0] + [c1, c2, c3];
    assert [c1, c2, c3] == [c1] + [c2, c3];
    assert [c2, c3] == [c2] + [c3];
    assert [c3] == [c3] + [];
  }

  // ------------------------------------------- model, background, pattern

  /** The optional preset filters; each has its own noun in the errors. */
  datatype Facet = ModelFacet | BackgroundFacet | PatternFacet {
    function Noun(): string {
      match this
      case ModelFacet => "модели"
      case BackgroundFacet => "фона"
      case PatternFacet => "узора"
    }
  }

  function TooLongError(f: Facet): string {
    "❌ Название " + f.Noun() + " не должно превышать 50 символов"
  }

  function CharsError(f: Facet): string {
    "❌ Название " + f.Noun() + " содержит недопустимые символы"
  }

  /** An optional filter is acceptable when it is blank, or when it is at most
      50 code units once trimmed and has no forbidden character. */
  predicate AcceptableFilter(text: string) {
    Trim(text) == "" || (Utf16Length(Trim(text)) <= 50 && !HasForbidden(text))
  }

  /** `validateModel` / `validateBackground` / `validatePattern`. */
  function ValidateFilter(f: Facet, text: string): (v: Verdict)
    ensures v.Valid? <==> AcceptableFilter(text)
    ensures v.Invalid? ==> v.error == (if Utf16Length(Trim(text)) > 50 then TooLongError(f) else CharsError(f))
  {
    var n := Utf16Length(Trim(text));
    if text == "" || n == 0 then Valid
    else if n > 50 then Invalid(TooLongError(f))
    else if HasForbidden(text) then Invalid(CharsError(f))
    else Valid
  }

  /** A blank filter is always accepted, even one made of forbidden-free
      white space of any length. */
  lemma BlankFilterIsValid(f: Facet, text: string)
    requires forall i :: 0 <= i < |text| ==> IsWhite(text[i])
    ensures ValidateFilter(f, text) == Valid
  {
    TrimEmptyIffBlank(text);
  }

  // ----------------------------------------------------------- identifiers

  const PresetIdMissing := "❌ ID пресета не указан"
  const PresetIdWrong := "❌ Неверный ID пресета"
  const UserIdMissing := "❌ ID пользователя не указан"
  const UserIdWrong := "❌ Неверный ID пользователя"

  /** An identifier is accepted when it is truthy and `parseInt` reads a
      positive number from it. */
  function ValidateId(id: Given, missing: string, wrong: string): (v: Verdict)
    ensures Falsy(id) ==> v == Invalid(missing)
    ensures !Falsy(id) ==> (v.Valid? <==> ParseGiven(id).Finite? && ParseGiven(id).value > 0)
    ensures v.Invalid? && !Falsy(id) ==> v.error == wrong
  {
    if Falsy(id) then Invalid(missing)
    else
      var n := ParseGiven(id);
      if n.NaN? || n.value <= 0 then Invalid(wrong) else Valid
  }

  function ValidatePresetId(id: Given): (v: Verdict)
    ensures Falsy(id) ==> v == Invalid(PresetIdMissing)
    ensures v.Valid? <==> !Falsy(id) && ParseGiven(id).Finite? && ParseGiven(id).value > 0
    ensures v.Invalid? ==> v.error in {PresetIdMissing, PresetIdWrong}
  {
    ValidateId(id, PresetIdMissing, PresetIdWrong)
  }

  function ValidateUserId(id: Given): (v: Verdict)
    ensures Falsy(id) ==> v == Invalid(UserIdMissing)
    ensures v.Valid? <==> !Falsy(id) && ParseGiven(id).Finite? && ParseGiven(id).value > 0
    ensures v.Invalid? ==> v.error in {UserIdMissing, UserIdWrong}
  {
    ValidateId(id, UserIdMissing, UserIdWrong)
  }

  /** A positive id is accepted whether it arrives as a number or as its
      decimal text; the number 0 is falsy and so reported as missing. */
  lemma PositiveIdsAreValid(n: int)
    requires n > 0
    ensures ValidatePresetId(Number(n)) == Valid
    ensures ValidatePresetId(Text(IntToString(n))) == Valid
    ensures ValidatePresetId(Number(0)) == Invalid(PresetIdMissing)
  {
    var text := Text(IntToString(n));
    IntToStringParsesNoRadix(n);
    assert IntToString(n) != "";
    assert !Falsy(text) && ParseGiven(text) == Finite(n);
    assert ParseGiven(Number(n)) == Finite(n);
  }

  const PageWrong := "❌ Неверный номер страницы"

  /** `validatePageNumber`: a missing page (including 0) means the default
      page; otherwise `parseInt` must give a number that is not negative. */
  function ValidatePageNumber(page: Given): (v: Verdict)
    ensures Falsy(page) ==> v == Valid
    ensures v.Valid? <==> Falsy(page) || (ParseGiven(page).Finite? && ParseGiven(page).value >= 0)
    ensures v.Invalid? ==> v.error == PageWrong
  {
    if Falsy(page) then Valid
    else
      var n := ParseGiven(page);
      if n.NaN? || n.value < 0 then Invalid(PageWrong) else Valid
  }

  // ------------------------------------------------- commands and callbacks

  const UnknownCommand := "❌ Неизвестная команда"

  /** `validateCommand`: the empty command is refused even when the list
      contains it. */
  function ValidateCommand(command: string, allowed: seq<string>): (v: Verdict)
    ensures v.Valid? <==> command != "" && command in allowed
    ensures v.Invalid? ==> v.error == UnknownCommand
  {
    if command == "" || command !in allowed then Invalid(UnknownCommand) else Valid
  }

  /** Parsed callback data: anything that is not a non-null object, or an
      object with an `action` property. */
  datatype Payload = NotAnObject | Object(action: Given)

  const BadCallback := "❌ Неверные данные callback"
  const NoAction := "❌ Действие не указано"

  function ValidateCallbackData(data: Payload): (v: Verdict)
    ensures v.Valid? <==> data.Object? && !Falsy(data.action)
    ensures data.NotAnObject? ==> v == Invalid(BadCallback)
    ensures data.Object? && v.Invalid? ==> v == Invalid(NoAction)
  {
    match data
    case NotAnObject => Invalid(BadCallback)
    case Object(action) => if Falsy(action) then Invalid(NoAction) else Valid
  }

  // ---------------------------------------------------------- message text

  const DefaultMaxLength := 1000
  const EmptyText := "❌ Текст сообщения не может быть пустым"

  function TextTooLong(maxLength: int): string {
    "❌ Текст сообщения не должен превышать " + IntToString(maxLength) + " символов"
  }

  /** `validateMessageText`: blank text is refused first; otherwise the RAW
      length (white space included) must not exceed `maxLength`. */
  function ValidateMessageText(text: string, maxLength: int := 1000): (v: Verdict)
    ensures v.Valid? <==> Trim(text) != "" && Utf16Length(text) <= maxLength
    ensures Trim(text) == "" ==> v == Invalid(EmptyText)
    ensures Trim(text) != "" && v.Invalid? ==> v == Invalid(TextTooLong(maxLength))
  {
    if text == "" || Utf16Length(Trim(text)) == 0 then Invalid(EmptyText)
    else if Utf16Length(text) > maxLength then Invalid(TextTooLong(maxLength))
    else Valid
  }

  // ----------------------------------------------------------- preset data

  /** The partial preset `validatePresetData` receives; `None` is `undefined`. */
  datatype PresetData = PresetData(
    giftName: Option<string>, model: Option<string>,
    background: Option<string>, pattern: Option<string>)

  /** A verdict as a check: it fails when the verdict is invalid. */
  function AsCheck(v: Verdict): (c: Check)
    ensures FirstFailure([c]) == v
  {
    assert [Check(v.Invalid?, if v.Invalid? then v.error else "")][1..] == [];
    Check(v.Invalid?, if v.Invalid? then v.error else "")
  }

  /** The checks of the fields that are present, in the order gift name,
      model, background, pattern; absent fields contribute none. */
  function FieldChecks(d: PresetData): (r: seq<Check>)
    ensures |r| <= 4
  {
    (if d.giftName.Some? then [AsCheck(ValidateGiftName(d.giftName.value))] else [])
    + (if d.model.Some? then [AsCheck(ValidateFilter(ModelFacet, d.model.value))] else [])
    + (if d.background.Some? then [AsCheck(ValidateFilter(BackgroundFacet, d.background.value))] else [])
    + (if d.pattern.Some? then [AsCheck(ValidateFilter(PatternFacet, d.pattern.value))] else [])
  }

  /** `validatePresetData`: the first present field that fails decides. */
  function ValidatePresetData(d: PresetData): (v: Verdict)
    ensures v.Invalid? ==> v.error != ""
  {
    var g := if d.giftName.Some? then ValidateGiftName(d.giftName.value) else Valid;
    var m := if d.model.Some? then ValidateFilter(ModelFacet, d.model.value) else Valid;
    var b := if d.background.Some? then ValidateFilter(BackgroundFacet, d.background.value) else Valid;
    var p := if d.pattern.Some? then ValidateFilter(PatternFacet, d.pattern.value) else Valid;
    if g.Invalid? then g else if m.Invalid? then m else if b.Invalid? then b else p
  }

  /** The verdict is the first failure among the present fields' checks. */
  lemma PresetDataFirstFailure(d: PresetData)
    ensures ValidatePresetData(d) == FirstFailure(FieldChecks(d))
  {
    var g := if d.giftName.Some? then [AsCheck(ValidateGiftName(d.giftName.value))] else [];
    var m := if d.model.Some? then [AsCheck(ValidateFilter(ModelFacet, d.model.value))] else [];
    var b := if d.background.Some? then [AsCheck(ValidateFilter(BackgroundFacet, d.background.value))] else [];
    var p := if d.pattern.Some? then [AsCheck(ValidateFilter(PatternFacet, d.pattern.value))] else [];
    FirstFailureAppend(g + m + b, p);
    FirstFailureAppend(g + m, b);
    FirstFailureAppend(g, m);
  }

  /** Preset data is valid exactly when every present field is acceptable;
      absent fields are never checked. */
  lemma PresetDataValidIff(d: PresetData)
    ensures ValidatePresetData(d).Valid? <==>
      (d.giftName.Some? ==> AcceptableGiftName(d.giftName.value))
      && (d.model.Some? ==> AcceptableFilter(d.model.value))
      && (d.background.Some? ==> AcceptableFilter(d.background.value))
      && (d.pattern.Some? ==> AcceptableFilter(d.pattern.value))
  {
  }

  // -------------------------------------------------------------- sanitize

  predicate Allowed(c: char) {
    !Forbidden(c)
  }

  /** `sanitizeInput`: trims, then deletes every forbidden character. What
      is left is every allowed character of the trimmed text, each as often
      as it occurs there, in the original order. */
  function SanitizeInput(input: string): (r: string)
    ensures !HasForbidden(r)
    ensures |r| <= |input|
    ensures forall c :: c in r ==> c in input
    ensures forall c :: multiset(r)[c] == if Allowed(c) then multiset(Trim(input))[c] else 0
    ensures SubsequenceOf(r, Trim(input))
    ensures Trim(input) == input && !HasForbidden(input) ==> r == input
  {
    var t := Trim(input);
    var r := Filter(t, Allowed);
    TrimInside(input);
    KeepAllowed(t);
    if t == input && !HasForbidden(input) then FilterAll(t, Allowed); r else r
  }

  /** Deleting the forbidden characters keeps every other one, in order. */
  lemma KeepAllowed(t: string)
    ensures var r := Filter(t, Allowed);
      && !HasForbidden(r)
      && (forall c :: multiset(r)[c] == if Allowed(c) then multiset(t)[c] else 0)
      && SubsequenceOf(r, t)
  {
    var r := Filter(t, Allowed);
    FilterCounts(t, Allowed);
    FilterIsSubsequence(t, Allowed);
    assert forall i :: 0 <= i < |r| ==> r[i] in r;
  }

  lemma TrimInside(s: string)
    ensures forall c :: c in Trim(s) ==> c in s
  {
    var a := TrimStart(s);
    assert forall c :: c in a ==> c in s;
  }

  // ------------------------------------------------------------------ spam

  /** `checkForSpam`: counts the copies of the current message among the last
      `threshold` messages and flags spam when there are `threshold` of them. */
  function CheckForSpam(messages: seq<string>, current: string, threshold: int := 3): (spam: bool)
    ensures threshold <= 0 ==> spam
    ensures spam && threshold >= 1 ==> |messages| >= threshold && |messages| > 0 && messages[|messages| - 1] == current
  {
    var recent := SliceFrom(messages, -threshold);
    CountWhere(recent, m => m == current) >= threshold
  }

  /** With a threshold of at least one, a message is spam exactly when there
      are at least `threshold` earlier messages and the last `threshold` of
      them all equal it. */
  lemma {:induction false} SpamIff(messages: seq<string>, current: string, threshold: int)
    requires threshold >= 1
    ensures CheckForSpam(messages, current, threshold) <==>
      |messages| >= threshold
      && forall i :: |messages| - threshold <= i < |messages| ==> messages[i] == current
  {
    var recent := SliceFrom(messages, -threshold);
    var p := (m: string) => m == current;
    CountAllIff(recent, p);
    if |messages| >= threshold {
      assert recent == messages[|messages| - threshold..];
      assert forall i :: |messages| - threshold <= i < |messages| ==> messages[i] == recent[i - (|messages| - threshold)];
    } else {
      assert recent == messages;
    }
  }

  /** A threshold of zero or below flags every message: `slice(-0)` is the
      whole list and any count reaches a non-positive threshold. */
  lemma NonPositiveThresholdFlagsAll(messages: seq<string>, current: string, threshold: int)
    requires threshold <= 0
    ensures CheckForSpam(messages, current, threshold)
  {
  }

  /** The count reaches the length exactly when every element qualifies. */
  lemma {:induction false} CountAllIff<T>(s: seq<T>, p: T -> bool)
    ensures CountWhere(s, p) == |s| <==> forall i :: 0 <= i < |s| ==> p(s[i])
    decreases |s|
  {
    if |s| > 0 {
      CountAllIff(s[..|s| - 1], p);
      assert forall i :: 0 <= i < |s| - 1 ==> s[..|s| - 1][i] == s[i];
    }
  }
}
